=== FILE: README.md ===
# TEWL tabular text and tool helpers, in Dafny

This project models the core of TEWL, a C# utility library. Its centre is the
tabular-text pipeline:

- the CSV line decoder of `CsvLineParser`;
- the parsed-line view `CsvParsedLine`, read by index or by header name;
- the `TextBasedTabularDataParser` driver with its row counters;
- the `TabularDataParser` factories and derived totals;
- the `TabDelimitedFileWriter` line buffer.

Around it sit the pure helpers:

- `StringTools`, `FuzzyStringMatching`, `DateTimeTools` and `LocalTimeTools`;
- `DecimalTools`, `CollectionTools` and `IterationTools`;
- the path, list and retry helpers of `EwlStatics`, and `ActionTools.Retry`;
- `ContentTypes`, `PhoneNumber`, `ValidationResult` and the message of `RunProgramException`;
- `ExceptionTools.GetChain`, `DictionaryTools`, `BoolTools`, `OracleTools` and `ObjectTools`.

Each C# file is one Dafny module of the same name. Shared vocabulary lives in
three more modules:

- `Wrappers`: `Option` for a nullable value, `Result` for a call that may throw.
- `Text`: ordinal comparison, ASCII letter and digit classes and case mapping, .NET's white-space set (`char.IsWhiteSpace`), trimming, joining and splitting. `Environment.NewLine` is `"\r\n"`.
- `CSharpInt`: the `int` range, unchecked wrap-around, and division that truncates toward zero.

Modelling choices:

- **Exceptions** are `Err` results that carry the exception's type or message. `GetChain` works on an `Exception` datatype with an optional inner exception.
- **A file** is the sequence of its lines.
- **A line handler** is a function from the row it is given to the errors its fresh `Validator` recorded.
- **A retried action** is a function from the attempt number to "completes" or "throws e". Sleeping is an event in a returned trace.
  `Retry`'s comment speaks of "30 tries" by default. The code makes a first call and then up to `maxAttempts` more, so up to 31 calls; the model follows the code.
- **A `DateTime`** is its tick count. **A `LocalTime`** is its nanosecond of the day.
- **A `decimal`** is a sign, a 96-bit mantissa and a scale of at most 28.
- **A `FileExtensions` table** is a parameter, because that class is not part of this model.

## Model

| member | source | states |
|---|---|---|
| CsvLineParser.SimpleField | Tewl/IO/CsvLineParser.cs:82-92 | the simple field is the text up to, not including, the next comma; the rest starts at that comma or is empty |
| CsvLineParser.RawField | Tewl/IO/CsvLineParser.cs:71-80 | a field is read as quoted exactly when its first character is `"`; reading always consumes input |
| CsvLineParser.FieldsFrom | Tewl/IO/CsvLineParser.cs:63-80 | every decoded field is trimmed, quoted fields included |
| CsvLineParser.Parse | Tewl/IO/CsvLineParser.cs:52-61 | a null, empty or white-space line has no fields; any other line has at least one, and every field is trimmed |
| CsvLineParser.QuotedBodyOfEscape | Tewl/IO/CsvLineParser.cs:94-112 | in a quoted field `""` stands for one `"`; the field ends at the first quote not followed by another |
| CsvLineParser.RawFieldOfQuote | Tewl/IO/CsvLineParser.cs:71-80 | a quoted field followed by anything but a quote reads back as its text |
| CsvLineParser.FieldsFromEncode | Tewl/IO/CsvLineParser.cs:63-112 | decoding a line of quoted, comma-separated, trimmed fields gives back those fields |
| CsvLineParser.DecodeEncode | Tewl/IO/CsvLineParser.cs:52-112 | round trip: `Parse` undoes the quoting encoder for every list of trimmed fields |
| CsvLineParser.FieldsFromAtComma | Tewl/IO/CsvLineParser.cs:63-69 | a simple field ends at the first comma, and decoding goes on after that comma |
| CsvLineParser.PiecesAtFinalComma | Tewl/IO/CsvLineParser.cs:72 | a comma at the end of the line adds no trailing empty field |
| CsvLineParser.FieldsFromUnquoted | Tewl/IO/CsvLineParser.cs:63-92 | without quotes, the fields are the trimmed comma-separated pieces, less a trailing empty one |
| CsvLineParser.ParseUnquoted | Tewl/IO/CsvLineParser.cs:52-92 | a non-blank quote-free line decodes to its trimmed pieces; two commas in a row give `""` |
| CsvLineParser.TextAfterClosingQuoteIsDropped | Tewl/IO/CsvLineParser.cs:65-68 | text after a closing quote that is not a comma ends the line and is discarded |
| CsvLineParser.HeaderMapKeys | Tewl/IO/CsvLineParser.cs:39-45 | the header map's keys are exactly the lower-cased header names |
| CsvLineParser.HeaderMapLastPosition | Tewl/IO/CsvLineParser.cs:39-45 | each name maps to a position holding that name and no later position holds it, so the last duplicate wins |
| CsvLineParser.WithHeaderLine | Tewl/IO/CsvLineParser.cs:39-45 | the header-line constructor maps every lower-cased header to the zero-based position of its last occurrence |
| CsvLineParser.ParseLine | Tewl/IO/CsvLineParser.cs:52-61 | the parsed line holds the decoded fields and the parser's header map; it contains data iff some field is not blank |
| CsvLineParser.DataNeedsNonBlankLine | Tewl/IO/CsvLineParser.cs:53-58 | only a non-null line with a non-white-space character can contain data |
| CsvParsedLine.AnyFieldContainsData | Tewl/IO/CsvParsedLine.cs:37-46 | the constructor's early-exit scan is true iff some field is not blank |
| CsvParsedLine.New | Tewl/IO/CsvParsedLine.cs:37-46 | a new line keeps its fields, has no line number and no header map, and contains data iff some field is not blank |
| CsvParsedLine.SetColumnHeaders | Tewl/IO/CsvParsedLine.cs:35 | a null header map is stored as an empty one; nothing else changes |
| CsvParsedLine.LineNumber | Tewl/IO/CsvParsedLine.cs:26-31 | the getter throws exactly when no number has been set |
| CsvParsedLine.SetLineNumber | Tewl/IO/CsvParsedLine.cs:32 | the setter changes only the line number |
| CsvParsedLine.LineNumberAfterSet | Tewl/IO/CsvParsedLine.cs:26-33 | after setting n, the getter returns n |
| CsvParsedLine.FieldAt | Tewl/IO/CsvParsedLine.cs:54-60 | an index in range returns that field; an index at or past the end returns `""`; only a negative index throws |
| CsvParsedLine.FieldAtReadsPaddedFields | Tewl/IO/CsvParsedLine.cs:52-60 | reading past the end is reading the line padded with empty fields |
| CsvParsedLine.FieldByName | Tewl/IO/CsvParsedLine.cs:65-81 | an empty header map, a null name and an unknown name each fail with their own error; the unknown-name message lists the keys; a known name in any case reads the field at its mapped index |
| CsvParsedLine.FieldByNameIgnoresCase | Tewl/IO/CsvParsedLine.cs:73-80 | two names that differ only in case find the same field |
| CsvParsedLine.ContainsField | Tewl/IO/CsvParsedLine.cs:97 | the answer is whether the lower-cased name is a header key; a null name throws `NullReferenceException` from `ToLower`, and only a null name throws |
| CsvParsedLine.ContainsFieldIffReadable | Tewl/IO/CsvParsedLine.cs:65-97 | a line contains a field exactly when reading it by name succeeds |
| CsvParsedLine.ToStringAsWrittenThrowsOnEmptyLine | Tewl/IO/CsvParsedLine.cs:87-92 | the line with no fields makes `ToString` as written throw |
| CsvParsedLine.CommaPrefixedIsJoin | Tewl/IO/CsvParsedLine.cs:88-90 | the text built before the cut is `", "` in front of the fields joined by `", "` |
| CsvParsedLine.ToStringAgreesWhenFieldsExist | Tewl/IO/CsvParsedLine.cs:87-92 | on every line with a field, `ToString` as written returns the fields joined by `", "` |
| CsvParsedLine.ToString | Tewl/IO/CsvParsedLine.cs:84-92 | corrected `ToString`: the line with no fields gives `""` |
| TextBasedTabularDataParser.CsvDecoder | Tewl/IO/CsvLineParser.cs:52-61 | the CSV parser's `Parse`, used by the driver, yields exactly the decoded fields |
| TextBasedTabularDataParser.HeaderMapOf | Tewl/IO/TextBasedTabularDataParser.cs:25-29 | a header map is built iff the parser has a header row |
| TextBasedTabularDataParser.LinesBeforeData | Tewl/IO/TextBasedTabularDataParser.cs:28-34 | the header row and the rows to skip are consumed, never more than the file holds |
| TextBasedTabularDataParser.Records | Tewl/IO/TextBasedTabularDataParser.cs:48-49 | one record per error, in order: source `"Line " + n`, fatality and message passed through |
| TextBasedTabularDataParser.ParseAndProcessAllLines | Tewl/IO/TextBasedTabularDataParser.cs:22-57 | the statement-by-statement loop computes the run the fold over the data lines defines |
| TextBasedTabularDataParser.ProcessLinesCounters | Tewl/IO/TextBasedTabularDataParser.cs:37-54 | `NonHeaderRows` grows by one per line, `RowsContainingData` by the data rows, `RowsWithoutValidationErrors` by the error-free ones |
| TextBasedTabularDataParser.ProcessLinesHanded | Tewl/IO/TextBasedTabularDataParser.cs:40-45 | the handler is given exactly the data rows, in file order |
| TextBasedTabularDataParser.ProcessLinesRecords | Tewl/IO/TextBasedTabularDataParser.cs:46-51 | a null collection stays null; a non-null one receives every error record of every data row, in order |
| TextBasedTabularDataParser.DataRowsNumbered | Tewl/IO/TextBasedTabularDataParser.cs:37-43 | every handed row contains data and carries the header map. The numbers strictly increase and are exactly first + k for the data-containing lines k, so the row from line k is numbered first + k |
| TextBasedTabularDataParser.DataRowsCount | Tewl/IO/TextBasedTabularDataParser.cs:39-41 | as many rows are handed out as there are data-containing lines |
| TextBasedTabularDataParser.RunCounters | Tewl/IO/TabularDataParsing/TextBasedTabularDataParser.cs:38-54 | after a run from a fresh parser, `RowsWithoutValidationErrors <= RowsContainingData <= NonHeaderRows`, `NonHeaderRows` counts every data line, and `RowsWithValidationErrors` counts the rows with errors |
| TextBasedTabularDataParser.CountersOnlyIncrease | Tewl/IO/TabularDataParsing/TextBasedTabularDataParser.cs:38-54 | reading more lines never lowers a counter |
| TextBasedTabularDataParser.TotalRowsCountsTheFile | Tewl/IO/TabularDataParsing/TabularDataParser.cs:47 | `TotalRows` is the number of lines in the file once the header and skipped rows were present |
| TextBasedTabularDataParser.SinkDoesNotChangeCounting | Tewl/IO/TabularDataParsing/TextBasedTabularDataParser.cs:47-51 | the error collection passed in changes neither the counters nor the rows handed out |
| TextBasedTabularDataParser.ValidationErrorsCollected | Tewl/IO/TabularDataParsing/TextBasedTabularDataParser.cs:23-58 | a null collection receives nothing; a non-null one gets one record per error of every handed row |
| TextBasedTabularDataParser.ParseAndProcessAllLinesInto | Tewl/IO/TabularDataParsing/TabularDataParser.cs:119-121 | the base class's two-argument method always throws `NotImplementedException`; the text-based parser runs the loop |
| TextBasedTabularDataParser.ParseAndProcessAllLinesWithoutErrors | Tewl/IO/TabularDataParsing/TabularDataParser.cs:111-113 | the one-argument overload passes a null collection, which stays null |
| TextBasedTabularDataParser.OverloadsCountAlike | Tewl/IO/TabularDataParsing/TabularDataParser.cs:111-113 | leaving out the collection counts exactly as passing one |
| TabularDataParser.CreateForCsvFile | Tewl/IO/TabularDataParsing/TabularDataParser.cs:87-95 | a fresh CSV parser with the given header setting, nothing to skip, and `HeaderRows` 1 or 0; before a run `TotalRows` is `HeaderRows` and no row has errors |
| TabularDataParser.CreateForExcelFile | Tewl/IO/TabularDataParsing/TabularDataParser.cs:100-105 | both Excel factories set `hasHeaderRow`, so `HeaderRows` and `TotalRows` are 1 before a run, and no row has errors |
| TabDelimitedFileWriter.Create | Tewl/IO/TabDelimitedFileWriter.cs:12 | a new writer starts with an empty line |
| TabDelimitedFileWriter.ClearLine | Tewl/IO/TabDelimitedFileWriter.cs:18 | the line is emptied and the file is untouched |
| TabDelimitedFileWriter.AddValueToLine | Tewl/IO/TabDelimitedFileWriter.cs:24-36 | a null or empty value adds one tab; a value with a tab or a newline throws and leaves the writer unchanged; any other value adds its text and a tab |
| TabDelimitedFileWriter.AddValuesToLine | Tewl/IO/TabDelimitedFileWriter.cs:44-47 | the file is untouched; the call succeeds iff every value is writable |
| TabDelimitedFileWriter.AddValuesAppends | Tewl/IO/TabDelimitedFileWriter.cs:44-47 | adding writable values appends each one's text and a tab, left to right |
| TabDelimitedFileWriter.ThrowKeepsEarlierValues | Tewl/IO/TabDelimitedFileWriter.cs:30-33 | when a value throws, the values before it stay on the line and none after it are added |
| TabDelimitedFileWriter.WriteCurrentLineToFile | Tewl/IO/TabDelimitedFileWriter.cs:53-58 | one line is appended: the buffer with every trailing tab removed; the buffer is reset to `""` |
| TabDelimitedFileWriter.TabTerminatedIsJoin | Tewl/IO/TabDelimitedFileWriter.cs:26-34 | the buffer after adding cells is the cells joined by tabs, plus one tab |
| TabDelimitedFileWriter.WrittenTextIsJoin | Tewl/IO/TabDelimitedFileWriter.cs:54 | trimming trailing tabs leaves the cells joined by tabs, with trailing empty cells dropped |
| TabDelimitedFileWriter.DropTrailingEmpty | Tewl/IO/TabDelimitedFileWriter.cs:54 | the kept cells are a prefix that ends in a non-empty cell, and only empty cells are dropped |
| TabDelimitedFileWriter.WrittenLine | Tewl/IO/TabDelimitedFileWriter.cs:18-58 | a cleared line with values added and written is the values' texts joined by tabs, trailing empty values dropped |
| StringTools.Tokens | Tewl/Tools/StringTools.cs:259-267 | every kept token is trimmed and non-empty |
| StringTools.TokensEmptyIffAllBlank | Tewl/Tools/StringTools.cs:259-267 | no token survives exactly when every input is null or white space |
| StringTools.ConcatenateWithDelimiter | Tewl/Tools/StringTools.cs:259-267 | the result is the tokens joined by the delimiter, so no leading, trailing or doubled delimiter; it is `""` iff no token remains |
| StringTools.ConcatenateCharsWithDelimiter | Tewl/Tools/StringTools.cs:281-287 | the character overload joins the non-blank characters as one-character strings |
| StringTools.DissectByChar | Tewl/Tools/StringTools.cs:44-57 | null exactly when the line is null or lacks the character |
| StringTools.DissectAtFirstOccurrence | Tewl/Tools/StringTools.cs:44-57 | a line holding the character gives the trimmed text before and after its first occurrence |
| StringTools.DissectJoined | Tewl/Tools/StringTools.cs:44-57 | dissecting undoes joining two trimmed texts around the character |
| StringTools.SplitJoin | Tewl/Tools/StringTools.cs:44-57 | splitting on a character that no piece holds undoes joining with it |
| StringTools.Truncate | Tewl/Tools/StringTools.cs:292-297 | null stays null; a negative length throws; otherwise the prefix of length min(maxLength, \|s\|) |
| StringTools.TruncateStart | Tewl/Tools/StringTools.cs:302-307 | null stays null; a negative length throws; otherwise the suffix of length min(maxLength, \|s\|) |
| StringTools.TruncateThenTruncateStart | Tewl/Tools/StringTools.cs:292-307 | the kept prefix and the kept suffix of complementary lengths rebuild the string |
| StringTools.CamelToEnglish | Tewl/Tools/StringTools.cs:143-170 | null and `""` come back unchanged; any other text becomes its spaced form |
| StringTools.Spaced | Tewl/Tools/StringTools.cs:143-170 | the spaced text keeps the first and last characters |
| StringTools.SpacedLength | Tewl/Tools/StringTools.cs:143-170 | the spaced text is one character longer per word start |
| StringTools.SpacedOnlyInsertsSpaces | Tewl/Tools/StringTools.cs:143-170 | deleting the spaces from the spaced form of a space-free text gives back the text |
| StringTools.AppendDelimiter | Tewl/Tools/StringTools.cs:348 | identity on `""`, the delimiter appended otherwise |
| StringTools.PrependDelimiter | Tewl/Tools/StringTools.cs:355 | identity on `""`, the delimiter prepended otherwise |
| StringTools.Surround | Tewl/Tools/StringTools.cs:362 | identity on `""`, surrounded otherwise |
| StringTools.SurroundIsAppendThenPrepend | Tewl/Tools/StringTools.cs:348-362 | surrounding is appending the right text and then prepending the left |
| StringTools.ReplaceLast | Tewl/Tools/StringTools.cs:437-442 | identity when the old value is absent; otherwise only its last occurrence is replaced |
| StringTools.ReplaceLastWithItself | Tewl/Tools/StringTools.cs:437-442 | replacing the last occurrence of a text with itself changes nothing |
| StringTools.SoundExClass | Tewl/Tools/StringTools.cs:498-539 | upper-case letters, and only they, have a class between 0 and 6 |
| StringTools.SoundExDigits | Tewl/Tools/StringTools.cs:497-555 | at most the budget of digits is written, each between '1' and '6' |
| StringTools.SoundExDigitsSkips | Tewl/Tools/StringTools.cs:498-550 | a character outside the switch writes no digit and keeps the previous class, so it does not break a run of one class |
| StringTools.SoundExIgnoresNonLetters | Tewl/Tools/StringTools.cs:497-550 | a character outside the switch inserted after the first leaves the code unchanged |
| StringTools.SoundEx | Tewl/Tools/StringTools.cs:468-568 | `""` for words shorter than two; otherwise four characters: the upper-cased first character, then digits '0'-'6' with zeros only at the end |
| StringTools.SoundExIgnoresCase | Tewl/Tools/StringTools.cs:468-568 | a word and its lower-cased form have the same code |
| StringTools.KeepAllBut | Tewl/Tools/StringTools.cs:112-119 | a character is kept iff it is in the text and not among the removed ones |
| StringTools.RemoveCharacters | Tewl/Tools/StringTools.cs:105 | null stays null; the result holds none of the given characters |
| StringTools.RemoveAllKeepsTheRest | Tewl/Tools/StringTools.cs:105-119 | removing the characters one after another keeps all other characters, in order |
| FuzzyStringMatching.InitTable | Tewl/FuzzyStringMatching.cs:19-24 | the first row and column hold the distances to the empty prefix |
| FuzzyStringMatching.FillColumn | Tewl/FuzzyStringMatching.cs:27-39 | filling column j makes the table hold the prefix distances up to j and leaves the first row alone |
| FuzzyStringMatching.LevenshteinDistance | Tewl/FuzzyStringMatching.cs:14-43 | the table result is the recurrence's distance, of the lower-cased strings when case is ignored; the distance to or from `""` is the other length |
| FuzzyStringMatching.LevCell | Tewl/FuzzyStringMatching.cs:28-37 | each table cell follows from its three neighbours |
| FuzzyStringMatching.LevSelf | Tewl/FuzzyStringMatching.cs:28-29 | a string is at distance 0 from itself |
| FuzzyStringMatching.LevSymmetric | Tewl/FuzzyStringMatching.cs:26-40 | the distance does not depend on the order of the strings |
| FuzzyStringMatching.LevBounds | Tewl/FuzzyStringMatching.cs:26-40 | the distance lies between the difference of the lengths and the longer length |
| FuzzyStringMatching.IgnoreCaseOfCaseVariants | Tewl/FuzzyStringMatching.cs:15-16 | with case ignored, strings that differ only in case are at distance 0 |
| FuzzyStringMatching.Letters | Tewl/FuzzyStringMatching.cs:88-93 | only upper-cased letters and digits are kept |
| FuzzyStringMatching.KeepLetters | Tewl/FuzzyStringMatching.cs:86-93 | the copying loop keeps each letter or digit, upper-cased, in order |
| FuzzyStringMatching.Sort | Tewl/FuzzyStringMatching.cs:95 | the sort returns a sorted permutation |
| FuzzyStringMatching.LetterSimilarityString | Tewl/FuzzyStringMatching.cs:83-97 | `""` for null; otherwise a sorted permutation of the input's upper-cased letters and digits |
| DateTimeTools.HasTime | Tewl/Tools/DateTimeTools.cs:83-85 | false exactly at midnight of a day |
| DateTimeTools.HasTimeNullable | Tewl/Tools/DateTimeTools.cs:78 | null has no time; otherwise as `HasTime` |
| DateTimeTools.AddDays | Tewl/Tools/DateTimeTools.cs:111 | adding days moves by whole days and throws past either end of the `DateTime` range |
| DateTimeTools.IsBetweenDateTimes | Tewl/Tools/DateTimeTools.cs:88-94 | true for every time on or after the start and before the end; false before the start and false from the end on. A null bound is no bound, so both null gives true |
| DateTimeTools.HalfOpenRangesSplit | Tewl/Tools/DateTimeTools.cs:93-94 | two ranges that meet split the times of their union exactly |
| DateTimeTools.NoTime | Tewl/Tools/DateTimeTools.cs:181-184 | throws iff the value has time, with the name in the message |
| DateTimeTools.BeforeNextDay | Tewl/Tools/DateTimeTools.cs:111-112 | a time is before the day after a date iff it falls on or before that date |
| DateTimeTools.IsBetweenDates | Tewl/Tools/DateTimeTools.cs:107-113 | throws iff a bound has time or the end is the last date; otherwise inclusive of the whole end day |
| DateTimeTools.DateTimeRangesOverlap | Tewl/Tools/DateTimeTools.cs:118-132 | throws iff a range ends before it begins; otherwise true iff each range begins before the other ends |
| DateTimeTools.DateTimeRangesOverlapSymmetric | Tewl/Tools/DateTimeTools.cs:118-132 | swapping the ranges changes neither whether the call throws nor its answer |
| DateTimeTools.DateTimeRangesOverlapIffCommonTime | Tewl/Tools/DateTimeTools.cs:118-132 | ranges that each hold a time overlap iff some time lies in both |
| DateTimeTools.DateRangesOverlap | Tewl/Tools/DateTimeTools.cs:166-179 | throws iff a bound has time information, a range is reversed, or an end is the last date `DateTime` holds while some begin is given (`AddDays(1)` in `IsBetweenDates` overflows). Otherwise true iff each range begins on or before the other's end day |
| DateTimeTools.DatesOrderedByDay | Tewl/Tools/DateTimeTools.cs:172-175 | for dates, comparing days is comparing the dates |
| DateTimeTools.DateRangesOverlapIffSharedDay | Tewl/Tools/DateTimeTools.cs:166-179 | date ranges overlap iff they share a day |
| DateTimeTools.DateTimeRangeOverlapsDateRange | Tewl/Tools/DateTimeTools.cs:140-159 | throws iff a date bound has time information, either range is reversed, or the date range ends on the last date `DateTime` holds while some begin is given (`AddDays(1)` overflows). Otherwise true iff each range begins before the other ends |
| DateTimeTools.AnyRangeHolds | Tewl/Tools/DateTimeTools.cs:193 | false iff every range answers false; true only when some range holds the day |
| DateTimeTools.DateRangesCoverAllDates | Tewl/Tools/DateTimeTools.cs:191-198 | true means every day from begin to end lies in a range; false names a day that does not; well-formed ranges never throw |
| DateTimeTools.DaysInMonth | Tewl/Tools/DateTimeTools.cs:253 | a month has 28 to 31 days |
| DateTimeTools.GetNumberOfFullYearsBetweenDates | Tewl/Tools/DateTimeTools.cs:203-215 | throws iff begin is after end; otherwise the non-negative count of anniversaries reached |
| DateTimeTools.WeeksFromFirstOccurrenceOfDayOfWeekInMonth | Tewl/Tools/DateTimeTools.cs:251-255 | forward, a count in [0, 4] that places the date in its week; backward, truncating division gives a count in [-5, -1] that places the date's weekday in the next month |
| LocalTimeTools.InRange | Tewl/Tools/LocalTimeTools.cs:18-22 | null bounds are midnight and the last instant; an ordinary range is inclusive; a range with max before min wraps past midnight |
| LocalTimeTools.MidnightRangeIsComplement | Tewl/Tools/LocalTimeTools.cs:21 | a range through midnight holds exactly the times outside the gap between max and min |
| LocalTimeTools.PlusMinutes | Tewl/Tools/LocalTimeTools.cs:41 | adds the minutes modulo a day; only whole days leave the time unchanged |
| LocalTimeTools.GetStepsInRange | Tewl/Tools/LocalTimeTools.cs:32-53 | the result satisfies `StepsOf`: the steps start at min, each is the previous plus the interval, and all are in range; an ordinary range never goes back past midnight; a range through midnight does so at most once, and every step from then on is at most max; the step not taken goes back past midnight a second time or passes max, and while the one wrap is still pending it must go back past midnight and land after max |
| LocalTimeTools.StepsOfUnique | Tewl/Tools/LocalTimeTools.cs:36-52 | the stop rule pins the list down: at most one list satisfies `StepsOf` |
| LocalTimeTools.MidnightRangeExample | Tewl/Tools/LocalTimeTools.cs:38-50 | 22:00 to 02:00 every 60 minutes gives 22:00, 23:00, 0:00, 1:00, 2:00 |
| LocalTimeTools.MidnightRangeDoesNotStopEarly | Tewl/Tools/LocalTimeTools.cs:43-45 | for 22:00 to 02:00 every 60 minutes, stopping at 23:00 is not allowed, because the first wrap is still pending |
| LocalTimeTools.WholeDayExample | Tewl/Tools/LocalTimeTools.cs:38-47 | with no bounds and 960 minutes the list is 0:00, 16:00: an ordinary range stops at its first step back past midnight |
| DecimalTools.GetBits | Tewl/Tools/DecimalTools.cs:21 | the four words are 32-bit |
| DecimalTools.BitsRoundTrip | Tewl/Tools/DecimalTools.cs:22-25 | the mantissa, sign and exponent read from the words are the decimal's own |
| DecimalTools.Normalize | Tewl/Tools/DecimalTools.cs:19-50 | keeps the sign and the value, never raises the exponent, leaves a mantissa not divisible by 10 unless the exponent is 0, and leaves such a decimal as it is, so it is idempotent |
| DecimalTools.CanonicalFormUnique | Tewl/Tools/DecimalTools.cs:28-34 | two trailing-zero-free decimals of the same sign and value are equal |
| DecimalTools.RoundQuotient | Tewl/Tools/DecimalTools.cs:55 | each `MidpointRounding` mode rounds the quotient as `Math.Round` does |
| DecimalTools.RoundToHundredAsWritten | Tewl/Tools/DecimalTools.cs:55 | as written: throws iff the rounded hundreds do not fit an `int`; the product wraps modulo 2^32 |
| DecimalTools.RoundToHundredAsWrittenWraps | Tewl/Tools/DecimalTools.cs:55 | 3,000,000,000 rounds to -1,294,967,296, which is not a multiple of 100 |
| DecimalTools.RoundToHundred | Tewl/Tools/DecimalTools.cs:52-55 | corrected: a multiple of 100, exactly 100 times the rounded hundreds; throws iff that does not fit an `int` |
| DecimalTools.RoundToHundredAgreesWhenInRange | Tewl/Tools/DecimalTools.cs:55 | where the product fits an `int`, the code as written gives the corrected result |
| DecimalTools.TruncatingDivideExact | Tewl/Tools/DecimalTools.cs:67 | the truncated cents equal the cents iff the division is exact |
| DecimalTools.DollarValueHasFractionalCents | Tewl/Tools/DecimalTools.cs:65-68 | throws iff the cents do not fit an `int`; otherwise true iff value times 100 is not an integer |
| DecimalTools.DecimalToBoolean | Tewl/Tools/DecimalTools.cs:73-79 | 1 gives true, 0 gives false, any other value throws with the "Unknown decimal value" message |
| CollectionTools.Pad | Tewl/Tools/CollectionTools.cs:24-29 | the length is max(\|items\|, length), the items are an unchanged prefix, and each added element is the supplier's next placeholder |
| CollectionTools.PadWithDefault | Tewl/Tools/CollectionTools.cs:19 | the one-argument overload pads with the default value |
| CollectionTools.Count | Tewl/Tools/CollectionTools.cs:40 | a value's group size is its multiplicity |
| CollectionTools.Keys | Tewl/Tools/CollectionTools.cs:40 | the group keys are the distinct values of the input |
| CollectionTools.GetDuplicates | Tewl/Tools/CollectionTools.cs:40 | each value occurring more than once, exactly once, and nothing else |
| CollectionTools.ConcatArray | Tewl/Tools/CollectionTools.cs:45 | the items followed by the extra elements |
| CollectionTools.Materialize | Tewl/Tools/CollectionTools.cs:50 | the same elements in the same order |
| CollectionTools.ToCollection | Tewl/Tools/CollectionTools.cs:55 | a one-element collection holding the item |
| IterationTools.IterateInPieces | Tewl/Tools/IterationTools.cs:23-30 | the pieces, in call order, concatenate to the rows; every piece has `rowsAtaTime` items but the last, which is non-empty; there are ceil(\|rows\| / rowsAtaTime) calls and none for empty input |
| IterationTools.PiecesCount | Tewl/Tools/IterationTools.cs:26-28 | the number of loop passes is the rounded-up quotient |
| EwlStatics.TrimmedPath | Tewl/EwlStatics.cs:154-160 | a segment empty after trimming backslashes and white space gives `""`; any other is followed by one backslash |
| EwlStatics.AppendedIsJoin | Tewl/EwlStatics.cs:146-149 | the appended segments are the non-empty segments joined by backslashes, plus one |
| EwlStatics.TrimmedAppendedIsJoin | Tewl/EwlStatics.cs:146-151 | after the final trim, the appended text is the non-empty segments joined by backslashes |
| EwlStatics.CombinePaths | Tewl/EwlStatics.cs:138-152 | throws `ArgumentException` iff one of the first two paths is null; otherwise the non-empty segments joined by backslashes, never ending in a backslash |
| EwlStatics.FirstItem | Tewl/EwlStatics.cs:183-185 | null for an empty list, else element 0 |
| EwlStatics.LastItem | Tewl/EwlStatics.cs:190-192 | null for an empty list, else the last element |
| EwlStatics.LastIsFirstOfReverse | Tewl/EwlStatics.cs:183-192 | the last item is the first item of the reversed list |
| EwlStatics.ToNewUnderlyingValue | Tewl/EwlStatics.cs:305-307 | null stays null; a present value goes through the selector |
| EwlStatics.ToNewUnderlyingValueComposes | Tewl/EwlStatics.cs:305-307 | mapping twice is mapping once with the composed selector |
| EwlStatics.ToCollection | Tewl/EwlStatics.cs:204-206 | the same one-element collection as `CollectionTools.ToCollection` |
| EwlStatics.Retry | Tewl/EwlStatics.cs:220-233 | stops at the first call that completes and sleeps only between calls. It succeeds iff one of the first maxAttempts + 1 calls completes. On failure it has made all of those calls and throws an `ApplicationException` wrapping the last exception |
| EwlStatics.DecimalToBooleanAcceptsZeroAndOne | Tewl/EwlStatics.cs:172-178 | only 0 and 1 convert; every other decimal throws |
| ActionTools.AllowedCalls | Tewl/Tools/ActionTools.cs:19-28 | at least one call is always made |
| ActionTools.RetryWithDefaults | Tewl/Tools/ActionTools.cs:18 | with the default arguments, at most 31 calls two seconds apart; on failure all 31 calls were made and the 31st exception is the inner one |
| ActionTools.Retry | Tewl/Tools/ActionTools.cs:18-31 | stops at the first call that completes; succeeds iff some allowed call completes; sleeps only between calls; on failure makes every allowed call and throws an `ApplicationException` with the message and the last exception as inner |
| ContentTypes.IsImageType | Tewl/Tools/ContentTypes.cs:104 | true iff the type starts with `image/` |
| ContentTypes.ImageConstants | Tewl/Tools/ContentTypes.cs:94-104 | the Png, Svg, Jpeg and Gif constants are image types |
| ContentTypes.ContentTypeOfExtension | Tewl/Tools/ContentTypes.cs:115-150 | an unrecognised extension gives `""`; any other result is one of the declared constants |
| ContentTypes.Extension | Tewl/Tools/ContentTypes.cs:110-114 | the extension is the suffix from the last `.` |
| ContentTypes.GetContentType | Tewl/Tools/ContentTypes.cs:109-151 | a name without `.` gives `""`; otherwise the content type of its extension; the result is `""` or a declared constant, non-empty iff the extension is recognised |
| PhoneNumber.CreateFromParts | Tewl/InputValidation/PhoneNumber.cs:17-19 | stores the trimmed parts, is not international, and is empty iff the number is blank |
| PhoneNumber.CreateInternational | Tewl/InputValidation/PhoneNumber.cs:24 | stores the trimmed number, is international, leaves the parts `""`, and is empty iff the number is blank |
| PhoneNumber.PartsAndInternationalDiffer | Tewl/InputValidation/PhoneNumber.cs:46-52 | a number built from parts is never an international one |
| ValidationResult.FormatPrefix | Tewl/InputValidation/ValidationResult.cs:7 | brace-free text in front of a template is copied to the front of the formatted message, and a template that fails to format still fails with the prefix |
| ValidationResult.FormatPlain | Tewl/InputValidation/ValidationResult.cs:7 | a template with no braces formats to itself |
| ValidationResult.FormatSubstitutes | Tewl/InputValidation/ValidationResult.cs:7 | `{0}` in a template with no other braces is replaced by the subject |
| ValidationResult.GetErrorMessage | Tewl/InputValidation/ValidationResult.cs:7 | a message with no braces is returned as it is |
| ValidationResult.Custom | Tewl/InputValidation/ValidationResult.cs:11 | stores exactly the given condition and message |
| ValidationResult.FactoryMessages | Tewl/InputValidation/ValidationResult.cs:13-17 | `NoError` has an empty message; `Invalid` and `Empty` carry their conditions and put the subject into their templates |
| ValidationResult.RangeMessages | Tewl/InputValidation/ValidationResult.cs:19-21 | `TooSmall` carries `TooLong` as written, `TooLarge` carries `TooLarge`, and both describe the same inclusive range |
| RunProgramException.OptionalLine | Tewl/Exceptions/RunProgramException.cs:18-23 | a null value adds no line; a present one adds its labelled line |
| RunProgramException.GetMessage | Tewl/Exceptions/RunProgramException.cs:14-26 | the message starts with the given message and a line break and ends with a line break |
| RunProgramException.MessageLines | Tewl/Exceptions/RunProgramException.cs:16-25 | read back line by line: the message, then the error-code, output and error-output lines, each present iff its value is non-null |
| ExceptionTools.GetChain | Tewl/Tools/ExceptionTools.cs:15-20 | the chain starts with the exception, each next element is the previous one's inner exception, the last has none, and its length is the nesting depth plus one |
| ExceptionTools.ChainUnique | Tewl/Tools/ExceptionTools.cs:15-20 | any sequence with those properties is the chain |
| DictionaryTools.TryGetValue | Tewl/Tools/DictionaryTools.cs:14 | the mapped value for a present key, null for an absent one |
| DictionaryTools.TryGetValueNullable | Tewl/Tools/DictionaryTools.cs:20 | the value iff the key is present, else null |
| DictionaryTools.TryGetValueOr | Tewl/Tools/DictionaryTools.cs:26 | the mapped value for a present key, the fallback for an absent one |
| DictionaryTools.FallbackIsNullableOr | Tewl/Tools/DictionaryTools.cs:20-26 | the three-argument overload is the nullable lookup with the fallback for null |
| DictionaryTools.NullResultIsAmbiguous | Tewl/Tools/DictionaryTools.cs:14 | an absent key and a key mapped to null give the same answer |
| ObjectTools.ObjectToString | Tewl/Tools/ObjectTools.cs:12-16 | a present object gives its `ToString`; null gives `""` or null as asked |
| ObjectTools.NeverNullWhenAsked | Tewl/Tools/ObjectTools.cs:12-16 | with `nullToEmptyString`, the result is never null, given a non-null `ToString` |
| BoolTools.ToYesOrNo | Tewl/Tools/BoolTools.cs:13-15 | "Yes" iff true, "No" iff false |
| BoolTools.ToYesOrNoNullable | Tewl/Tools/BoolTools.cs:6-8 | `""` iff null; otherwise as the bool overload |
| BoolTools.ToYesOrEmpty | Tewl/Tools/BoolTools.cs:20-22 | "Yes" iff true, `""` iff false |
| BoolTools.BooleanToDecimal | Tewl/Tools/BoolTools.cs:27-29 | true gives 1 and false gives 0, and converting back gives the bool |
| OracleTools.BooleanRoundTrip | Tewl/Oracle/OracleTools.cs:13-24 | converting a bool to a decimal and back gives the bool |
| OracleTools.DecimalRoundTrip | Tewl/Oracle/OracleTools.cs:18-24 | only 1 and 0 convert; converting one back gives a decimal of the same value |

## Left out

- **Excel files.** The Excel parser's override of `ParseAndProcessAllLines` and the Excel parsed line are not part of this model. They rest on the ClosedXML library, whose cell semantics are outside it. `ParseAndProcessAllLinesInto` therefore requires a parser that is not an Excel one.
- **A throwing line handler.** The handler is a total function from a row to its errors. In .NET, `NonHeaderRows` and `RowsContainingData` are raised before `lineHandler` runs. An exception from the handler therefore leaves both counters raised for a row that is counted neither with nor without errors, and no later line is read. The model has no such abort.
- **Other unseen collaborators.** `FileReader`, `Validator`, `FixedWidthParser`, `FormattingMethods` and `FileExtensions` are not part of this model:
  - the file becomes its lines;
  - the validator becomes the handler's list of errors;
  - the `FileExtensions` constants become a parameter.
- **Process running**, host names and the machine-wide mutex of `EwlStatics`: operating-system calls.
- **Counter widths.** The row counters are unbounded naturals. The C# `int` counters would wrap after 2^31 lines.
- **UTF-16.** A .NET string is a sequence of UTF-16 code units, but the model's `string` is a sequence of Unicode scalar values. On text outside the Basic Multilingual Plane, lengths and positions therefore differ from .NET. For example, `Truncate` on a one-character cut of "😀a" keeps the whole emoji, where .NET keeps a lone high surrogate. The same difference reaches `TruncateStart`, `SoundEx`, `CamelToEnglish` and the Levenshtein distance, which counts code units in .NET.
- **Culture.** Letter tests and case mapping are ASCII, and string comparison is ordinal. White space is the full `char.IsWhiteSpace` set. `LastIndexOf('.')` in `GetContentType` is ordinal too.
- TextBasedTabularDataParser.TotalRowsCountsTheFile: stated only when a parser with a header row skips no further rows. With both, `TotalRows` leaves the skipped rows out, because `HeaderRows` is then 1.
- FuzzyStringMatching.LevenshteinDistance: the recurrence is not proved equal to the minimum number of single-character edits. Its metric properties (`LevSelf`, `LevSymmetric`, `LevBounds`) are proved instead.
- **Similarity score.** `GetSimilarityScore` works in floating point.
- **Other date helpers.** `GetDateOfDayOfWeekInMonth` needs a full Gregorian calendar. The date formatters and `UtcToLocal` depend on culture and time zones.
- **`ToMoneyString`**: culture formatting.
- DecimalTools.RoundToHundred: the division `value / 100m` is treated as exact. For a scale of 27 or 28, .NET first rounds the quotient to 28 decimal places.
- DecimalTools.DollarValueHasFractionalCents: `value * 100` is treated as exact. The real product may overflow the decimal range and throw earlier.
- LocalTimeTools.GetStepsInRange: requires an interval that is not a whole number of days. With such an interval the C# loop never ends, because the time never moves.
- IterationTools.IterateInPieces: requires a positive piece size unless there are no rows. With a size of 0 or `int.MinValue` the C# loop never ends, since `i` stays at 0 or alternates between 0 and `int.MinValue`. With another negative size the loop does end: `Take` with a negative count hands the action only empty pieces until the unchecked `i += rowsAtaTime` wraps to a value at least the row count. That run of empty calls is not modelled. With a positive size, `i` can wrap only once more than 2^30 rows are handed out; this is not modelled either.
- ActionTools.Retry: `Thread.Sleep` with a negative interval throws, except -1, which sleeps forever. The model records the interval without checking it.
- EwlStatics.CombinePaths: a null element of `paths` would throw a `NullReferenceException`. The model's `paths` holds no nulls.
- ValidationResult.Format: models `string.Format` with one argument. `{{` and `}}` give single braces. Any other brace use (alignment, format strings, other indices, an unmatched brace) gives an error. `GetErrorMessage` itself is stated only for messages with no braces. The factory messages with one `{0}` are covered by `FactoryMessages` and `RangeMessages`, through `FormatSubstitutes`.
- **Error conditions.** `ErrorCondition` holds only the five values these factories use, because the enum's file is not part of this model.
- **Out of memory.** The out-of-memory catch in `RunProgramException.getMessage` cannot happen in the model.
- **Null arguments.** Where the model's parameter is a plain `string`, it cannot be null, and the following null behaviour of the C# code is not modelled:
  - `PhoneNumber`: the factories would throw on `Trim`.
  - `StringTools.SoundEx`: a null word throws `NullReferenceException` at `word.Length`.
  - `StringTools.ReplaceLast`: a null `s` throws at `s.LastIndexOf`, and a null `oldValue` throws in `LastIndexOf`. A null `newValue` would act as `""` in the concatenation.
  - `StringTools.ConcatenateWithDelimiter`: a null `delimiter` acts as `""` in `delimiter + token`.
  - `AppendDelimiter`, `PrependDelimiter` and `Surround`: a null `s` throws at `s.Length`, which their documentation forbids. A null delimiter or surrounding text would act as `""`.
  - `ContentTypes.IsImageType` and `ContentTypes.GetContentType`: a null argument throws.
  Null is modelled, as `Option`, where the members' contracts above mention it: the CSV line, the parsed-line lookups, `Tokens`, `DissectByChar`, `Truncate`, `TruncateStart`, `CamelToEnglish`, `RemoveCharacters`, `LetterSimilarityString` and the date and dictionary helpers.
- CsvParsedLine.FieldByName: the unknown-column error carries the name and the set of keys, not the message text, whose key order is the dictionary's.
- CollectionTools.GetDuplicates: the order of the duplicates (first-occurrence order in `GroupBy`) is not stated, only which values appear.
- **Duplicated helpers.** `EwlStatics.ToCollection` and `EwlStatics.Retry` duplicate `CollectionTools.ToCollection` and `ActionTools.Retry`, and are modelled by calling them. The shared default arguments (`maxAttempts = 30`, `retryIntervalMs = 2000`) are modelled once, by `ActionTools.RetryWithDefaults`. The bool/decimal conversions of `EwlStatics`, `BoolTools`, `DecimalTools` and `OracleTools` are each defined once.

## Findings

| source | as written | input that shows it | evidently intended | confidence | as-written member | corrected member |
|---|---|---|---|---|---|---|
| Tewl/IO/CsvParsedLine.cs:87-92 | `text.TruncateStart(text.Length - 2)` runs on the empty text of a line with no fields, so `Substring` gets a negative length and throws | a parsed line with no fields (a blank line) | `""` for a line with no fields | high; not executed | CsvParsedLine.ToStringAsWrittenThrowsOnEmptyLine | CsvParsedLine.ToString |
| Tewl/Tools/DecimalTools.cs:55 | `(int)Math.Round(value / 100m, m) * 100` multiplies in unchecked `int` arithmetic, so a large result wraps | 3,000,000,000 with `ToEven` gives -1,294,967,296 | a multiple of 100, or an overflow error | high; not executed | DecimalTools.RoundToHundredAsWrittenWraps | DecimalTools.RoundToHundred |

=== FILE: action_tools.dfy ===
/** ActionTools.Retry: calls an action until a call does not throw, sleeping
    between attempts, and gives up after maxAttempts + 1 calls.

    The action is the outcome of its k-th call, and a sleep is an event in
    the returned trace. */
module ActionTools {
  import opened Wrappers
  import opened ExceptionTools

  datatype Outcome = Completes | Throws(exception: Exception)

  datatype Event = Call | Sleep(ms: int)

  /** The number of calls allowed: the first one, and one more for each
      failure while the attempt index is below maxAttempts. */
  function AllowedCalls(maxAttempts: int): (n: nat)
    ensures n >= 1
  {
    if maxAttempts < 0 then 1 else maxAttempts + 1
  }

  /** k calls with a sleep of intervalMs between neighbours. */
  predicate IsTrace(events: seq<Event>, calls: nat, intervalMs: int) {
    && |events| == 2 * calls - 1
    && (forall k :: 0 <= k < |events| ==> (events[k] == Call <==> k % 2 == 0))
    && (forall k :: 0 <= k < |events| && k % 2 == 1 ==> events[k] == Sleep(intervalMs))
  }

  method Retry(action: nat -> Outcome, failureMessage: string, maxAttempts: int, retryIntervalMs: int)
    returns (calls: nat, events: seq<Event>, r: Result<(), Exception>)
    ensures 1 <= calls <= AllowedCalls(maxAttempts)
    ensures IsTrace(events, calls, retryIntervalMs)
    ensures forall k :: 0 <= k < calls - 1 ==> action(k).Throws?
    ensures r.Ok? <==> action(calls - 1).Completes?
    ensures r.Ok? <==> exists k :: 0 <= k < AllowedCalls(maxAttempts) && action(k).Completes?
    ensures r.Err? ==> (calls == AllowedCalls(maxAttempts)
      && r.error == ApplicationException(failureMessage, Some(action(calls - 1).exception)))
  {
    var i := 0;
    events := [Call];
    while action(i).Throws? && i < maxAttempts
      invariant 0 <= i < AllowedCalls(maxAttempts)
      invariant IsTrace(events, i + 1, retryIntervalMs)
      invariant forall k :: 0 <= k < i ==> action(k).Throws?
      decreases maxAttempts - i
    {
      events := events + [Sleep(retryIntervalMs), Call];
      i := i + 1;
    }
    calls := i + 1;
    if action(i).Completes? {
      r := Ok(());
    } else {
      r := Err(ApplicationException(failureMessage, Some(action(i).exception)));
      assert forall k :: 0 <= k < AllowedCalls(maxAttempts) ==> action(k).Throws?;
    }
  }

  /** The default arguments of Retry. */
  const DefaultMaxAttempts: int := 30
  const DefaultRetryIntervalMs: int := 2000

  /** Retry with its default arguments: up to 31 calls, two seconds apart. The
      documentation's "30 tries" counts the retries after the first call. */
  method RetryWithDefaults(action: nat -> Outcome, failureMessage: string)
    returns (calls: nat, events: seq<Event>, r: Result<(), Exception>)
    ensures 1 <= calls <= 31
    ensures IsTrace(events, calls, 2000)
    ensures r.Ok? <==> exists k :: 0 <= k < 31 && action(k).Completes?
    ensures r.Err? ==> calls == 31 && r.error == ApplicationException(failureMessage, Some(action(30).exception))
  {
    calls, events, r := Retry(action, failureMessage, DefaultMaxAttempts, DefaultRetryIntervalMs);
  }
}

=== FILE: bool_tools.dfy ===
/** BoolTools: yes/no strings and the boolean-to-decimal conversion for
    storage in Oracle. */
module BoolTools {
  import opened Wrappers
  import opened DecimalTools

  /** ToYesOrNo(this bool). */
  function ToYesOrNo(b: bool): (r: string)
    ensures b <==> r == "Yes"
    ensures !b <==> r == "No"
  {
    if b then "Yes" else "No"
  }

  /** ToYesOrNo(this bool?): the empty string for null, otherwise the
      non-nullable overload. */
  function ToYesOrNoNullable(b: Option<bool>): (r: string)
    ensures b.None? <==> r == ""
    ensures b.Some? ==> r == ToYesOrNo(b.value)
  {
    if b.Some? then ToYesOrNo(b.value) else ""
  }

  /** ToYesOrEmpty: "Yes" for true and the empty string for false. */
  function ToYesOrEmpty(b: bool): (r: string)
    ensures b <==> r == "Yes"
    ensures !b <==> r == ""
  {
    if b then "Yes" else ""
  }

  /** BooleanToDecimal: 1 for true and 0 for false; DecimalToBoolean reads
      it back. */
  function BooleanToDecimal(b: bool): (r: Decimal)
    ensures b <==> SameValue(r, One)
    ensures !b <==> SameValue(r, Zero)
    ensures DecimalToBoolean(r) == Ok(b)
  {
    if b then One else Zero
  }
}

=== FILE: collection_tools.dfy ===
/** CollectionTools: padding, duplicate detection and small sequence
    conversions. A supplier of placeholder items is the item it returns on
    its k-th call. */
module CollectionTools {

  /** Pad(length, getNewPlaceholderItem): a copy of the items, then one new
      placeholder per missing position. */
  method Pad<T>(items: seq<T>, length: int, getNewPlaceholderItem: nat -> T) returns (list: seq<T>)
    ensures |list| == if length > |items| then length else |items|
    ensures list[..|items|] == items
    ensures forall k :: |items| <= k < |list| ==> list[k] == getNewPlaceholderItem(k - |items|)
  {
    list := items;
    while |list| < length
      invariant |items| <= |list| <= if length > |items| then length else |items|
      invariant list[..|items|] == items
      invariant forall k :: |items| <= k < |list| ==> list[k] == getNewPlaceholderItem(k - |items|)
      decreases length - |list|
    {
      list := list + [getNewPlaceholderItem(|list| - |items|)];
    }
  }

  /** Pad(length): the placeholder is default(T), passed in as dflt. */
  method PadWithDefault<T>(items: seq<T>, length: int, dflt: T) returns (list: seq<T>)
    ensures |list| == if length > |items| then length else |items|
    ensures list[..|items|] == items
    ensures forall k :: |items| <= k < |list| ==> list[k] == dflt
  {
    list := Pad(items, length, _ => dflt);
  }

  /** The number of times x occurs in s. */
  function Count<T(==,!new)>(s: seq<T>, x: T): (n: nat)
    ensures n == multiset(s)[x]
  {
    if |s| == 0 then 0
    else
      assert s == s[..|s| - 1] + [s[|s| - 1]];
      Count(s[..|s| - 1], x) + (if s[|s| - 1] == x then 1 else 0)
  }

  predicate NoDuplicates<T(==,!new)>(s: seq<T>) {
    forall i, j :: 0 <= i < j < |s| ==> s[i] != s[j]
  }

  /** The distinct items of s in order of first occurrence (GroupBy's keys). */
  function Keys<T(==,!new)>(s: seq<T>): (r: seq<T>)
    ensures NoDuplicates(r)
    ensures forall x :: x in r <==> x in s
  {
    if |s| == 0 then []
    else
      var prior := Keys(s[..|s| - 1]);
      assert forall x :: x in s <==> x in s[..|s| - 1] || x == s[|s| - 1] by {
        assert s == s[..|s| - 1] + [s[|s| - 1]];
      }
      if s[|s| - 1] in prior then prior else prior + [s[|s| - 1]]
  }

  /** The items of keys that occur more than once in items, in order. */
  function RepeatedKeys<T(==,!new)>(keys: seq<T>, items: seq<T>): (r: seq<T>)
    requires NoDuplicates(keys)
    ensures NoDuplicates(r)
    ensures forall x :: x in r <==> x in keys && multiset(items)[x] > 1
  {
    if |keys| == 0 then []
    else
      var prior := RepeatedKeys(keys[..|keys| - 1], items);
      var last := keys[|keys| - 1];
      assert forall x :: x in keys <==> x in keys[..|keys| - 1] || x == last by {
        assert keys == keys[..|keys| - 1] + [last];
      }
      if Count(items, last) > 1 then prior + [last] else prior
  }

  /** GetDuplicates: the keys of the groups with more than one member: each
      value that occurs more than once, once, in order of first occurrence. */
  function GetDuplicates<T(==,!new)>(items: seq<T>): (r: seq<T>)
    ensures NoDuplicates(r)
    ensures forall x :: x in r <==> multiset(items)[x] > 1
  {
    RepeatedKeys(Keys(items), items)
  }

  /** ConcatArray: the items followed by the extra elements. */
  function ConcatArray<T>(items: seq<T>, ts: seq<T>): (r: seq<T>)
    ensures |r| == |items| + |ts|
    ensures r[..|items|] == items && r[|items|..] == ts
  {
    items + ts
  }

  /** Materialize: the same items, in the same order. */
  function Materialize<T>(items: seq<T>): (r: seq<T>)
    ensures |r| == |items|
    ensures forall i :: 0 <= i < |r| ==> r[i] == items[i]
  {
    items
  }

  /** ToCollection: a collection holding only this item. */
  function ToCollection<T>(item: T): (r: seq<T>)
    ensures |r| == 1 && r[0] == item
  {
    [item]
  }
}

=== FILE: content_types.dfy ===
/** ContentTypes: the declared content-type constants, the image test, and
    the lookup by file extension. The FileExtensions class is not part of
    this model: its constants are a parameter. */
module ContentTypes {
  import opened Text

  const ApplicationPackageFile: string := "application/vnd.android.package-archive"
  const ApplicationZip: string := "application/zip"
  const Html: string := "text/html"
  const JavaScript: string := "application/javascript"
  const Json: string := "application/json"
  const Css: string := "text/css"
  const Csv: string := "text/csv"
  const Pdf: string := "application/pdf"
  const PlainText: string := "text/plain"
  const Xml: string := "text/xml"
  const WordDocx: string := "application/vnd.openxmlformats-officedocument.wordprocessingml.document"
  const WordDoc: string := "application/msword"
  const ExcelXlsx: string := "application/vnd.openxmlformats-officedocument.spreadsheetml.sheet"
  const ExcelXls: string := "application/msexcel"
  const Jpeg: string := "image/jpeg"
  const Gif: string := "image/gif"
  const Png: string := "image/png"
  const Svg: string := "image/svg+xml"

  /** The constants GetContentType can return. */
  const LookedUp: seq<string> := [ApplicationPackageFile, Css, Csv, ExcelXls, ExcelXlsx, Gif, JavaScript,
    Pdf, Png, Svg, PlainText, WordDocx, WordDoc, Xml, ApplicationZip, Jpeg]

  /** The FileExtensions constants the switch compares against; Jpeg is a
      list of spellings. */
  datatype FileExtensions = FileExtensions(
    apk: string, css: string, csv: string, excelXls: string, excelXlsx: string, gif: string,
    javaScript: string, pdf: string, png: string, svg: string, txt: string, wordDocx: string,
    wordDoc: string, xml: string, zip: string, jpeg: seq<string>)

  /** IsImageType: the content type starts with "image/". */
  function IsImageType(contentType: string): (r: bool)
    ensures r <==> |contentType| >= 6 && contentType[..6] == "image/"
  {
    OccursAt(contentType, "image/", 0)
  }

  /** The four image constants are image types. */
  lemma ImageConstants()
    ensures IsImageType(Png) && IsImageType(Svg) && IsImageType(Jpeg) && IsImageType(Gif)
  {
    assert Png[..6] == "image/" && Svg[..6] == "image/" && Jpeg[..6] == "image/" && Gif[..6] == "image/";
  }

  predicate Recognised(e: FileExtensions, x: string) {
    x in [e.apk, e.css, e.csv, e.excelXls, e.excelXlsx, e.gif, e.javaScript, e.pdf, e.png, e.svg,
      e.txt, e.wordDocx, e.wordDoc, e.xml, e.zip] || x in e.jpeg
  }

  /** The switch: the first case label equal to the extension, then the
      Jpeg spellings. The result is the position in LookedUp of the content
      type that case returns, or -1 when no case matches. */
  function SwitchCase(e: FileExtensions, x: string): (k: int)
    ensures -1 <= k < |LookedUp|
    ensures k == -1 <==> !Recognised(e, x)
  {
    if x == e.apk then 0
    else if x == e.css then 1
    else if x == e.csv then 2
    else if x == e.excelXls then 3
    else if x == e.excelXlsx then 4
    else if x == e.gif then 5
    else if x == e.javaScript then 6
    else if x == e.pdf then 7
    else if x == e.png then 8
    else if x == e.svg then 9
    else if x == e.txt then 10
    else if x == e.wordDocx then 11
    else if x == e.wordDoc then 12
    else if x == e.xml then 13
    else if x == e.zip then 14
    else if x in e.jpeg then 15
    else -1
  }

  /** None of the constants GetContentType can return is empty. */
  lemma LookedUpNonEmpty(k: int)
    requires 0 <= k < |LookedUp|
    ensures LookedUp[k] != ""
  {
    assert |LookedUp[k]| > 0;
  }

  /** The content type of the matching case, or the empty string. */
  function ContentTypeOfExtension(e: FileExtensions, x: string): (r: string)
    ensures r == "" || r in LookedUp
    ensures r == "" <==> !Recognised(e, x)
  {
    var k := SwitchCase(e, x);
    if k == -1 then ""
    else
      LookedUpNonEmpty(k);
      LookedUp[k]
  }

  /** The extension of a file name: the suffix from its last '.'. */
  function Extension(fileName: string): (x: string)
    requires '.' in fileName
    ensures 0 < |x| <= |fileName| && x[0] == '.' && '.' !in x[1..]
    ensures fileName == fileName[..|fileName| - |x|] + x
  {
    fileName[LastIndexOfChar(fileName, '.')..]
  }

  /** GetContentType: the empty string for a name without '.', otherwise the
      content type of its extension, compared case-sensitively. */
  function GetContentType(e: FileExtensions, fileName: string): (r: string)
    ensures '.' !in fileName ==> r == ""
    ensures '.' in fileName ==> r == ContentTypeOfExtension(e, Extension(fileName))
    ensures r == "" || r in LookedUp
    ensures r != "" <==> '.' in fileName && Recognised(e, Extension(fileName))
  {
    var beginExtensionIndex := LastIndexOfChar(fileName, '.');
    if beginExtensionIndex == -1 then "" else ContentTypeOfExtension(e, fileName[beginExtensionIndex..])
  }
}

=== FILE: csharp_int.dfy ===
/** C# int arithmetic on unbounded integers: the Int32 range, unchecked
    wrap-around, and division that truncates toward zero. */
module CSharpInt {
  const MinInt32: int := -0x8000_0000
  const MaxInt32: int := 0x7FFF_FFFF
  const TwoTo32: int := 0x1_0000_0000

  predicate InInt32(x: int) {
    MinInt32 <= x <= MaxInt32
  }

  /** The int an unchecked operation leaves: the result modulo 2^32, read as
      a signed 32-bit value. */
  function Wrap32(x: int): (r: int)
    ensures InInt32(r)
    ensures (x - r) % TwoTo32 == 0
    ensures InInt32(x) ==> r == x
  {
    var m := x % TwoTo32;
    if m <= MaxInt32 then m else m - TwoTo32
  }

  /** Integer division as C# performs it: the quotient truncated toward zero,
      so the remainder takes the dividend's sign. */
  function TruncatingDivide(a: int, b: int): (q: int)
    requires b > 0
    ensures a >= 0 ==> 0 <= q * b <= a < (q + 1) * b
    ensures a < 0 ==> (q - 1) * b < a <= q * b <= 0
  {
    if a >= 0 then
      FloorBounds(a, b);
      a / b
    else
      FloorBounds(-a, b);
      var q := -((-a) / b);
      assert q * b == -(((-a) / b) * b);
      assert (q - 1) * b == q * b - b;
      q
  }

  /** Division of a non-negative number by a positive one leaves a remainder
      below the divisor. */
  lemma FloorBounds(a: int, b: int)
    requires a >= 0 && b > 0
    ensures a / b >= 0
    ensures 0 <= (a / b) * b <= a < (a / b) * b + b
    ensures (a / b + 1) * b == (a / b) * b + b
  {
    assert a == (a / b) * b + a % b;
  }
}

=== FILE: csv_line_parser.dfy ===
/** The CSV line decoder of CsvLineParser.

    The source reads one pre-split line through a TextReader; here the reader
    is the remaining, not yet consumed, suffix of the line. Every decoding
    step returns the text it produced together with the suffix left over. */
module CsvLineParser {
  import opened Wrappers
  import opened Text
  import CsvParsedLine

  /** parseSimpleField: the text up to, not including, the next comma. */
  function SimpleField(s: string): (r: (string, string))
    ensures r.0 + r.1 == s
    ensures ',' !in r.0
    ensures r.1 == "" || r.1[0] == ','
  {
    var k := IndexOfChar(s, ',');
    if k == -1 then (s, "") else (s[..k], s[k..])
  }

  /** parseQuotedField after the opening quote: a doubled quote stands for one
      quote, a single quote closes the field and is consumed, and the end of
      the line closes an unterminated field. */
  function QuotedBody(s: string): (r: (string, string))
    ensures |r.1| <= |s|
  {
    if |s| == 0 then ("", "")
    else if s[0] == '"' && (|s| == 1 || s[1] != '"') then ("", s[1..])
    else if s[0] == '"' then
      var b := QuotedBody(s[2..]);
      ("\"" + b.0, b.1)
    else
      var b := QuotedBody(s[1..]);
      ([s[0]] + b.0, b.1)
  }

  /** One raw field: quoted exactly when its very first character is '"'. */
  function RawField(s: string): (r: (string, string))
    requires |s| > 0
    ensures |r.1| <= |s|
  {
    if s[0] == '"' then QuotedBody(s[1..]) else SimpleField(s)
  }

  /** parseCommaSeparatedFields: a field is added only while input remains,
      and decoding continues only when the field is followed by a comma. */
  function FieldsFrom(s: string): (fields: seq<string>)
    ensures forall i :: 0 <= i < |fields| ==> IsTrimmed(fields[i])
    decreases |s|
  {
    if |s| == 0 then []
    else
      var r := RawField(s);
      [Trim(r.0)] + (if |r.1| > 0 && r.1[0] == ',' then FieldsFrom(r.1[1..]) else [])
  }

  /** CsvLineParser.Parse: a null, empty or white-space line has no fields. */
  function Parse(line: Option<string>): (fields: seq<string>)
    ensures line.None? || IsBlank(line.value) ==> fields == []
    ensures line.Some? && !IsBlank(line.value) ==> |fields| > 0
    ensures forall i :: 0 <= i < |fields| ==> IsTrimmed(fields[i])
  {
    if line.None? || IsBlank(line.value) then [] else FieldsFrom(line.value)
  }

  /** The name-to-index map of the header constructor and of
      buildColumnHeadersToIndexesDictionary over the first n header fields:
      each field in turn stores its position under its lower-cased name. */
  function HeaderMapUpTo(fields: seq<string>, n: nat): map<string, int>
    requires n <= |fields|
  {
    if n == 0 then map[] else HeaderMapUpTo(fields, n - 1)[ToLower(fields[n - 1]) := n - 1]
  }

  function HeaderMap(fields: seq<string>): map<string, int> {
    HeaderMapUpTo(fields, |fields|)
  }

  /** The keys are exactly the lower-cased names among the first n fields. */
  lemma {:induction false} HeaderMapKeys(fields: seq<string>, n: nat)
    requires n <= |fields|
    ensures forall k :: k in HeaderMapUpTo(fields, n) <==> exists i :: 0 <= i < n && ToLower(fields[i]) == k
    decreases n
  {
    if n > 0 {
      HeaderMapKeys(fields, n - 1);
      var m := HeaderMapUpTo(fields, n);
      forall k
        ensures k in m <==> exists i :: 0 <= i < n && ToLower(fields[i]) == k
      {
        if k == ToLower(fields[n - 1]) {
          assert 0 <= n - 1 < n && ToLower(fields[n - 1]) == k;
        } else {
          assert k in m <==> k in HeaderMapUpTo(fields, n - 1);
          if k in m {
            var i :| 0 <= i < n - 1 && ToLower(fields[i]) == k;
            assert 0 <= i < n;
          }
          if exists i :: 0 <= i < n && ToLower(fields[i]) == k {
            var i :| 0 <= i < n && ToLower(fields[i]) == k;
            assert 0 <= i < n - 1;
          }
        }
      }
    }
  }

  /** Every name maps to the last position among the first n fields that
      holds it, so a later duplicate overwrites an earlier one. */
  lemma {:induction false} HeaderMapLastPosition(fields: seq<string>, n: nat)
    requires n <= |fields|
    ensures forall k :: k in HeaderMapUpTo(fields, n) ==>
      var i := HeaderMapUpTo(fields, n)[k];
      0 <= i < n && ToLower(fields[i]) == k && forall j :: i < j < n ==> ToLower(fields[j]) != k
    decreases n
  {
    if n > 0 {
      HeaderMapLastPosition(fields, n - 1);
      var prev := HeaderMapUpTo(fields, n - 1);
      var m := HeaderMapUpTo(fields, n);
      forall k | k in m
        ensures 0 <= m[k] < n && ToLower(fields[m[k]]) == k && forall j :: m[k] < j < n ==> ToLower(fields[j]) != k
      {
        if k != ToLower(fields[n - 1]) {
          assert k in prev && m[k] == prev[k];
        }
      }
    }
  }

  /** A CsvLineParser object: the name-to-index map it gives every line it
      parses, empty unless it was built from a header line. */
  datatype LineParser = LineParser(columnHeadersToIndexes: map<string, int>)

  /** The header-line constructor: every lower-cased header name maps to the
      position of its last occurrence. */
  function WithHeaderLine(headerLine: Option<string>): (p: LineParser)
    ensures var fields := Parse(headerLine);
      && (forall k :: k in p.columnHeadersToIndexes <==> exists i :: 0 <= i < |fields| && ToLower(fields[i]) == k)
      && (forall k :: k in p.columnHeadersToIndexes ==>
            var i := p.columnHeadersToIndexes[k];
            0 <= i < |fields| && ToLower(fields[i]) == k
            && forall j :: i < j < |fields| ==> ToLower(fields[j]) != k)
  {
    var fields := Parse(headerLine);
    HeaderMapKeys(fields, |fields|);
    HeaderMapLastPosition(fields, |fields|);
    LineParser(HeaderMap(fields))
  }

  /** Parse as the parser object does it: the decoded fields in a fresh line
      that carries the parser's header map. */
  function ParseLine(p: LineParser, line: Option<string>): (r: CsvParsedLine.ParsedLine)
    ensures r.fields == Parse(line) && r.lineNumber.None?
    ensures r.columnHeadersToIndexes == p.columnHeadersToIndexes
    ensures r.containsData <==> exists i :: 0 <= i < |r.fields| && !IsBlank(r.fields[i])
  {
    CsvParsedLine.SetColumnHeaders(CsvParsedLine.New(Parse(line)), Some(p.columnHeadersToIndexes))
  }

  /** Only a line with a non-white-space character can contain data. */
  lemma DataNeedsNonBlankLine(p: LineParser, line: Option<string>)
    requires ParseLine(p, line).containsData
    ensures line.Some? && !IsBlank(line.value)
  {
  }

  // ----- An encoder, the decoder's partner -----

  /** The quoted body of a field: every quote doubled. */
  function Escape(f: string): string {
    if |f| == 0 then "" else (if f[0] == '"' then "\"\"" else [f[0]]) + Escape(f[1..])
  }

  function Quote(f: string): string {
    "\"" + Escape(f) + "\""
  }

  /** Writes every field quoted, separated by commas. */
  function Encode(fields: seq<string>): string
    decreases |fields|, 1
  {
    if |fields| == 0 then "" else Quote(fields[0]) + Separated(fields[1..])
  }

  /** The fields after the first, each after a comma. */
  function Separated(fields: seq<string>): string
    decreases |fields|, 2
  {
    if |fields| == 0 then "" else "," + Encode(fields)
  }

  /** Reading an escaped body stops exactly at its closing quote. */
  lemma {:induction false} QuotedBodyOfEscape(f: string, rest: string)
    requires rest == "" || rest[0] != '"'
    ensures QuotedBody(Escape(f) + "\"" + rest) == (f, rest)
  {
    var s := Escape(f) + "\"" + rest;
    if |f| == 0 {
      assert s == "\"" + rest;
      assert s[1..] == rest;
    } else {
      QuotedBodyOfEscape(f[1..], rest);
      var t := Escape(f[1..]) + "\"" + rest;
      if f[0] == '"' {
        assert s == "\"\"" + t;
        assert s[2..] == t;
        assert "\"" + f[1..] == f;
      } else {
        assert s == [f[0]] + t;
        assert s[1..] == t;
        assert [f[0]] + f[1..] == f;
      }
    }
  }

  /** A quoted field followed by text that does not start with a quote. */
  lemma RawFieldOfQuote(f: string, rest: string)
    requires rest == "" || rest[0] != '"'
    ensures RawField(Quote(f) + rest) == (f, rest)
  {
    var s := Quote(f) + rest;
    QuotedBodyOfEscape(f, rest);
    assert s[1..] == Escape(f) + "\"" + rest;
  }

  /** A quoted field, then the end of the line or a comma and more fields. */
  lemma FieldsFromQuoteThen(f: string, rest: string)
    requires IsTrimmed(f) && (rest == "" || rest[0] == ',')
    ensures FieldsFrom(Quote(f) + rest) == [f] + (if rest == "" then [] else FieldsFrom(rest[1..]))
  {
    var s := Quote(f) + rest;
    RawFieldOfQuote(f, rest);
    TrimOfTrimmed(f);
    assert FieldsFrom(s) == [Trim(f)] + (if |rest| > 0 && rest[0] == ',' then FieldsFrom(rest[1..]) else []);
  }

  /** Decoding undoes encoding for fields that have no surrounding white space. */
  lemma {:induction false} FieldsFromEncode(fields: seq<string>)
    requires forall i :: 0 <= i < |fields| ==> IsTrimmed(fields[i])
    ensures FieldsFrom(Encode(fields)) == fields
    decreases |fields|
  {
    if |fields| > 0 {
      var tail := fields[1..];
      assert forall i :: 0 <= i < |tail| ==> tail[i] == fields[i + 1];
      FieldsFromEncode(tail);
      FieldsFromEncodeCons(fields[0], tail);
      assert [fields[0]] + tail == fields;
    }
  }

  /** One more quoted field in front of an encoded line decodes in front of
      its fields. */
  lemma FieldsFromEncodeCons(f: string, tail: seq<string>)
    requires IsTrimmed(f) && FieldsFrom(Encode(tail)) == tail
    ensures FieldsFrom(Encode([f] + tail)) == [f] + tail
  {
    var rest := Separated(tail);
    assert ([f] + tail)[1..] == tail;
    assert Encode([f] + tail) == Quote(f) + rest;
    FieldsFromQuoteThen(f, rest);
    if |tail| > 0 {
      assert rest[1..] == Encode(tail);
    }
  }

  /** The round trip through the line decoder: a line written by Encode decodes
      back to the very fields it was written from. */
  lemma DecodeEncode(fields: seq<string>)
    requires forall i :: 0 <= i < |fields| ==> IsTrimmed(fields[i])
    ensures Parse(Some(Encode(fields))) == fields
  {
    FieldsFromEncode(fields);
    if |fields| > 0 {
      EncodeStartsWithQuote(fields);
    }
  }

  lemma EncodeStartsWithQuote(fields: seq<string>)
    requires |fields| > 0
    ensures Encode(fields)[0] == '"' && !IsBlank(Encode(fields))
  {
    var q := Quote(fields[0]);
    assert q[0] == '"';
    FirstOfConcat(q, Separated(fields[1..]));
  }

  lemma FirstOfConcat(a: string, b: string)
    requires |a| > 0
    ensures (a + b)[0] == a[0]
  {
  }

  // ----- Lines without quotes -----

  /** The comma-separated pieces of a line, without the empty piece that a
      comma at the very end of the line would leave. */
  function PiecesWithoutTrailingEmpty(s: string): seq<string> {
    var pieces := Split(s, ',');
    if |s| > 0 && s[|s| - 1] == ',' then pieces[..|pieces| - 1] else pieces
  }

  function TrimEach(xs: seq<string>): (r: seq<string>)
    ensures |r| == |xs|
    ensures forall i :: 0 <= i < |xs| ==> r[i] == Trim(xs[i])
  {
    if |xs| == 0 then [] else [Trim(xs[0])] + TrimEach(xs[1..])
  }

  /** One decoding step on a line that does not start with a quote. */
  lemma FieldsFromAtComma(s: string, k: int)
    requires |s| > 0 && s[0] != '"'
    requires k == IndexOfChar(s, ',') && k != -1
    ensures FieldsFrom(s) == [Trim(s[..k])] + FieldsFrom(s[k + 1..])
  {
    assert RawField(s) == (s[..k], s[k..]);
    assert s[k..][1..] == s[k + 1..];
  }

  lemma SplitAtFirst(s: string, k: int)
    requires k == IndexOfChar(s, ',') && k != -1
    ensures Split(s, ',') == [s[..k]] + Split(s[k + 1..], ',')
  {
    var x, t := s[..k], s[k + 1..];
    var rest := Split(t, ',');
    assert Split(s, ',') == [x] + rest;
  }

  lemma PiecesAtFinalComma(s: string, k: int)
    requires |s| > 0 && k == IndexOfChar(s, ',') && k == |s| - 1
    ensures PiecesWithoutTrailingEmpty(s) == [s[..k]]
  {
    SplitAtFirst(s, k);
    assert s[k + 1..] == "";
    assert Split("", ',') == [""];
  }

  lemma PiecesAtInnerComma(s: string, k: int)
    requires k == IndexOfChar(s, ',') && 0 <= k < |s| - 1
    ensures PiecesWithoutTrailingEmpty(s) == [s[..k]] + PiecesWithoutTrailingEmpty(s[k + 1..])
  {
    var x, t := s[..k], s[k + 1..];
    SplitAtFirst(s, k);
    LastOfSuffix(s, k + 1);
    PiecesOfCons(s, x, t);
  }

  /** The last character of a non-empty suffix is the last of the whole. */
  lemma LastOfSuffix(s: string, j: int)
    requires 0 <= j < |s|
    ensures s[j..][|s| - j - 1] == s[|s| - 1]
  {
  }

  lemma PiecesOfCons(s: string, x: string, t: string)
    requires |s| > 0 && |t| > 0 && s[|s| - 1] == t[|t| - 1]
    requires Split(s, ',') == [x] + Split(t, ',')
    ensures PiecesWithoutTrailingEmpty(s) == [x] + PiecesWithoutTrailingEmpty(t)
  {
    var pt := Split(t, ',');
    if t[|t| - 1] == ',' {
      DropLastOfCons(x, pt);
    }
  }

  lemma DropLastOfCons<T>(x: T, xs: seq<T>)
    requires |xs| > 0
    ensures ([x] + xs)[..|xs|] == [x] + xs[..|xs| - 1]
  {
  }

  lemma TrimEachPrepend(x: string, xs: seq<string>)
    ensures TrimEach([x] + xs) == [Trim(x)] + TrimEach(xs)
  {
    assert ([x] + xs)[1..] == xs;
  }

  lemma {:induction false} FieldsFromUnquoted(s: string)
    requires |s| > 0 && '"' !in s
    ensures FieldsFrom(s) == TrimEach(PiecesWithoutTrailingEmpty(s))
    decreases |s|
  {
    var k := IndexOfChar(s, ',');
    if k == -1 {
      UnquotedWithoutComma(s);
    } else if k == |s| - 1 {
      UnquotedAtFinalComma(s, k);
    } else {
      var t := s[k + 1..];
      FieldsFromAtComma(s, k);
      PiecesAtInnerComma(s, k);
      NoQuoteInSuffix(s, k + 1);
      FieldsFromUnquoted(t);
      TrimEachPrepend(s[..k], PiecesWithoutTrailingEmpty(t));
    }
  }

  lemma UnquotedWithoutComma(s: string)
    requires |s| > 0 && '"' !in s && IndexOfChar(s, ',') == -1
    ensures FieldsFrom(s) == TrimEach(PiecesWithoutTrailingEmpty(s))
  {
    assert RawField(s) == (s, "");
    assert FieldsFrom(s) == [Trim(s)];
    assert s[|s| - 1] in s;
    assert Split(s, ',') == [s];
    assert TrimEach([s]) == [Trim(s)];
  }

  lemma UnquotedAtFinalComma(s: string, k: int)
    requires |s| > 0 && s[0] != '"' && k == IndexOfChar(s, ',') && k == |s| - 1
    ensures FieldsFrom(s) == TrimEach(PiecesWithoutTrailingEmpty(s))
  {
    FieldsFromAtComma(s, k);
    PiecesAtFinalComma(s, k);
    assert s[k + 1..] == "";
    assert FieldsFrom("") == [];
    assert TrimEach([s[..k]]) == [Trim(s[..k])];
  }

  lemma NoQuoteInSuffix(s: string, k: int)
    requires '"' !in s && 0 <= k <= |s|
    ensures '"' !in s[k..]
  {
    forall i | 0 <= i < |s| - k
      ensures s[k..][i] != '"'
    {
      assert s[k..][i] == s[k + i];
    }
  }

  /** A line with no quote character decodes to its comma-separated pieces,
      each trimmed; a final comma adds no empty field, an inner empty piece
      does. */
  lemma ParseUnquoted(line: string)
    requires '"' !in line && !IsBlank(line)
    ensures Parse(Some(line)) == TrimEach(PiecesWithoutTrailingEmpty(line))
  {
    FieldsFromUnquoted(line);
  }

  /** Whatever follows a closing quote other than a comma ends the line and is
      dropped. */
  lemma TextAfterClosingQuoteIsDropped(f: string, junk: string)
    requires junk == "" || (junk[0] != ',' && junk[0] != '"')
    ensures Parse(Some(Quote(f) + junk)) == [Trim(f)]
  {
    var s := Quote(f) + junk;
    RawFieldOfQuote(f, junk);
    assert s[0] == Quote(f)[0] == '"';
    assert !IsBlank(s);
    assert FieldsFrom(s) == [Trim(f)];
  }
}

=== FILE: csv_parsed_line.dfy ===
/** CsvParsedLine: one decoded line, read by zero-based index or by header
    name, with a "contains data" flag and a line number that must be set
    before it is read. */
module CsvParsedLine {
  import opened Wrappers
  import opened Text
  import StringTools

  /** The exceptions the line's members throw. */
  datatype LineError =
    | IndexOutOfRange                   // List<string> indexer, negative index
    | NoHeaderRow                       // InvalidOperationException
    | NullColumnName                    // ArgumentException
    | NullReference                     // NullReferenceException, from calling ToLower on null
    | UnknownColumn(columnName: string, columns: set<string>)  // ArgumentException listing every key
    | LineNumberUnset                   // ApplicationException

  datatype ParsedLine = ParsedLine(
    fields: seq<string>,
    columnHeadersToIndexes: map<string, int>,
    lineNumber: Option<int>,
    containsData: bool)

  predicate HasNonBlankField(fields: seq<string>) {
    exists i :: 0 <= i < |fields| && !IsBlank(fields[i])
  }

  /** The constructor's scan, which stops at the first non-blank field. */
  function AnyFieldContainsData(fields: seq<string>): (r: bool)
    ensures r <==> HasNonBlankField(fields)
  {
    if |fields| == 0 then false
    else if !IsBlank(fields[0]) then true
    else
      var r := AnyFieldContainsData(fields[1..]);
      assert HasNonBlankField(fields) ==> HasNonBlankField(fields[1..]) by {
        if HasNonBlankField(fields) {
          var i :| 0 <= i < |fields| && !IsBlank(fields[i]);
          assert fields[1..][i - 1] == fields[i];
        }
      }
      assert HasNonBlankField(fields[1..]) ==> HasNonBlankField(fields) by {
        if HasNonBlankField(fields[1..]) {
          var i :| 0 <= i < |fields[1..]| && !IsBlank(fields[1..][i]);
          assert fields[i + 1] == fields[1..][i];
        }
      }
      r
  }

  /** The constructor: the fields as given, no line number yet, and no header
      map (the parsers always assign one before handing the line out). */
  function New(fields: seq<string>): (line: ParsedLine)
    ensures line.fields == fields && line.lineNumber.None?
    ensures line.columnHeadersToIndexes == map[]
    ensures line.containsData <==> exists i :: 0 <= i < |fields| && !IsBlank(fields[i])
  {
    ParsedLine(fields, map[], None, AnyFieldContainsData(fields))
  }

  /** The ColumnHeadersToIndexes setter: a null map is stored as an empty one. */
  function SetColumnHeaders(line: ParsedLine, headers: Option<map<string, int>>): (r: ParsedLine)
    ensures r.columnHeadersToIndexes == if headers.None? then map[] else headers.value
    ensures r.fields == line.fields && r.lineNumber == line.lineNumber && r.containsData == line.containsData
  {
    line.(columnHeadersToIndexes := headers.GetOr(map[]))
  }

  /** The LineNumber getter: it throws until a number has been set. */
  function LineNumber(line: ParsedLine): (r: Result<int, LineError>)
    ensures r.Ok? <==> line.lineNumber.Some?
    ensures r.Err? ==> r.error == LineNumberUnset
  {
    match line.lineNumber
    case Some(n) => Ok(n)
    case None => Err(LineNumberUnset)
  }

  function SetLineNumber(line: ParsedLine, n: int): (r: ParsedLine)
    ensures r.fields == line.fields && r.columnHeadersToIndexes == line.columnHeadersToIndexes
    ensures r.containsData == line.containsData
  {
    line.(lineNumber := Some(n))
  }

  /** After the setter, the getter returns exactly the number that was set. */
  lemma LineNumberAfterSet(line: ParsedLine, n: int)
    ensures LineNumber(SetLineNumber(line, n)) == Ok(n)
  {
  }

  /** The int indexer: an index at or past the end reads as "", a negative
      one makes the list indexer throw. */
  function FieldAt(line: ParsedLine, index: int): (r: Result<string, LineError>)
    ensures r.Err? <==> index < 0
    ensures r.Err? ==> r.error == IndexOutOfRange
    ensures 0 <= index < |line.fields| ==> r == Ok(line.fields[index])
    ensures index >= |line.fields| ==> r == Ok("")
  {
    if index >= |line.fields| then Ok("")
    else if index < 0 then Err(IndexOutOfRange)
    else Ok(line.fields[index])
  }

  /** Reading past the end is reading a line padded with empty fields. */
  lemma FieldAtReadsPaddedFields(line: ParsedLine, n: nat, index: nat)
    requires |line.fields| <= n && index < n
    ensures FieldAt(line, index) == Ok((line.fields + seq(n - |line.fields|, _ => ""))[index])
  {
  }

  /** The string indexer: a line without a header map, a null name, and a name
      that is not a header after lower-casing are the three errors; otherwise
      the field at the header's index. */
  function FieldByName(line: ParsedLine, columnName: Option<string>): (r: Result<string, LineError>)
    ensures |line.columnHeadersToIndexes| == 0 ==> r == Err(NoHeaderRow)
    ensures |line.columnHeadersToIndexes| > 0 && columnName.None? ==> r == Err(NullColumnName)
    ensures |line.columnHeadersToIndexes| > 0 && columnName.Some?
      && ToLower(columnName.value) !in line.columnHeadersToIndexes
      ==> r == Err(UnknownColumn(columnName.value, line.columnHeadersToIndexes.Keys))
    ensures columnName.Some? && ToLower(columnName.value) in line.columnHeadersToIndexes
      ==> r == FieldAt(line, line.columnHeadersToIndexes[ToLower(columnName.value)])
  {
    var m := line.columnHeadersToIndexes;
    if |m| == 0 then Err(NoHeaderRow)
    else if columnName.None? then Err(NullColumnName)
    else
      var key := ToLower(columnName.value);
      if key !in m then Err(UnknownColumn(columnName.value, m.Keys))
      else FieldAt(line, m[key])
  }

  /** Two names that differ only in case find the same field. */
  lemma FieldByNameIgnoresCase(line: ParsedLine, a: string, b: string)
    requires ToLower(a) == ToLower(b)
    ensures FieldByName(line, Some(a)).Ok? <==> FieldByName(line, Some(b)).Ok?
    ensures FieldByName(line, Some(a)).Ok? ==> FieldByName(line, Some(a)) == FieldByName(line, Some(b))
  {
  }

  /** ContainsField: whether the lower-cased name is a header. A null name
      throws from ToLower. */
  function ContainsField(line: ParsedLine, fieldName: Option<string>): (r: Result<bool, LineError>)
    ensures fieldName.None? <==> r == Err(NullReference)
    ensures fieldName.Some? ==> r.Ok? && (r.value <==> ToLower(fieldName.value) in line.columnHeadersToIndexes)
  {
    if fieldName.None? then Err(NullReference)
    else Ok(ToLower(fieldName.value) in line.columnHeadersToIndexes)
  }

  /** A field the line contains can be read by name, and a name the line does
      not contain cannot. */
  lemma ContainsFieldIffReadable(line: ParsedLine, name: string)
    requires |line.columnHeadersToIndexes| > 0
    requires forall k :: k in line.columnHeadersToIndexes ==> line.columnHeadersToIndexes[k] >= 0
    ensures ContainsField(line, Some(name)) == Ok(FieldByName(line, Some(name)).Ok?)
  {
  }

  // ----- ToString -----

  /** The text ToString builds before cutting it: ", " and a field for every field. */
  function CommaPrefixed(fields: seq<string>): (text: string)
    ensures |fields| > 0 ==> |text| >= 2 && text[..2] == ", "
  {
    if |fields| == 0 then "" else CommaPrefixed(fields[..|fields| - 1]) + ", " + fields[|fields| - 1]
  }

  /** ToString as written: the built text cut to its last |text| - 2
      characters, which asks TruncateStart for a negative length, and so
      throws, when the line has no fields. */
  function ToStringAsWritten(line: ParsedLine): Result<string, StringTools.StringError> {
    var text := CommaPrefixed(line.fields);
    var cut :- StringTools.TruncateStart(Some(text), |text| - 2);
    Ok(cut.GetOr(""))
  }

  /** The line with no fields is the input that shows it: its ToString throws
      instead of returning "". */
  lemma ToStringAsWrittenThrowsOnEmptyLine()
    ensures ToStringAsWritten(New([])).Err?
  {
  }

  /** ToString as evidently intended: the fields separated by ", ". */
  function ToString(line: ParsedLine): (r: string)
    ensures |line.fields| == 0 ==> r == ""
  {
    Join(", ", line.fields)
  }

  /** The built text is ", " in front of the joined fields. */
  lemma {:induction false} CommaPrefixedIsJoin(fields: seq<string>)
    requires |fields| > 0
    ensures CommaPrefixed(fields) == ", " + Join(", ", fields)
    decreases |fields|
  {
    var init := fields[..|fields| - 1];
    var last := fields[|fields| - 1];
    if |fields| > 1 {
      CommaPrefixedIsJoin(init);
      assert Join(", ", fields) == Join(", ", init) + ", " + last;
      assert CommaPrefixed(fields) == (", " + Join(", ", init)) + ", " + last;
    } else {
      assert CommaPrefixed(init) == "";
      assert CommaPrefixed(fields) == "" + ", " + last;
    }
  }

  /** On every line with a field, the code as written returns the intended
      text. */
  lemma ToStringAgreesWhenFieldsExist(line: ParsedLine)
    requires |line.fields| > 0
    ensures ToStringAsWritten(line) == Ok(ToString(line))
  {
    var text := CommaPrefixed(line.fields);
    CommaPrefixedIsJoin(line.fields);
    assert text[|text| - (|text| - 2)..] == Join(", ", line.fields);
  }
}

=== FILE: date_time_tools.dfy ===
/** DateTimeTools: range tests and overlaps on DateTime values, day coverage,
    whole years between dates, and weeks from the first weekday of a month.

    A DateTime is its tick count (100 ns since 1 January 0001); a date is a
    DateTime whose time of day is zero. The calendar functions read a date's
    year, month and day, so they take those components. */
module DateTimeTools {
  import opened Wrappers
  import opened CSharpInt

  const TicksPerDay: int := 864_000_000_000

  /** DateTime.MaxValue.Ticks: the last tick of 31 December 9999. */
  const MaxTicks: int := 3_155_378_975_999_999_999

  /** Midnight of 31 December 9999, the last date. */
  const LastDate: int := MaxTicks + 1 - TicksPerDay

  type DateTime = t: int | 0 <= t <= MaxTicks

  /** ApplicationException with its message, or ArgumentOutOfRangeException
      from DateTime arithmetic past the last date. */
  datatype DateError = ApplicationError(message: string) | ArgumentOutOfRange

  /** The day a DateTime falls on, counted from 1 January 0001. */
  function DayNumber(t: DateTime): int {
    t / TicksPerDay
  }

  /** HasTime(DateTime): the time of day is not zero. */
  function HasTime(dt: DateTime): (r: bool)
    ensures !r <==> dt == DayNumber(dt) * TicksPerDay
  {
    dt % TicksPerDay != 0
  }

  /** HasTime(DateTime?): false for null. */
  function HasTimeNullable(dt: Option<DateTime>): (r: bool)
    ensures dt.None? ==> !r
    ensures dt.Some? ==> (r <==> dt.value != DayNumber(dt.value) * TicksPerDay)
  {
    dt.Some? && HasTime(dt.value)
  }

  /** DateTime.AddDays: throws past either end of the DateTime range. */
  function AddDays(dt: DateTime, days: int): (r: Result<DateTime, DateError>)
    ensures r.Ok? <==> 0 <= dt + days * TicksPerDay <= MaxTicks
    ensures r.Ok? ==> r.value - dt == days * TicksPerDay
  {
    var t := dt + days * TicksPerDay;
    if 0 <= t <= MaxTicks then Ok(t) else Err(ArgumentOutOfRange)
  }

  /** IsBetweenDateTimes: on or after the first bound and strictly before the
      second; a null bound is no bound. */
  function IsBetweenDateTimes(dt: DateTime, onOrAfterDate: Option<DateTime>, onOrBeforeDate: Option<DateTime>): (r: bool)
    ensures onOrAfterDate.None? && onOrBeforeDate.None? ==> r
    ensures onOrAfterDate == Some(dt) ==> (r <==> onOrBeforeDate.None? || dt < onOrBeforeDate.value)
    ensures onOrBeforeDate.Some? && onOrBeforeDate.value <= dt ==> !r
    ensures onOrAfterDate.Some? && dt < onOrAfterDate.value ==> !r
    ensures (onOrAfterDate.None? || onOrAfterDate.value <= dt) && (onOrBeforeDate.None? || dt < onOrBeforeDate.value) ==> r
  {
    (onOrAfterDate.None? || dt >= onOrAfterDate.value) && (onOrBeforeDate.None? || dt < onOrBeforeDate.value)
  }

  /** Two half-open ranges that meet split the times of their union exactly. */
  lemma HalfOpenRangesSplit(dt: DateTime, a: DateTime, m: DateTime, b: DateTime)
    requires a <= m <= b
    ensures IsBetweenDateTimes(dt, Some(a), Some(b))
        <==> IsBetweenDateTimes(dt, Some(a), Some(m)) || IsBetweenDateTimes(dt, Some(m), Some(b))
    ensures !(IsBetweenDateTimes(dt, Some(a), Some(m)) && IsBetweenDateTimes(dt, Some(m), Some(b)))
  {
  }

  /** assertDateTimeHasNoTime, with the capitalised parameter name. */
  function NoTime(dt: Option<DateTime>, name: string): (r: Result<(), DateError>)
    ensures r.Err? <==> HasTimeNullable(dt)
    ensures r.Err? ==> r.error == ApplicationError(name + " contains time information.")
  {
    if HasTimeNullable(dt) then Err(ApplicationError(name + " contains time information.")) else Ok(())
  }

  /** A time is before the day after a date exactly when it falls on or
      before that date. */
  lemma BeforeNextDay(dt: DateTime, date: DateTime)
    requires !HasTime(date)
    ensures dt < date + TicksPerDay <==> DayNumber(dt) <= DayNumber(date)
  {
    var q := DayNumber(date);
    assert date == q * TicksPerDay;
    assert dt == DayNumber(dt) * TicksPerDay + dt % TicksPerDay;
    if DayNumber(dt) <= q {
      assert DayNumber(dt) * TicksPerDay <= q * TicksPerDay;
    } else {
      assert DayNumber(dt) * TicksPerDay >= (q + 1) * TicksPerDay;
    }
  }

  /** IsBetweenDates: both bounds must be dates; the range is inclusive of
      the whole last day, which is found by adding a day to it (and so throws
      for the last date DateTime can hold). */
  function IsBetweenDates(dt: DateTime, onOrAfterDate: Option<DateTime>, onOrBeforeDate: Option<DateTime>): (r: Result<bool, DateError>)
    ensures r.Err? <==> HasTimeNullable(onOrAfterDate) || HasTimeNullable(onOrBeforeDate) || onOrBeforeDate == Some(LastDate)
    ensures r.Ok? ==> (r.value <==> ((onOrAfterDate.None? || onOrAfterDate.value <= dt)
                                   && (onOrBeforeDate.None? || DayNumber(dt) <= DayNumber(onOrBeforeDate.value))))
  {
    var _ :- NoTime(onOrAfterDate, "On or after date");
    var _ :- NoTime(onOrBeforeDate, "On or before date");
    if onOrBeforeDate.None? then Ok(IsBetweenDateTimes(dt, onOrAfterDate, None))
    else
      var date := onOrBeforeDate.value;
      assert date == DayNumber(date) * TicksPerDay;
      var next :- AddDays(date, 1);
      BeforeNextDay(dt, date);
      Ok(IsBetweenDateTimes(dt, onOrAfterDate, Some(next)))
  }

  // ----- Overlaps -----

  /** A range whose both ends are given and whose end is before its begin. */
  predicate EndsBeforeBegins(begin: Option<DateTime>, end: Option<DateTime>) {
    begin.Some? && end.Some? && end.value < begin.value
  }

  /** DateTimeRangesOverlap: throws for a range that ends before it begins;
      otherwise each range must begin before the other ends. */
  function DateTimeRangesOverlap(rangeOneBegin: Option<DateTime>, rangeOneEnd: Option<DateTime>,
                                 rangeTwoBegin: Option<DateTime>, rangeTwoEnd: Option<DateTime>): (r: Result<bool, DateError>)
    ensures r.Err? <==> EndsBeforeBegins(rangeOneBegin, rangeOneEnd) || EndsBeforeBegins(rangeTwoBegin, rangeTwoEnd)
    ensures EndsBeforeBegins(rangeOneBegin, rangeOneEnd) ==> r == Err(ApplicationError("Range one ends before it begins."))
    ensures r.Ok? ==> (r.value <==> ((rangeOneBegin.None? || rangeTwoEnd.None? || rangeOneBegin.value < rangeTwoEnd.value)
                                   && (rangeTwoBegin.None? || rangeOneEnd.None? || rangeTwoBegin.value < rangeOneEnd.value)))
  {
    if rangeOneEnd.Some? && !IsBetweenDateTimes(rangeOneEnd.value, rangeOneBegin, None) then
      Err(ApplicationError("Range one ends before it begins."))
    else if rangeTwoEnd.Some? && !IsBetweenDateTimes(rangeTwoEnd.value, rangeTwoBegin, None) then
      Err(ApplicationError("Range two ends before it begins."))
    else
      var oneBeginsBeforeTwoEnds := rangeOneBegin.None? || IsBetweenDateTimes(rangeOneBegin.value, None, rangeTwoEnd);
      var twoBeginsBeforeOneEnds := rangeTwoBegin.None? || IsBetweenDateTimes(rangeTwoBegin.value, None, rangeOneEnd);
      Ok(oneBeginsBeforeTwoEnds && twoBeginsBeforeOneEnds)
  }

  /** Swapping the ranges changes neither whether the call throws nor its answer. */
  lemma DateTimeRangesOverlapSymmetric(a: Option<DateTime>, b: Option<DateTime>, c: Option<DateTime>, d: Option<DateTime>)
    ensures DateTimeRangesOverlap(a, b, c, d).Ok? <==> DateTimeRangesOverlap(c, d, a, b).Ok?
    ensures DateTimeRangesOverlap(a, b, c, d).Ok? ==> DateTimeRangesOverlap(a, b, c, d) == DateTimeRangesOverlap(c, d, a, b)
  {
  }

  /** The range holds some time. */
  ghost predicate Inhabited(begin: Option<DateTime>, end: Option<DateTime>) {
    exists t: DateTime :: IsBetweenDateTimes(t, begin, end)
  }

  /** For ranges that each hold some time, they overlap exactly when some time
      lies in both. */
  lemma DateTimeRangesOverlapIffCommonTime(a: Option<DateTime>, b: Option<DateTime>, c: Option<DateTime>, d: Option<DateTime>)
    requires Inhabited(a, b) && Inhabited(c, d)
    ensures DateTimeRangesOverlap(a, b, c, d).Ok?
    ensures DateTimeRangesOverlap(a, b, c, d).value
        <==> exists t: DateTime :: IsBetweenDateTimes(t, a, b) && IsBetweenDateTimes(t, c, d)
  {
    var t1: DateTime :| IsBetweenDateTimes(t1, a, b);
    var t2: DateTime :| IsBetweenDateTimes(t2, c, d);
    if DateTimeRangesOverlap(a, b, c, d).value {
      var t: DateTime :=
        if a.Some? && c.Some? then (if a.value < c.value then c.value else a.value)
        else if a.Some? then a.value
        else if c.Some? then c.value
        else if t1 < t2 then t1 else t2;
      assert IsBetweenDateTimes(t, a, b) && IsBetweenDateTimes(t, c, d);
    }
  }

  /** DateRangesOverlap: every bound must be a date, each range must not end
      before it begins, and each range must begin on or before the day the
      other ends. The second test is skipped once the first fails. */
  function DateRangesOverlap(rangeOneBegin: Option<DateTime>, rangeOneEnd: Option<DateTime>,
                             rangeTwoBegin: Option<DateTime>, rangeTwoEnd: Option<DateTime>): (r: Result<bool, DateError>)
    ensures (HasTimeNullable(rangeOneBegin) || HasTimeNullable(rangeOneEnd)
             || HasTimeNullable(rangeTwoBegin) || HasTimeNullable(rangeTwoEnd)) ==> r.Err?
    ensures r.Ok? ==> (r.value <==> DayOnOrBefore(rangeOneBegin, rangeTwoEnd) && DayOnOrBefore(rangeTwoBegin, rangeOneEnd))
    ensures r.Ok? ==> !EndsBeforeBegins(rangeOneBegin, rangeOneEnd) && !EndsBeforeBegins(rangeTwoBegin, rangeTwoEnd)
    ensures r.Err? <==> (HasTimeNullable(rangeOneBegin) || HasTimeNullable(rangeOneEnd)
                         || HasTimeNullable(rangeTwoBegin) || HasTimeNullable(rangeTwoEnd)
                         || EndsBeforeBegins(rangeOneBegin, rangeOneEnd) || EndsBeforeBegins(rangeTwoBegin, rangeTwoEnd)
                         || ((rangeOneEnd == Some(LastDate) || rangeTwoEnd == Some(LastDate))
                             && (rangeOneBegin.Some? || rangeTwoBegin.Some?)))
  {
    var _ :- NoTime(rangeOneBegin, "Range one begin");
    var _ :- NoTime(rangeOneEnd, "Range one end");
    var _ :- NoTime(rangeTwoBegin, "Range two begin");
    var _ :- NoTime(rangeTwoEnd, "Range two end");
    DatesOrderedByDay(rangeOneBegin, rangeOneEnd);
    DatesOrderedByDay(rangeTwoBegin, rangeTwoEnd);
    var oneInOrder :- if rangeOneBegin.None? then Ok(true) else IsBetweenDates(rangeOneBegin.value, None, rangeOneEnd);
    if !oneInOrder then Err(ApplicationError("Range one ends before it begins."))
    else
      var twoInOrder :- if rangeTwoBegin.None? then Ok(true) else IsBetweenDates(rangeTwoBegin.value, None, rangeTwoEnd);
      if !twoInOrder then Err(ApplicationError("Range two ends before it begins."))
      else
        var oneFirst :- if rangeOneBegin.None? then Ok(true) else IsBetweenDates(rangeOneBegin.value, None, rangeTwoEnd);
        if !oneFirst then Ok(false)
        else
          var twoFirst :- if rangeTwoBegin.None? then Ok(true) else IsBetweenDates(rangeTwoBegin.value, None, rangeOneEnd);
          Ok(twoFirst)
  }

  /** A null bound, or a begin on or before the end's day. */
  predicate DayOnOrBefore(begin: Option<DateTime>, end: Option<DateTime>) {
    begin.None? || end.None? || DayNumber(begin.value) <= DayNumber(end.value)
  }

  /** For dates, comparing days is comparing the dates. */
  lemma DatesOrderedByDay(begin: Option<DateTime>, end: Option<DateTime>)
    requires !HasTimeNullable(begin) && !HasTimeNullable(end)
    ensures DayOnOrBefore(begin, end) <==> !EndsBeforeBegins(begin, end)
  {
    if begin.Some? && end.Some? {
      var b := begin.value;
      var e := end.value;
      assert b == DayNumber(b) * TicksPerDay && e == DayNumber(e) * TicksPerDay;
      if DayNumber(b) <= DayNumber(e) {
        assert DayNumber(b) * TicksPerDay <= DayNumber(e) * TicksPerDay;
      } else {
        assert DayNumber(b) * TicksPerDay > DayNumber(e) * TicksPerDay;
      }
    }
  }

  /** Ranges that share a day overlap; ranges that do not, do not. */
  lemma DateRangesOverlapIffSharedDay(a: Option<DateTime>, b: Option<DateTime>, c: Option<DateTime>, d: Option<DateTime>)
    requires DateRangesOverlap(a, b, c, d).Ok?
    ensures DateRangesOverlap(a, b, c, d).value
        <==> exists day: DateTime :: DayOnOrBefore(a, Some(day)) && DayOnOrBefore(Some(day), b)
                                  && DayOnOrBefore(c, Some(day)) && DayOnOrBefore(Some(day), d)
  {
    if DateRangesOverlap(a, b, c, d).value {
      var day: DateTime :=
        if a.Some? && c.Some? then (if a.value < c.value then c.value else a.value)
        else if a.Some? then a.value
        else if c.Some? then c.value
        else if b.Some? && d.Some? then (if b.value < d.value then b.value else d.value)
        else if b.Some? then b.value
        else if d.Some? then d.value
        else 0;
      DatesOrderedByDay(a, b);
      DatesOrderedByDay(c, d);
      assert a.Some? && c.Some? ==> DayNumber(a.value) <= DayNumber(day) && DayNumber(c.value) <= DayNumber(day);
      assert DayOnOrBefore(a, Some(day)) && DayOnOrBefore(Some(day), b)
          && DayOnOrBefore(c, Some(day)) && DayOnOrBefore(Some(day), d);
    }
  }

  /** DateTimeRangeOverlapsDateRange: a date/time range against a date range,
      inclusive of the date range's last day. */
  function DateTimeRangeOverlapsDateRange(dateTimeRangeBegin: Option<DateTime>, dateTimeRangeEnd: Option<DateTime>,
                                          dateRangeBegin: Option<DateTime>, dateRangeEnd: Option<DateTime>): (r: Result<bool, DateError>)
    ensures HasTimeNullable(dateRangeBegin) || HasTimeNullable(dateRangeEnd) ==> r.Err?
    ensures EndsBeforeBegins(dateTimeRangeBegin, dateTimeRangeEnd) ==> r.Err?
    ensures r.Err? <==> (HasTimeNullable(dateRangeBegin) || HasTimeNullable(dateRangeEnd)
                         || EndsBeforeBegins(dateTimeRangeBegin, dateTimeRangeEnd)
                         || EndsBeforeBegins(dateRangeBegin, dateRangeEnd)
                         || (dateRangeEnd == Some(LastDate) && (dateRangeBegin.Some? || dateTimeRangeBegin.Some?)))
    ensures r.Ok? ==> (r.value <==> (DayOnOrBefore(dateTimeRangeBegin, dateRangeEnd)
                                   && (dateRangeBegin.None? || dateTimeRangeEnd.None? || dateRangeBegin.value < dateTimeRangeEnd.value)))
  {
    var _ :- NoTime(dateRangeBegin, "Date range begin");
    var _ :- NoTime(dateRangeEnd, "Date range end");
    DatesOrderedByDay(dateRangeBegin, dateRangeEnd);
    if dateTimeRangeEnd.Some? && !IsBetweenDateTimes(dateTimeRangeEnd.value, dateTimeRangeBegin, None) then
      Err(ApplicationError("Date/time range ends before it begins."))
    else
      var dateInOrder :- if dateRangeBegin.None? then Ok(true) else IsBetweenDates(dateRangeBegin.value, None, dateRangeEnd);
      if !dateInOrder then Err(ApplicationError("Date range ends before it begins."))
      else
        var first :- if dateTimeRangeBegin.None? then Ok(true) else IsBetweenDates(dateTimeRangeBegin.value, None, dateRangeEnd);
        var second := dateRangeBegin.None? || IsBetweenDateTimes(dateRangeBegin.value, None, dateTimeRangeEnd);
        Ok(first && second)
  }

  // ----- DateRangesCoverAllDates -----

  /** A date range of the list: its begin and end, either possibly null. */
  type DateRange = (Option<DateTime>, Option<DateTime>)

  /** Enumerable.Any over the ranges: true at the first range holding the
      day; an exception from a range before that one propagates. */
  function AnyRangeHolds(day: DateTime, ranges: seq<DateRange>): (r: Result<bool, DateError>)
    ensures r == Ok(false) <==> forall i :: 0 <= i < |ranges| ==> IsBetweenDates(day, ranges[i].0, ranges[i].1) == Ok(false)
    ensures r == Ok(true) ==> exists i :: 0 <= i < |ranges| && IsBetweenDates(day, ranges[i].0, ranges[i].1) == Ok(true)
    ensures (forall i :: 0 <= i < |ranges| ==> IsBetweenDates(day, ranges[i].0, ranges[i].1).Ok?) ==> r.Ok?
  {
    if |ranges| == 0 then Ok(false)
    else
      var holds :- IsBetweenDates(day, ranges[0].0, ranges[0].1);
      if holds then Ok(true)
      else
        var rest := AnyRangeHolds(day, ranges[1..]);
        assert forall i :: 1 <= i < |ranges| ==> ranges[1..][i - 1] == ranges[i];
        rest
  }

  /** Some range holds the day. */
  ghost predicate Covered(day: DateTime, ranges: seq<DateRange>) {
    exists i :: 0 <= i < |ranges| && IsBetweenDates(day, ranges[i].0, ranges[i].1) == Ok(true)
  }

  /** The days the loop visits: beginDate and every whole number of days
      after it, up to endDate. */
  predicate Visited(beginDate: DateTime, endDate: DateTime, day: DateTime) {
    beginDate <= day <= endDate && (day - beginDate) % TicksPerDay == 0
  }

  /** Two visited times less than a day apart are the same time. */
  lemma VisitedDaysApart(beginDate: DateTime, day: DateTime, d: DateTime)
    requires beginDate <= day <= d < day + TicksPerDay
    requires (day - beginDate) % TicksPerDay == 0 && (d - beginDate) % TicksPerDay == 0
    ensures d == day
  {
    var k1 := (day - beginDate) / TicksPerDay;
    var k2 := (d - beginDate) / TicksPerDay;
    assert day - beginDate == k1 * TicksPerDay;
    assert d - beginDate == k2 * TicksPerDay;
  }

  /** DateRangesCoverAllDates: walks the days from beginDate to endDate a day
      at a time and answers false at the first day no range holds. */
  method DateRangesCoverAllDates(beginDate: DateTime, endDate: DateTime, dateRanges: seq<DateRange>)
    returns (r: Result<bool, DateError>)
    ensures r == Ok(true) ==> forall d: DateTime :: Visited(beginDate, endDate, d) ==> Covered(d, dateRanges)
    ensures r == Ok(false) ==> exists d: DateTime :: Visited(beginDate, endDate, d) && !Covered(d, dateRanges)
    ensures ((forall i :: 0 <= i < |dateRanges| ==> !HasTimeNullable(dateRanges[i].0) && !HasTimeNullable(dateRanges[i].1)
                                                    && dateRanges[i].1 != Some(LastDate))
             && endDate < LastDate) ==> r.Ok?
  {
    var day := beginDate;
    while day <= endDate
      invariant beginDate <= day && (day - beginDate) % TicksPerDay == 0
      invariant forall d: DateTime :: Visited(beginDate, endDate, d) && d < day ==> Covered(d, dateRanges)
      decreases endDate - day
    {
      var any := AnyRangeHolds(day, dateRanges);
      if any.Err? {
        return Err(any.error);
      }
      if !any.value {
        assert Visited(beginDate, endDate, day);
        return Ok(false);
      }
      var next := AddDays(day, 1);
      if next.Err? {
        return Err(next.error);
      }
      forall d: DateTime | Visited(beginDate, endDate, d) && d < next.value
        ensures Covered(d, dateRanges)
      {
        if d >= day {
          VisitedDaysApart(beginDate, day, d);
        }
      }
      day := next.value;
    }
    return Ok(true);
  }

  // ----- Calendar functions -----

  predicate IsLeapYear(year: int) {
    (year % 4 == 0 && year % 100 != 0) || year % 400 == 0
  }

  /** DateTime.DaysInMonth. */
  function DaysInMonth(year: int, month: int): (r: int)
    requires 1 <= month <= 12
    ensures 28 <= r <= 31
  {
    if month == 2 then (if IsLeapYear(year) then 29 else 28)
    else if month == 4 || month == 6 || month == 9 || month == 11 then 30
    else 31
  }

  /** A DateTime by its calendar components and its time of day in ticks. */
  datatype CalendarDateTime = CalendarDateTime(year: int, month: int, day: int, timeOfDay: int)

  predicate ValidCalendar(c: CalendarDateTime) {
    1 <= c.year <= 9999 && 1 <= c.month <= 12 && 1 <= c.day <= DaysInMonth(c.year, c.month)
    && 0 <= c.timeOfDay < TicksPerDay
  }

  type CalendarDate = c: CalendarDateTime | ValidCalendar(c) witness CalendarDateTime(1, 1, 1, 0)

  /** The order of DateTime values, which is the order of their components. */
  predicate Before(a: CalendarDate, b: CalendarDate) {
    a.year < b.year
    || (a.year == b.year && (a.month < b.month
    || (a.month == b.month && (a.day < b.day
    || (a.day == b.day && a.timeOfDay < b.timeOfDay)))))
  }

  /** The n-th anniversary of begin's month and day falls on or before end's. */
  predicate AnniversaryReached(begin: CalendarDate, end: CalendarDate, n: int) {
    begin.year + n < end.year
    || (begin.year + n == end.year && (begin.month < end.month || (begin.month == end.month && begin.day <= end.day)))
  }

  /** GetNumberOfFullYearsBetweenDates: throws when begin is after end;
      otherwise the number of anniversaries of begin reached by end. */
  function GetNumberOfFullYearsBetweenDates(beginDate: CalendarDate, endDate: CalendarDate): (r: Result<int, DateError>)
    ensures r.Err? <==> Before(endDate, beginDate)
    ensures r.Ok? ==> r.value >= 0
    ensures r.Ok? ==> AnniversaryReached(beginDate, endDate, r.value) && !AnniversaryReached(beginDate, endDate, r.value + 1)
  {
    if Before(endDate, beginDate) then Err(ApplicationError("The begin date must be before or the same as the end date."))
    else
      var age := endDate.year - beginDate.year;
      if endDate.month < beginDate.month || (endDate.month == beginDate.month && endDate.day < beginDate.day) then Ok(age - 1)
      else Ok(age)
  }

  /** WeeksFromFirstOccurrenceOfDayOfWeekInMonth: forward, the date is the
      (r + 1)-th of its weekday in the month; backward, r weeks from the first
      of its weekday in the next month, which lies r weeks after the date. */
  function WeeksFromFirstOccurrenceOfDayOfWeekInMonth(date: CalendarDate, countBackwardFromFirstOccurrenceInNextMonth: bool): (r: int)
    ensures !countBackwardFromFirstOccurrenceInNextMonth ==> 0 <= r <= 4 && 1 <= date.day - 7 * r <= 7
    ensures countBackwardFromFirstOccurrenceInNextMonth ==>
      (-5 <= r <= -1
      && DaysInMonth(date.year, date.month) < date.day - 7 * r <= DaysInMonth(date.year, date.month) + 7)
  {
    if countBackwardFromFirstOccurrenceInNextMonth then
      TruncatingDivide(date.day - DaysInMonth(date.year, date.month), 7) - 1
    else (date.day - 1) / 7
  }
}

=== FILE: decimal_tools.dfy ===
/** DecimalTools: trailing-zero normalisation, rounding to hundreds, the
    fractional-cents test and the decimal-to-boolean conversion.

    A System.Decimal is a sign, a 96-bit mantissa and a scale from 0 to 28;
    its value is the signed mantissa divided by ten to the scale. */
module DecimalTools {
  import opened Wrappers
  import opened CSharpInt

  const TwoTo64: int := 0x1_0000_0000_0000_0000
  const TwoTo96: int := 0x1_0000_0000_0000_0000_0000_0000
  const MaxScale: int := 28

  datatype DecimalRep = DecimalRep(negative: bool, mantissa: int, scale: int)

  type Decimal = d: DecimalRep | 0 <= d.mantissa < TwoTo96 && 0 <= d.scale <= MaxScale
    witness DecimalRep(false, 0, 0)

  /** OverflowException from a conversion to int; ApplicationException. */
  datatype DecimalError = Overflow | ApplicationError(message: string)

  function Pow10(n: nat): (r: nat)
    ensures r >= 1
  {
    if n == 0 then 1 else 10 * Pow10(n - 1)
  }

  lemma {:induction false} Pow10Add(a: nat, b: nat)
    ensures Pow10(a + b) == Pow10(a) * Pow10(b)
    decreases b
  {
    if b > 0 {
      Pow10Add(a, b - 1);
      assert Pow10(a + b) == 10 * Pow10(a + b - 1);
      assert Pow10(a) * Pow10(b) == Pow10(a) * (10 * Pow10(b - 1)) == 10 * (Pow10(a) * Pow10(b - 1));
    }
  }

  /** The mantissa with the sign applied: the value times ten to the scale. */
  function Signed(d: Decimal): int {
    if d.negative then -d.mantissa else d.mantissa
  }

  /** Decimal equality (==), which compares values and ignores the scale and
      the sign of zero. */
  predicate SameValue(a: Decimal, b: Decimal) {
    Signed(a) * Pow10(b.scale) == Signed(b) * Pow10(a.scale)
  }

  const Zero: Decimal := DecimalRep(false, 0, 0)
  const One: Decimal := DecimalRep(false, 1, 0)

  // ----- decimal.GetBits and new decimal(int[]) -----

  /** The four words of decimal.GetBits, each read as unsigned: the mantissa
      low, middle and high, then the flags with the scale in bits 16-23 and
      the sign in bit 31. */
  datatype Bits = Bits(lo: int, mid: int, hi: int, flags: int)

  function GetBits(d: Decimal): (b: Bits)
    ensures 0 <= b.lo < TwoTo32 && 0 <= b.mid < TwoTo32 && 0 <= b.hi < TwoTo32 && 0 <= b.flags < TwoTo32
  {
    Bits(d.mantissa % TwoTo32, (d.mantissa / TwoTo32) % TwoTo32, d.mantissa / TwoTo64,
         d.scale * 0x1_0000 + (if d.negative then 0x8000_0000 else 0))
  }

  /** The mantissa Normalize assembles from the three low words. */
  function MantissaOf(b: Bits): int {
    b.lo + b.mid * TwoTo32 + b.hi * TwoTo64
  }

  /** bits[3] & int.MinValue, as a flag. */
  function SignOf(b: Bits): bool {
    (b.flags / 0x8000_0000) % 2 == 1
  }

  /** (bits[3] & 0xff0000) >> 16. */
  function ExponentOf(b: Bits): int {
    (b.flags / 0x1_0000) % 0x100
  }

  /** Taking a decimal apart with GetBits and reading the parts back gives
      the decimal's own sign, mantissa and scale. */
  lemma BitsRoundTrip(d: Decimal)
    ensures MantissaOf(GetBits(d)) == d.mantissa
    ensures SignOf(GetBits(d)) == d.negative
    ensures ExponentOf(GetBits(d)) == d.scale
  {
    var m := d.mantissa;
    var high := m / TwoTo32;
    assert m == high * TwoTo32 + m % TwoTo32;
    assert high == (high / TwoTo32) * TwoTo32 + high % TwoTo32;
    assert high / TwoTo32 == m / TwoTo64;
    var f := GetBits(d).flags;
    if d.negative {
      assert f / 0x8000_0000 == 1;
      assert f / 0x1_0000 == d.scale + 0x8000;
    } else {
      assert f / 0x8000_0000 == 0;
      assert f / 0x1_0000 == d.scale;
    }
  }

  // ----- Normalize -----

  /** A decimal without trailing zeros: scale 0, or a mantissa not divisible
      by ten. */
  predicate Canonical(d: Decimal) {
    d.scale == 0 || d.mantissa % 10 != 0
  }

  /** Normalize: reads the words, strips one trailing zero at a time while
      the exponent is positive, and builds the decimal back from the words. */
  method Normalize(input: Decimal) returns (r: Decimal)
    ensures r.negative == input.negative
    ensures r.scale <= input.scale
    ensures r.mantissa * Pow10(input.scale - r.scale) == input.mantissa
    ensures SameValue(r, input)
    ensures Canonical(r)
    ensures Canonical(input) ==> r == input
  {
    var bits := GetBits(input);
    BitsRoundTrip(input);
    var mantissa := MantissaOf(bits);
    var sign := SignOf(bits);
    var exponent := ExponentOf(bits);
    // the loop stops at the first non-zero remainder, as the break does
    while exponent > 0 && mantissa % 10 == 0
      invariant 0 <= exponent <= input.scale
      invariant 0 <= mantissa <= input.mantissa
      invariant mantissa * Pow10(input.scale - exponent) == input.mantissa
      invariant Canonical(input) ==> exponent == input.scale && mantissa == input.mantissa
      decreases exponent
    {
      StripZero(mantissa, input.scale - exponent);
      exponent := exponent - 1;
      mantissa := mantissa / 10;
    }
    r := DecimalRep(sign, mantissa, exponent);
    ScaledSameValue(r, input);
  }

  /** Taking one trailing zero off the mantissa and one off the scale leaves
      the scaled mantissa alone. */
  lemma StripZero(m: int, k: nat)
    requires m >= 0 && m % 10 == 0
    ensures 0 <= m / 10 <= m
    ensures (m / 10) * Pow10(k + 1) == m * Pow10(k)
  {
    var q := m / 10;
    var p := Pow10(k);
    assert m == q * 10;
    assert Pow10(k + 1) == 10 * p;
    MulAssoc(q, 10, p);
  }

  lemma MulAssoc(x: int, y: int, z: int)
    ensures x * (y * z) == (x * y) * z
  {
  }

  /** Dropping k trailing zeros keeps the value. */
  lemma ScaledSameValue(r: Decimal, d: Decimal)
    requires r.negative == d.negative && r.scale <= d.scale
    requires r.mantissa * Pow10(d.scale - r.scale) == d.mantissa
    ensures SameValue(r, d)
  {
    var k := d.scale - r.scale;
    Pow10Add(r.scale, k);
    SignedScaled(r, d, Pow10(k));
    CrossProduct(Signed(r), Signed(d), Pow10(k), Pow10(r.scale), Pow10(d.scale));
  }

  lemma SignedScaled(r: Decimal, d: Decimal, p: int)
    requires r.negative == d.negative && r.mantissa * p == d.mantissa
    ensures Signed(d) == Signed(r) * p
  {
    if r.negative {
      assert -(r.mantissa * p) == (-r.mantissa) * p;
    }
  }

  lemma CrossProduct(sr: int, sd: int, p: int, a: int, pd: int)
    requires sd == sr * p && pd == a * p
    ensures sr * pd == sd * a
  {
    MulAssoc(sr, a, p);
    MulAssoc(sr, p, a);
    assert a * p == p * a;
  }

  /** Each value and sign has one canonical form, so Normalize returns the
      same decimal for any two equal decimals of the same sign, and applying
      it twice is applying it once. */
  lemma CanonicalFormUnique(a: Decimal, b: Decimal)
    requires Canonical(a) && Canonical(b)
    requires a.negative == b.negative && SameValue(a, b)
    ensures a == b
  {
    if a.scale <= b.scale {
      CanonicalFormUniqueOrdered(a, b);
    } else {
      CanonicalFormUniqueOrdered(b, a);
    }
  }

  lemma CanonicalFormUniqueOrdered(a: Decimal, b: Decimal)
    requires Canonical(a) && Canonical(b)
    requires a.negative == b.negative && SameValue(a, b)
    requires a.scale <= b.scale
    ensures a == b
  {
    var k := b.scale - a.scale;
    Pow10Add(a.scale, k);
    CancelScaled(Signed(a), Signed(b), Pow10(k), Pow10(a.scale), Pow10(b.scale));
    SignedScaledBack(a, b, Pow10(k));
    if k > 0 {
      TimesPowerOfTen(a.mantissa, k);
    }
  }

  lemma CancelScaled(sa: int, sb: int, p: int, pa: int, pb: int)
    requires pa > 0 && sa * pb == sb * pa && pb == pa * p
    ensures sa * p == sb
  {
    MulAssoc(sa, pa, p);
    assert sa * (pa * p) == (sa * p) * pa;
    CancelPositive(sa * p, sb, pa);
  }

  lemma SignedScaledBack(a: Decimal, b: Decimal, p: int)
    requires a.negative == b.negative && Signed(a) * p == Signed(b)
    ensures a.mantissa * p == b.mantissa
  {
    if a.negative {
      assert (-a.mantissa) * p == -(a.mantissa * p);
    }
  }

  lemma TimesPowerOfTen(m: int, k: nat)
    requires k > 0
    ensures (m * Pow10(k)) % 10 == 0
  {
    var q := Pow10(k - 1);
    MulAssoc(m, q, 10);
    assert m * Pow10(k) == (m * q) * 10;
  }

  lemma CancelPositive(x: int, y: int, c: int)
    requires c > 0 && x * c == y * c
    ensures x == y
  {
  }

  // ----- Math.Round and RoundToHundred -----

  datatype MidpointRounding = ToEven | AwayFromZero | ToZero | ToNegativeInfinity | ToPositiveInfinity

  /** Math.Round(n / den, mode): the nearest integer, ties going to the even
      one or away from zero, or the integer in the mode's direction. */
  function RoundQuotient(n: int, den: int, mode: MidpointRounding): (q: int)
    requires den > 0
    ensures mode == ToNegativeInfinity ==> q * den <= n < q * den + den
    ensures mode == ToPositiveInfinity ==> q * den - den < n <= q * den
    ensures mode == ToZero ==> q == TruncatingDivide(n, den)
    ensures mode == ToEven || mode == AwayFromZero ==> -den <= 2 * (n - q * den) <= den
    ensures mode == ToEven && (2 * (n - q * den) == den || 2 * (n - q * den) == -den) ==> q % 2 == 0
    ensures mode == AwayFromZero && 2 * (n - q * den) == den ==> n < 0
    ensures mode == AwayFromZero && 2 * (n - q * den) == -den ==> n > 0
  {
    match mode
    case ToNegativeInfinity => Floor(n, den)
    case ToPositiveInfinity => Ceiling(n, den)
    case ToZero => TruncatingDivide(n, den)
    case AwayFromZero => Nearest(n, den, false)
    case ToEven => Nearest(n, den, true)
  }

  function Floor(n: int, den: int): (q: int)
    requires den > 0
    ensures q * den <= n < q * den + den
  {
    FloorBoundsAnySign(n, den);
    n / den
  }

  function Ceiling(n: int, den: int): (q: int)
    requires den > 0
    ensures q * den - den < n <= q * den
  {
    FloorBoundsAnySign(n, den);
    if n % den == 0 then n / den else n / den + 1
  }

  /** The integer nearest n / den; a tie goes to the even neighbour when
      toEven holds and away from zero otherwise. */
  function Nearest(n: int, den: int, toEven: bool): (q: int)
    requires den > 0
    ensures -den <= 2 * (n - q * den) <= den
    ensures toEven && (2 * (n - q * den) == den || 2 * (n - q * den) == -den) ==> q % 2 == 0
    ensures !toEven && 2 * (n - q * den) == den ==> n < 0
    ensures !toEven && 2 * (n - q * den) == -den ==> n > 0
  {
    FloorBoundsAnySign(n, den);
    var f := n / den;
    var rem := n % den;
    if 2 * rem < den then f
    else if 2 * rem > den then f + 1
    else if toEven then (if f % 2 == 0 then f else f + 1)
    else if n >= 0 then f + 1
    else f
  }

  /** Euclidean division by a positive number, for a dividend of any sign. */
  lemma FloorBoundsAnySign(n: int, den: int)
    requires den > 0
    ensures n == (n / den) * den + n % den && 0 <= n % den < den
    ensures (n / den + 1) * den == (n / den) * den + den
  {
  }

  /** Math.Round(value / 100m, m): the value in hundreds, rounded. */
  function HundredsRounded(value: Decimal, m: MidpointRounding): int {
    RoundQuotient(Signed(value), Pow10(value.scale) * 100, m)
  }

  /** RoundToHundred as written: the checked cast to int of the rounded
      hundreds, then an unchecked multiplication by 100, which wraps. */
  function RoundToHundredAsWritten(value: Decimal, m: MidpointRounding): (r: Result<int, DecimalError>)
    ensures r.Err? <==> !InInt32(HundredsRounded(value, m))
    ensures r.Ok? ==> InInt32(r.value) && (r.value - 100 * HundredsRounded(value, m)) % TwoTo32 == 0
  {
    var hundreds := HundredsRounded(value, m);
    WrappedHundreds(hundreds);
    if !InInt32(hundreds) then Err(Overflow) else Ok(Wrap32(hundreds * 100))
  }

  lemma WrappedHundreds(h: int)
    ensures InInt32(Wrap32(h * 100)) && (Wrap32(h * 100) - 100 * h) % TwoTo32 == 0
  {
    assert h * 100 == 100 * h;
  }

  /** Three billion rounds to 30,000,000 hundreds, and 30,000,000 * 100 wraps
      to a negative number that is not a multiple of 100. */
  lemma RoundToHundredAsWrittenWraps()
    ensures RoundToHundredAsWritten(DecimalRep(false, 3_000_000_000, 0), ToEven) == Ok(-1_294_967_296)
    ensures -1_294_967_296 % 100 != 0
  {
    var v: Decimal := DecimalRep(false, 3_000_000_000, 0);
    assert Pow10(0) == 1;
    assert HundredsRounded(v, ToEven) == 30_000_000;
  }

  /** RoundToHundred as evidently intended: the nearest hundred, or an
      OverflowException when it does not fit in an int. */
  function RoundToHundred(value: Decimal, m: MidpointRounding): (r: Result<int, DecimalError>)
    ensures r.Err? <==> !InInt32(100 * HundredsRounded(value, m))
    ensures r.Ok? ==> r.value % 100 == 0 && r.value == 100 * HundredsRounded(value, m)
  {
    var hundreds := HundredsRounded(value, m);
    if !InInt32(hundreds * 100) then Err(Overflow) else Ok(hundreds * 100)
  }

  /** Wherever the hundred fits in an int, the code as written returns it. */
  lemma RoundToHundredAgreesWhenInRange(value: Decimal, m: MidpointRounding)
    requires InInt32(100 * HundredsRounded(value, m))
    ensures RoundToHundredAsWritten(value, m) == RoundToHundred(value, m)
  {
  }

  // ----- DollarValueHasFractionalCents -----

  /** C#'s truncated quotient times the divisor gives back the dividend
      exactly when the divisor divides its magnitude. */
  lemma TruncatingDivideExact(a: int, b: int)
    requires b > 0
    ensures TruncatingDivide(a, b) * b == a <==> (if a < 0 then -a else a) % b == 0
  {
    var x := if a < 0 then -a else a;
    var k := x / b;
    assert x == k * b + x % b;
    if a < 0 {
      assert TruncatingDivide(a, b) == -k;
      assert (-k) * b == -(k * b);
    }
  }

  /** DollarValueHasFractionalCents: the value times 100, cast to int (which
      throws past the int range), differs from the value times 100, that is,
      ten to the scale does not divide the mantissa times 100. */
  function DollarValueHasFractionalCents(dollarValue: Decimal): (r: Result<bool, DecimalError>)
    ensures r.Err? <==> !InInt32(TruncatingDivide(Signed(dollarValue) * 100, Pow10(dollarValue.scale)))
    ensures r.Ok? ==> (r.value <==> (dollarValue.mantissa * 100) % Pow10(dollarValue.scale) != 0)
  {
    var cents := Signed(dollarValue) * 100;
    var p := Pow10(dollarValue.scale);
    var whole := TruncatingDivide(cents, p);
    if !InInt32(whole) then Err(Overflow)
    else
      TruncatingDivideExact(cents, p);
      assert (if cents < 0 then -cents else cents) == dollarValue.mantissa * 100;
      Ok(whole * p != cents)
  }

  // ----- DecimalToBoolean -----

  lemma SameValueOne(d: Decimal)
    ensures SameValue(d, One) <==> Signed(d) == Pow10(d.scale)
  {
    assert Pow10(One.scale) == 1 && Signed(One) == 1;
    assert Signed(d) * 1 == Signed(d) && 1 * Pow10(d.scale) == Pow10(d.scale);
  }

  lemma SameValueZero(d: Decimal)
    ensures SameValue(d, Zero) <==> d.mantissa == 0
  {
    assert Pow10(Zero.scale) == 1 && Signed(Zero) == 0;
    assert Signed(d) * 1 == Signed(d) && 0 * Pow10(d.scale) == 0;
  }

  const UnknownDecimalMessage: string := "Unknown decimal value encountered when converting to boolean."

  /** DecimalToBoolean: a decimal equal to 1 is true, one equal to 0 is false,
      and any other value throws. */
  function DecimalToBoolean(d: Decimal): (r: Result<bool, DecimalError>)
    ensures r == Ok(true) <==> Signed(d) == Pow10(d.scale)
    ensures r == Ok(false) <==> d.mantissa == 0
    ensures r.Err? ==> r.error == ApplicationError(UnknownDecimalMessage)
  {
    SameValueOne(d);
    SameValueZero(d);
    if SameValue(d, One) then Ok(true)
    else if SameValue(d, Zero) then Ok(false)
    else Err(ApplicationError(UnknownDecimalMessage))
  }
}

=== FILE: dictionary_tools.dfy ===
/** DictionaryTools: lookups that return null or a fallback instead of
    throwing for a missing key. A reference-typed value may itself be null,
    so such dictionaries map to Option values. */
module DictionaryTools {
  import opened Wrappers

  /** TryGetValue for reference values: the stored value (possibly null) for
      a present key, null for an absent one. */
  function TryGetValue<K, V>(dic: map<K, Option<V>>, key: K): (r: Option<V>)
    ensures key in dic ==> r == dic[key]
    ensures key !in dic ==> r.None?
  {
    if key in dic then dic[key] else None
  }

  /** TryGetValueNullable for value types: the value for a present key, null
      for an absent one. */
  function TryGetValueNullable<K, V>(dic: map<K, V>, key: K): (r: Option<V>)
    ensures r.Some? <==> key in dic
    ensures r.Some? ==> r.value == dic[key]
  {
    if key in dic then Some(dic[key]) else None
  }

  /** TryGetValue(key, valueIfNotFound): the value for a present key, the
      fallback for an absent one. */
  function TryGetValueOr<K, V>(dic: map<K, V>, key: K, valueIfNotFound: V): (r: V)
    ensures key in dic ==> r == dic[key]
    ensures key !in dic ==> r == valueIfNotFound
  {
    if key in dic then dic[key] else valueIfNotFound
  }

  /** The fallback overload is the nullable lookup with null replaced by the
      fallback. */
  lemma FallbackIsNullableOr<K, V>(dic: map<K, V>, key: K, valueIfNotFound: V)
    ensures TryGetValueOr(dic, key, valueIfNotFound) == TryGetValueNullable(dic, key).GetOr(valueIfNotFound)
  {
  }

  /** As the documentation warns, a null result does not tell an absent key
      from a key stored with null. */
  lemma NullResultIsAmbiguous<K, V>(dic: map<K, Option<V>>, key: K)
    requires key !in dic
    ensures TryGetValue(dic, key) == TryGetValue(dic[key := None], key)
  {
  }
}

=== FILE: ewl_statics.dfy ===
/** EwlStatics: path combining, first and last list items, nullable
    mapping, and the members it shares with ActionTools, CollectionTools and
    the boolean/decimal conversions. */
module EwlStatics {
  import opened Wrappers
  import opened Text
  import opened DecimalTools
  import opened ExceptionTools
  import ActionTools
  import CollectionTools

  const Backslash: char := '\\'

  // ----- CombinePaths -----

  /** A path with backslashes, then white space, trimmed from both ends. */
  function Segment(path: string): string {
    Trim(TrimChar(path, Backslash))
  }

  /** getTrimmedPath: the segment followed by one backslash, or nothing for
      an empty segment. */
  function TrimmedPath(path: string): (r: string)
    ensures Segment(path) == "" ==> r == ""
    ensures Segment(path) != "" ==> |r| > 0 && r[..|r| - 1] == Segment(path) && r[|r| - 1] == Backslash
  {
    var trimmed := Segment(path);
    if |trimmed| > 0 then trimmed + [Backslash] else ""
  }

  /** The foreach loop: each path's trimmed form appended in order. */
  function Appended(paths: seq<string>): string {
    if |paths| == 0 then "" else Appended(paths[..|paths| - 1]) + TrimmedPath(paths[|paths| - 1])
  }

  /** The non-empty segments, in order. */
  function Segments(paths: seq<string>): seq<string> {
    if |paths| == 0 then []
    else
      var s := Segment(paths[|paths| - 1]);
      Segments(paths[..|paths| - 1]) + (if s == "" then [] else [s])
  }

  /** The accumulated text is the non-empty segments joined by backslashes,
      with one more backslash after the last. */
  lemma {:induction false} AppendedIsJoin(paths: seq<string>)
    ensures Appended(paths) == if Segments(paths) == [] then "" else Join([Backslash], Segments(paths)) + [Backslash]
  {
    if |paths| > 0 {
      var init := paths[..|paths| - 1];
      var last := paths[|paths| - 1];
      AppendedIsJoin(init);
      assert Appended(paths) == Appended(init) + TrimmedPath(last);
      var s := Segment(last);
      if s == "" {
        assert TrimmedPath(last) == "";
        assert Segments(paths) == Segments(init);
      } else {
        assert TrimmedPath(last) == s + [Backslash];
        assert Segments(paths) == Segments(init) + [s];
        AppendStep(Appended(init), Segments(init), s);
      }
    }
  }

  lemma AppendStep(acc: string, prior: seq<string>, s: string)
    requires acc == if prior == [] then "" else Join([Backslash], prior) + [Backslash]
    ensures acc + (s + [Backslash]) == Join([Backslash], prior + [s]) + [Backslash]
  {
    var all := prior + [s];
    assert all[..|all| - 1] == prior;
    if prior != [] {
      assert Join([Backslash], all) == Join([Backslash], prior) + [Backslash] + s;
    }
  }

  lemma TrimEndOfExtraBackslash(x: string)
    ensures TrimEndChar(x + [Backslash], Backslash) == TrimEndChar(x, Backslash)
  {
    assert (x + [Backslash])[..|x|] == x;
  }

  lemma TrimmedAppendedIsJoin(paths: seq<string>)
    ensures TrimEndChar(Appended(paths), Backslash) == TrimEndChar(Join([Backslash], Segments(paths)), Backslash)
  {
    AppendedIsJoin(paths);
    if Segments(paths) != [] {
      TrimEndOfExtraBackslash(Join([Backslash], Segments(paths)));
    }
  }

  /** CombinePaths: throws when either of the first two paths is null;
      otherwise the segments of all paths joined by backslashes, with no
      trailing backslash. */
  function CombinePaths(one: Option<string>, two: Option<string>, paths: seq<string>): (r: Result<string, Exception>)
    ensures r.Err? <==> one.None? || two.None?
    ensures r.Err? ==> r.error == Exception("ArgumentException", "String cannot be null.", None)
    ensures r.Ok? ==> r.value == TrimEndChar(Join([Backslash], Segments([one.value, two.value] + paths)), Backslash)
    ensures r.Ok? ==> |r.value| == 0 || r.value[|r.value| - 1] != Backslash
  {
    if one.None? || two.None? then Err(Exception("ArgumentException", "String cannot be null.", None))
    else
      var pathList := [one.value, two.value] + paths;
      TrimmedAppendedIsJoin(pathList);
      Ok(TrimEndChar(Appended(pathList), Backslash))
  }

  // ----- FirstItem, LastItem -----

  /** FirstItem: null for an empty list, otherwise element 0 (itself possibly
      null). */
  function FirstItem<T>(list: seq<Option<T>>): (r: Option<T>)
    ensures |list| == 0 ==> r.None?
    ensures |list| > 0 ==> r == list[0]
  {
    if |list| == 0 then None else list[0]
  }

  /** LastItem: null for an empty list, otherwise element Count - 1. */
  function LastItem<T>(list: seq<Option<T>>): (r: Option<T>)
    ensures |list| == 0 ==> r.None?
    ensures |list| > 0 ==> r == list[|list| - 1]
  {
    if |list| == 0 then None else list[|list| - 1]
  }

  function Reverse<T>(s: seq<T>): (r: seq<T>)
    ensures |r| == |s|
    ensures forall i :: 0 <= i < |s| ==> r[i] == s[|s| - 1 - i]
  {
    if |s| == 0 then [] else [s[|s| - 1]] + Reverse(s[..|s| - 1])
  }

  /** The last item of a list is the first item of the reversed list. */
  lemma LastIsFirstOfReverse<T>(list: seq<Option<T>>)
    ensures LastItem(list) == FirstItem(Reverse(list))
  {
  }

  // ----- ToNewUnderlyingValue -----

  /** ToNewUnderlyingValue: the selector applied to a present value; null
      stays null. */
  function ToNewUnderlyingValue<S, D>(value: Option<S>, valueSelector: S -> D): (r: Option<D>)
    ensures value.None? <==> r.None?
    ensures value.Some? ==> r == Some(valueSelector(value.value))
  {
    if value.Some? then Some(valueSelector(value.value)) else None
  }

  /** Mapping twice is mapping once with the composed selector. */
  lemma ToNewUnderlyingValueComposes<A, B, C>(value: Option<A>, f: A -> B, g: B -> C)
    ensures ToNewUnderlyingValue(ToNewUnderlyingValue(value, f), g) == ToNewUnderlyingValue(value, x => g(f(x)))
  {
  }

  // ----- members shared with other tools -----

  /** ToCollection: a one-item collection, as CollectionTools.ToCollection. */
  function ToCollection<T>(item: T): (r: seq<T>)
    ensures r == CollectionTools.ToCollection(item)
    ensures |r| == 1 && r[0] == item
  {
    [item]
  }

  /** Retry: the same loop as ActionTools.Retry. */
  method Retry(action: nat -> ActionTools.Outcome, failureMessage: string, maxAttempts: int, retryIntervalMs: int)
    returns (calls: nat, events: seq<ActionTools.Event>, r: Result<(), Exception>)
    ensures 1 <= calls <= ActionTools.AllowedCalls(maxAttempts)
    ensures ActionTools.IsTrace(events, calls, retryIntervalMs)
    ensures forall k :: 0 <= k < calls - 1 ==> action(k).Throws?
    ensures r.Ok? <==> action(calls - 1).Completes?
    ensures r.Ok? <==> exists k :: 0 <= k < ActionTools.AllowedCalls(maxAttempts) && action(k).Completes?
    ensures r.Err? ==> calls == ActionTools.AllowedCalls(maxAttempts)
    ensures r.Err? ==> r.error == ApplicationException(failureMessage, Some(action(calls - 1).exception))
  {
    calls, events, r := ActionTools.Retry(action, failureMessage, maxAttempts, retryIntervalMs);
  }

  /** DecimalToBoolean accepts exactly the decimals equal to 0 or 1. */
  lemma DecimalToBooleanAcceptsZeroAndOne(d: Decimal)
    ensures DecimalToBoolean(d).Ok? <==> SameValue(d, Zero) || SameValue(d, One)
  {
  }
}

=== FILE: exception_tools.dfy ===
/** ExceptionTools: an exception as its type, message and optional inner
    exception, and the chain from an exception through its inner ones. */
module ExceptionTools {
  import opened Wrappers

  datatype Exception = Exception(typeName: string, message: string, inner: Option<Exception>)

  /** new ApplicationException(message, inner). */
  function ApplicationException(message: string, inner: Option<Exception>): Exception {
    Exception("ApplicationException", message, inner)
  }

  /** How many inner exceptions lie below e. */
  function Depth(e: Exception): nat {
    match e.inner
    case None => 0
    case Some(inner) => 1 + Depth(inner)
  }

  /** The exception followed by each inner exception in turn. */
  predicate IsChain(e: Exception, c: seq<Exception>) {
    && |c| > 0
    && c[0] == e
    && (forall i :: 0 <= i < |c| - 1 ==> c[i].inner == Some(c[i + 1]))
    && c[|c| - 1].inner.None?
  }

  /** GetChain: this exception, then the chain of its inner exception. */
  function GetChain(exception: Exception): (r: seq<Exception>)
    ensures IsChain(exception, r)
    ensures |r| == Depth(exception) + 1
  {
    match exception.inner
    case None => [exception]
    case Some(inner) => [exception] + GetChain(inner)
  }

  /** The chain is the only sequence that starts at the exception, steps to
      the inner exception each time, and stops at one without an inner. */
  lemma {:induction false} ChainUnique(e: Exception, c: seq<Exception>)
    requires IsChain(e, c)
    ensures c == GetChain(e)
    decreases |c|
  {
    if |c| > 1 {
      var rest := c[1..];
      assert e.inner == Some(c[1]);
      assert forall i :: 0 <= i < |rest| - 1 ==> rest[i].inner == Some(rest[i + 1]) by {
        forall i | 0 <= i < |rest| - 1
          ensures rest[i].inner == Some(rest[i + 1])
        {
          assert rest[i] == c[i + 1] && rest[i + 1] == c[i + 2];
        }
      }
      ChainUnique(c[1], rest);
      assert c == [e] + rest;
    }
  }
}

=== FILE: fuzzy_string_matching.dfy ===
/** FuzzyStringMatching: the Levenshtein table and the sorted-letters string
    the similarity score compares. The score itself is floating point and not
    part of this model. */
module FuzzyStringMatching {
  import opened Wrappers
  import opened Text

  function Min(a: int, b: int): int {
    if a < b then a else b
  }

  /** The distance as the recurrence the table fills in: a matching last
      character costs nothing, otherwise the cheapest of a deletion, an
      insertion and a substitution, plus one. */
  function Lev(s: string, t: string): (r: nat)
    decreases |s| + |t|
  {
    if |s| == 0 then |t|
    else if |t| == 0 then |s|
    else if s[|s| - 1] == t[|t| - 1] then Lev(s[..|s| - 1], t[..|t| - 1])
    else Min(Min(Lev(s[..|s| - 1], t) + 1, Lev(s, t[..|t| - 1]) + 1), Lev(s[..|s| - 1], t[..|t| - 1]) + 1)
  }

  /** The cell (i, j) of the table from its three neighbours. */
  lemma LevCell(f: string, s: string, i: nat, j: nat)
    requires 1 <= i <= |f| && 1 <= j <= |s|
    ensures Lev(f[..i], s[..j]) == if f[i - 1] == s[j - 1] then Lev(f[..i - 1], s[..j - 1])
      else Min(Min(Lev(f[..i - 1], s[..j]) + 1, Lev(f[..i], s[..j - 1]) + 1), Lev(f[..i - 1], s[..j - 1]) + 1)
  {
    assert f[..i][..i - 1] == f[..i - 1];
    assert s[..j][..j - 1] == s[..j - 1];
  }

  /** Columns 0 .. cols - 1 of the table hold the distances of the prefixes. */
  ghost predicate ColumnsFilled(d: array2<int>, f: string, s: string, cols: nat)
    reads d
    requires d.Length0 == |f| + 1 && d.Length1 == |s| + 1 && cols <= |s| + 1
  {
    forall a, b :: 0 <= a <= |f| && 0 <= b < cols ==> d[a, b] == Lev(f[..a], s[..b])
  }

  /** Column j holds the distances of the prefixes for rows 0 .. rows - 1. */
  ghost predicate RowsFilled(d: array2<int>, f: string, s: string, j: nat, rows: nat)
    reads d
    requires d.Length0 == |f| + 1 && d.Length1 == |s| + 1 && j <= |s| && rows <= |f| + 1
  {
    forall a :: 0 <= a < rows ==> d[a, j] == Lev(f[..a], s[..j])
  }

  /** The first row and first column of the table. */
  method InitTable(f: string, s: string) returns (d: array2<int>)
    ensures fresh(d)
    ensures d.Length0 == |f| + 1 && d.Length1 == |s| + 1
    ensures ColumnsFilled(d, f, s, 1)
    ensures forall b :: 0 <= b <= |s| ==> d[0, b] == Lev(f[..0], s[..b])
  {
    d := new int[|f| + 1, |s| + 1];
    var i := 0;
    while i <= |f|
      invariant 0 <= i <= |f| + 1
      invariant forall a :: 0 <= a < i ==> d[a, 0] == a
    {
      d[i, 0] := i;
      i := i + 1;
    }
    var j := 0;
    while j <= |s|
      invariant 0 <= j <= |s| + 1
      invariant forall a :: 0 <= a <= |f| ==> d[a, 0] == a
      invariant forall b :: 0 <= b < j ==> d[0, b] == b
    {
      d[0, j] := j;
      j := j + 1;
    }
    assert forall a :: 0 <= a <= |f| ==> d[a, 0] == Lev(f[..a], s[..0]);
  }

  /** Fills column j, row by row, from the column before it. */
  method FillColumn(d: array2<int>, f: string, s: string, j: nat)
    requires d.Length0 == |f| + 1 && d.Length1 == |s| + 1 && 1 <= j <= |s|
    requires ColumnsFilled(d, f, s, j)
    requires d[0, j] == Lev(f[..0], s[..j])
    modifies d
    ensures ColumnsFilled(d, f, s, j + 1)
    ensures forall b :: 0 <= b <= |s| ==> d[0, b] == old(d[0, b])
  {
    var i := 1;
    while i <= |f|
      invariant 1 <= i <= |f| + 1
      invariant ColumnsFilled(d, f, s, j)
      invariant forall b :: 0 <= b <= |s| ==> d[0, b] == old(d[0, b])
      invariant RowsFilled(d, f, s, j, i)
    {
      LevCell(f, s, i, j);
      var diagonal := d[i - 1, j - 1];
      var above := d[i - 1, j];
      var left := d[i, j - 1];
      assert diagonal == Lev(f[..i - 1], s[..j - 1]) && left == Lev(f[..i], s[..j - 1]);
      assert above == Lev(f[..i - 1], s[..j]);
      var cell := if f[i - 1] == s[j - 1] then diagonal else Min(Min(above + 1, left + 1), diagonal + 1);
      assert cell == Lev(f[..i], s[..j]);
      d[i, j] := cell;
      i := i + 1;
    }
  }

  /** LevenshteinDistance: the (lenF + 1) x (lenS + 1) table, first column
      and first row, then column by column. */
  method LevenshteinDistance(firstString: string, secondString: string, ignoreCase: bool) returns (r: int)
    ensures ignoreCase ==> r == Lev(ToLower(firstString), ToLower(secondString))
    ensures !ignoreCase ==> r == Lev(firstString, secondString)
    ensures firstString == "" ==> r == |secondString|
    ensures secondString == "" ==> r == |firstString|
  {
    var strF := if ignoreCase then ToLower(firstString) else firstString;
    var strS := if ignoreCase then ToLower(secondString) else secondString;
    var d := InitTable(strF, strS);
    var j := 1;
    while j <= |strS|
      invariant 1 <= j <= |strS| + 1
      invariant forall b :: 0 <= b <= |strS| ==> d[0, b] == Lev(strF[..0], strS[..b])
      invariant ColumnsFilled(d, strF, strS, j)
    {
      FillColumn(d, strF, strS, j);
      j := j + 1;
    }
    assert strF[..|strF|] == strF && strS[..|strS|] == strS;
    r := d[|strF|, |strS|];
  }

  /** A string is at distance 0 from itself. */
  lemma {:induction false} LevSelf(s: string)
    ensures Lev(s, s) == 0
    decreases |s|
  {
    if |s| > 0 {
      LevSelf(s[..|s| - 1]);
    }
  }

  /** The distance does not depend on the order of the strings. */
  lemma {:induction false} LevSymmetric(s: string, t: string)
    ensures Lev(s, t) == Lev(t, s)
    decreases |s| + |t|
  {
    if |s| > 0 && |t| > 0 {
      LevSymmetric(s[..|s| - 1], t[..|t| - 1]);
      if s[|s| - 1] != t[|t| - 1] {
        LevSymmetric(s[..|s| - 1], t);
        LevSymmetric(s, t[..|t| - 1]);
      }
    }
  }

  /** The distance is at least the difference of the lengths and at most the
      longer length. */
  lemma {:induction false} LevBounds(s: string, t: string)
    ensures |s| - |t| <= Lev(s, t) && |t| - |s| <= Lev(s, t)
    ensures Lev(s, t) <= if |s| < |t| then |t| else |s|
    decreases |s| + |t|
  {
    if |s| > 0 && |t| > 0 {
      LevBounds(s[..|s| - 1], t[..|t| - 1]);
      if s[|s| - 1] != t[|t| - 1] {
        LevBounds(s[..|s| - 1], t);
        LevBounds(s, t[..|t| - 1]);
      }
    }
  }

  /** Ignoring case is measuring the lower-cased strings: two strings that
      differ only in case are at distance 0. */
  lemma {:induction false} IgnoreCaseOfCaseVariants(s: string, t: string)
    requires ToLower(s) == ToLower(t)
    ensures Lev(ToLower(s), ToLower(t)) == 0
  {
    LevSelf(ToLower(s));
  }

  // ----- getLetterSimilarityString -----

  predicate Sorted(s: string) {
    forall i, j :: 0 <= i < j < |s| ==> s[i] <= s[j]
  }

  /** The letters and digits of s, upper-cased, in their original order. */
  function Letters(s: string): (r: string)
    ensures |r| <= |s|
    ensures forall i :: 0 <= i < |r| ==> IsUpper(r[i]) || IsDigit(r[i])
  {
    if |s| == 0 then ""
    else
      var c := s[|s| - 1];
      Letters(s[..|s| - 1]) + (if IsLetterOrDigit(c) then [ToUpperChar(c)] else "")
  }

  /** c placed in a sorted string before the first larger-or-equal character. */
  function Insert(c: char, s: string): (r: string)
    requires Sorted(s)
    ensures Sorted(r)
    ensures multiset(r) == multiset(s) + multiset{c}
  {
    if |s| == 0 then [c]
    else if c <= s[0] then
      SortedCons(c, s);
      [c] + s
    else
      var rest := Insert(c, s[1..]);
      assert s == [s[0]] + s[1..];
      LowerBoundKept(s[0], c, s[1..], rest);
      SortedCons(s[0], rest);
      [s[0]] + rest
  }

  /** A character no larger than the first of a sorted string can go in
      front of it. */
  lemma SortedCons(c: char, s: string)
    requires Sorted(s) && (|s| == 0 || c <= s[0])
    ensures Sorted([c] + s)
  {
    var t := [c] + s;
    forall i, j | 0 <= i < j < |t|
      ensures t[i] <= t[j]
    {
      if i > 0 {
        assert t[i] == s[i - 1] && t[j] == s[j - 1];
      } else {
        assert t[j] == s[j - 1];
      }
    }
  }

  /** A bound below every character of s and below c is below every
      character of a string holding those characters. */
  lemma LowerBoundKept(lo: char, c: char, s: string, r: string)
    requires lo <= c && forall k :: 0 <= k < |s| ==> lo <= s[k]
    requires multiset(r) == multiset(s) + multiset{c}
    ensures forall k :: 0 <= k < |r| ==> lo <= r[k]
  {
    forall k | 0 <= k < |r|
      ensures lo <= r[k]
    {
      assert r[k] in multiset(r);
      if r[k] != c {
        assert r[k] in multiset(s);
        var m :| 0 <= m < |s| && s[m] == r[k];
      }
    }
  }

  /** Array.Sort on characters: ordinal insertion sort. */
  function Sort(s: string): (r: string)
    ensures Sorted(r)
    ensures multiset(r) == multiset(s)
  {
    if |s| == 0 then ""
    else
      assert s == [s[0]] + s[1..];
      Insert(s[0], Sort(s[1..]))
  }

  /** The copying loop: each letter or digit, upper-cased, in order. */
  method KeepLetters(s: string) returns (newStr: string)
    ensures newStr == Letters(s)
  {
    newStr := "";
    var i := 0;
    while i < |s|
      invariant 0 <= i <= |s|
      invariant newStr == Letters(s[..i])
    {
      var c := s[i];
      assert s[..i + 1][..i] == s[..i];
      if IsLetterOrDigit(c) {
        newStr := newStr + [ToUpperChar(c)];
      }
      i := i + 1;
    }
    assert s[..|s|] == s;
  }

  /** getLetterSimilarityString: "" for null, otherwise the upper-cased
      letters and digits in ascending order. */
  method LetterSimilarityString(s1: Option<string>) returns (r: string)
    ensures s1.None? ==> r == ""
    ensures Sorted(r)
    ensures s1.Some? ==> multiset(r) == multiset(Letters(s1.value))
    ensures forall k :: 0 <= k < |r| ==> IsUpper(r[k]) || IsDigit(r[k])
  {
    if s1.None? {
      return "";
    }
    var newStr := KeepLetters(s1.value);
    r := Sort(newStr);
    assert forall k :: 0 <= k < |r| ==> r[k] in multiset(newStr);
  }
}

=== FILE: iteration_tools.dfy ===
/** IterationTools.IterateInPieces: hands the rows to an action a fixed
    number at a time. The action is modelled by the list of pieces it
    receives, in call order. */
module IterationTools {

  function Flatten<T>(pieces: seq<seq<T>>): seq<T> {
    if |pieces| == 0 then [] else Flatten(pieces[..|pieces| - 1]) + pieces[|pieces| - 1]
  }

  /** Every piece but the last has size items, and the last is not empty. */
  predicate WellCut<T>(pieces: seq<seq<T>>, size: int) {
    && (forall k :: 0 <= k < |pieces| - 1 ==> |pieces[k]| == size)
    && (|pieces| > 0 ==> 0 < |pieces[|pieces| - 1]| <= size)
  }

  /** The rows from i on, rowsAtaTime at a time: rows.Skip(i).Take(n). An
      empty input never calls the action; a non-positive piece size with rows
      to hand out never ends, so it is excluded. */
  method IterateInPieces<T>(rows: seq<T>, rowsAtaTime: int) returns (pieces: seq<seq<T>>)
    requires rowsAtaTime > 0 || |rows| == 0
    ensures Flatten(pieces) == rows
    ensures WellCut(pieces, rowsAtaTime)
    ensures |pieces| == if |rows| == 0 then 0 else (|rows| + rowsAtaTime - 1) / rowsAtaTime
  {
    pieces := [];
    var i := 0;
    while i < |rows|
      invariant 0 <= i <= |rows|
      invariant Flatten(pieces) == rows[..i]
      invariant forall k :: 0 <= k < |pieces| ==> |pieces[k]| == rowsAtaTime
      invariant i == |pieces| * rowsAtaTime
      invariant |pieces| > 0 ==> i < |rows|
      decreases |rows| - i
    {
      var piece := rows[i..if i + rowsAtaTime < |rows| then i + rowsAtaTime else |rows|];
      assert rows[..i] + piece == rows[..i + |piece|];
      if i + rowsAtaTime < |rows| {
        assert (pieces + [piece])[..|pieces|] == pieces;
        pieces := pieces + [piece];
        i := i + rowsAtaTime;
      } else {
        PiecesCount(|pieces|, |rows|, rowsAtaTime);
        assert (pieces + [piece])[..|pieces|] == pieces;
        pieces := pieces + [piece];
        assert Flatten(pieces) == rows;
        return;
      }
    }
    assert rows[..i] == rows;
  }

  /** With n full pieces of size m before the rest, and at most m rows in
      the rest, n + 1 is the rows divided by m, rounded up. */
  lemma PiecesCount(n: nat, len: nat, m: int)
    requires m > 0 && n * m < len <= n * m + m
    ensures n + 1 == (len + m - 1) / m
  {
    assert (n + 1) * m == n * m + m;
    DivUnique(len + m - 1, m, n + 1);
  }

  /** A quotient is pinned down by the multiple of the divisor just below. */
  lemma DivUnique(x: int, m: int, q: int)
    requires m > 0 && q * m <= x < q * m + m
    ensures x / m == q
  {
    var d := x / m;
    assert x == d * m + x % m;
    var k := d - q;
    assert k * m == d * m - q * m;
  }
}

=== FILE: local_time_tools.dfy ===
/** LocalTimeTools: whether a time of day lies in a range that may span
    midnight, and the evenly spaced times of such a range.

    A LocalTime is its nanosecond of the day. */
module LocalTimeTools {
  import opened Wrappers

  const NanosecondsPerMinute: int := 60_000_000_000
  const MinutesPerDay: int := 1440
  const NanosecondsPerDay: int := 86_400_000_000_000

  type LocalTime = t: int | 0 <= t < NanosecondsPerDay

  /** LocalTime.Midnight and LocalTime.MaxValue (23:59:59.999999999). */
  const Midnight: LocalTime := 0
  const MaxValue: LocalTime := NanosecondsPerDay - 1

  /** The bounds with null replaced by midnight and by the last instant. */
  function MinOrMidnight(min: Option<LocalTime>): LocalTime {
    min.GetOr(Midnight)
  }

  function MaxOrLastInstant(max: Option<LocalTime>): LocalTime {
    max.GetOr(MaxValue)
  }

  /** InRange: inclusive on both ends; a max before the min makes the range
      run through midnight. */
  function InRange(time: LocalTime, min: Option<LocalTime>, max: Option<LocalTime>): (r: bool)
    ensures min.None? && max.None? ==> r
    ensures MaxOrLastInstant(max) >= MinOrMidnight(min) ==> (r <==> MinOrMidnight(min) <= time <= MaxOrLastInstant(max))
    ensures MaxOrLastInstant(max) < MinOrMidnight(min) ==> (r <==> time >= MinOrMidnight(min) || time <= MaxOrLastInstant(max))
  {
    var lo := MinOrMidnight(min);
    var hi := MaxOrLastInstant(max);
    if hi >= lo then time >= lo && time <= hi else time >= lo || time <= hi
  }

  /** A range through midnight holds exactly the times outside the ordinary
      range strictly between its max and its min. */
  lemma MidnightRangeIsComplement(time: LocalTime, min: LocalTime, max: LocalTime)
    requires max + 1 < min
    ensures InRange(time, Some(min), Some(max)) <==> !InRange(time, Some(max + 1), Some(min - 1))
  {
  }

  /** LocalTime.PlusMinutes: the minutes are taken modulo a day and the sum
      wraps past midnight. */
  function PlusMinutes(t: LocalTime, minutes: int): (r: LocalTime)
    ensures (r - t - (minutes % MinutesPerDay) * NanosecondsPerMinute) % NanosecondsPerDay == 0
    ensures minutes % MinutesPerDay != 0 ==> r != t
  {
    var s := t + (minutes % MinutesPerDay) * NanosecondsPerMinute;
    if s < NanosecondsPerDay then s else s - NanosecondsPerDay
  }

  /** None of the first n steps goes back past midnight. */
  predicate NoDescentBefore(times: seq<LocalTime>, n: int) {
    forall i :: 0 <= i < n && i < |times| - 1 ==> times[i] <= times[i + 1]
  }

  /** No step goes back past midnight. */
  predicate NoDescent(times: seq<LocalTime>) {
    NoDescentBefore(times, |times| - 1)
  }

  /** At most one step goes back past midnight: none comes before it. */
  predicate AtMostOneDescent(times: seq<LocalTime>) {
    forall j :: 0 <= j < |times| - 1 && times[j + 1] < times[j] ==> NoDescentBefore(times, j)
  }

  /** Every time from a step back past midnight on is at most hi. */
  predicate AtMostHiAfterDescent(times: seq<LocalTime>, hi: LocalTime) {
    forall j :: 0 <= j < |times| && !NoDescentBefore(times, j) ==> times[j] <= hi
  }

  /** The steps so far: they start at min, each is the previous plus the
      interval, and all are in range. An ordinary range (hi >= lo) never goes
      back past midnight; a range through midnight does so at most once, and
      only to a time at most hi. */
  predicate StepsSoFar(min: Option<LocalTime>, max: Option<LocalTime>, minuteInterval: int, times: seq<LocalTime>) {
    var lo, hi := MinOrMidnight(min), MaxOrLastInstant(max);
    && |times| > 0 && times[0] == lo
    && (forall i :: 0 <= i < |times| - 1 ==> times[i + 1] == PlusMinutes(times[i], minuteInterval))
    && (forall i :: 0 <= i < |times| ==> InRange(times[i], min, max))
    && (hi >= lo ==> NoDescent(times))
    && AtMostOneDescent(times)
    && AtMostHiAfterDescent(times, hi)
  }

  /** The next step, which is not taken, goes back past midnight a second
      time or leaves the range; while the one wrap of a range through
      midnight is still pending, it must go back past midnight and land
      after hi. */
  predicate StopsAfter(max: Option<LocalTime>, pending: bool, last: LocalTime, next: LocalTime) {
    var hi := MaxOrLastInstant(max);
    && (!pending ==> next < last || next > hi)
    && (pending ==> next < last && next > hi)
  }

  /** What GetStepsInRange returns, stated without its loop. */
  predicate StepsOf(min: Option<LocalTime>, max: Option<LocalTime>, minuteInterval: int, times: seq<LocalTime>) {
    && StepsSoFar(min, max, minuteInterval, times)
    && var last := times[|times| - 1];
       StopsAfter(max, MaxOrLastInstant(max) < MinOrMidnight(min) && NoDescent(times), last, PlusMinutes(last, minuteInterval))
  }

  /** GetStepsInRange: min, then every minuteInterval minutes while the time
      stays in range; the range may pass midnight once when max is before
      min, and a second pass over midnight ends the list. An interval of a
      whole number of days never moves, and the loop would not end. */
  method GetStepsInRange(min: Option<LocalTime>, max: Option<LocalTime>, minuteInterval: int) returns (times: seq<LocalTime>)
    requires minuteInterval % MinutesPerDay != 0
    ensures StepsOf(min, max, minuteInterval, times)
  {
    var lo := MinOrMidnight(min);
    var hi := MaxOrLastInstant(max);
    times := [lo];
    var time := lo;
    var wrapAllowed := hi < lo;
    while true
      invariant StepsSoFar(min, max, minuteInterval, times) && time == times[|times| - 1]
      invariant wrapAllowed <==> hi < lo && NoDescent(times)
      invariant wrapAllowed || hi >= lo ==> time >= lo
      decreases if wrapAllowed then 1 else 0, NanosecondsPerDay - time
    {
      var next := PlusMinutes(time, minuteInterval);
      var wrapping := next < time;
      if wrapping {
        if wrapAllowed {
          wrapAllowed := false;
        } else {
          return;
        }
      }
      if !wrapAllowed && next > hi {
        return;
      }
      StepsSoFarSnoc(min, max, minuteInterval, times, next);
      times := times + [next];
      time := next;
    }
  }

  /** A step the loop takes extends the steps so far. */
  lemma StepsSoFarSnoc(min: Option<LocalTime>, max: Option<LocalTime>, minuteInterval: int, times: seq<LocalTime>, next: LocalTime)
    requires StepsSoFar(min, max, minuteInterval, times)
    requires next == PlusMinutes(times[|times| - 1], minuteInterval) && InRange(next, min, max)
    requires next < times[|times| - 1] ==> MaxOrLastInstant(max) < MinOrMidnight(min) && NoDescent(times)
    requires next < times[|times| - 1] || !NoDescent(times) ==> next <= MaxOrLastInstant(max)
    ensures StepsSoFar(min, max, minuteInterval, times + [next])
    ensures NoDescent(times + [next]) <==> NoDescent(times) && next >= times[|times| - 1]
  {
    var t := times + [next];
    var hi := MaxOrLastInstant(max);
    StepKeepsShape(times, next, hi, next < times[|times| - 1]);
    assert forall i :: 0 <= i < |times| ==> t[i] == times[i];
  }

  /** Adding a step keeps the shape: a step back past midnight is allowed
      only when none came before, and from then on every time is at most hi. */
  lemma StepKeepsShape(times: seq<LocalTime>, next: LocalTime, hi: LocalTime, wrapping: bool)
    requires |times| > 0 && wrapping == (next < times[|times| - 1])
    requires AtMostOneDescent(times) && AtMostHiAfterDescent(times, hi)
    requires wrapping ==> NoDescent(times) && next <= hi
    requires !NoDescent(times) ==> next <= hi
    ensures AtMostOneDescent(times + [next]) && AtMostHiAfterDescent(times + [next], hi)
    ensures NoDescent(times + [next]) <==> NoDescent(times) && !wrapping
  {
    NoDescentBeforeSnoc(times, next);
    StepKeepsOneDescent(times, next, wrapping);
    StepKeepsHiAfterDescent(times, next, hi, wrapping);
  }

  lemma StepKeepsOneDescent(times: seq<LocalTime>, next: LocalTime, wrapping: bool)
    requires |times| > 0 && wrapping == (next < times[|times| - 1])
    requires AtMostOneDescent(times)
    requires wrapping ==> NoDescent(times)
    ensures AtMostOneDescent(times + [next])
  {
    var t := times + [next];
    NoDescentBeforeSnoc(times, next);
    forall j | 0 <= j < |t| - 1 && t[j + 1] < t[j]
      ensures NoDescentBefore(t, j)
    {
      if j < |times| - 1 {
        assert t[j] == times[j] && t[j + 1] == times[j + 1];
      }
    }
  }

  lemma StepKeepsHiAfterDescent(times: seq<LocalTime>, next: LocalTime, hi: LocalTime, wrapping: bool)
    requires |times| > 0 && wrapping == (next < times[|times| - 1])
    requires AtMostHiAfterDescent(times, hi)
    requires wrapping || !NoDescent(times) ==> next <= hi
    ensures AtMostHiAfterDescent(times + [next], hi)
  {
    var t := times + [next];
    NoDescentBeforeSnoc(times, next);
    forall j | 0 <= j < |t| && !NoDescentBefore(t, j)
      ensures t[j] <= hi
    {
      if j < |times| {
        assert t[j] == times[j];
      }
    }
  }

  /** Adding a step does not change which of the earlier steps go back past
      midnight. */
  lemma NoDescentBeforeSnoc(times: seq<LocalTime>, next: LocalTime)
    ensures forall j :: 0 <= j < |times| ==> (NoDescentBefore(times + [next], j) <==> NoDescentBefore(times, j))
    ensures |times| > 0 ==> (NoDescentBefore(times + [next], |times|)
                             <==> NoDescentBefore(times, |times| - 1) && times[|times| - 1] <= next)
  {
    var t := times + [next];
    assert forall i :: 0 <= i < |times| ==> t[i] == times[i];
    assert t[|times|] == next;
  }

  /** StepsOf pins the list down: at most one list satisfies it. */
  lemma StepsOfUnique(min: Option<LocalTime>, max: Option<LocalTime>, minuteInterval: int, a: seq<LocalTime>, b: seq<LocalTime>)
    requires StepsOf(min, max, minuteInterval, a) && StepsOf(min, max, minuteInterval, b)
    ensures a == b
  {
    StepsOfNotLonger(min, max, minuteInterval, a, b);
    StepsOfNotLonger(min, max, minuteInterval, b, a);
    SamePrefix(minuteInterval, a, b, |a|);
  }

  /** Steps the stop rule lets through never run past a list that stops. */
  lemma StepsOfNotLonger(min: Option<LocalTime>, max: Option<LocalTime>, minuteInterval: int, a: seq<LocalTime>, b: seq<LocalTime>)
    requires StepsOf(min, max, minuteInterval, a) && StepsSoFar(min, max, minuteInterval, b)
    ensures |b| <= |a|
  {
    if |a| < |b| {
      var m := |a| - 1;
      SamePrefix(minuteInterval, a, b, |a|);
      assert NoDescent(a) <==> NoDescentBefore(b, m);
      ContinuesPastEveryStep(min, max, minuteInterval, b, m);
    }
  }

  /** Two step lists with the same start agree on their common length. */
  lemma {:induction false} SamePrefix(minuteInterval: int, a: seq<LocalTime>, b: seq<LocalTime>, n: nat)
    requires 0 < n <= |a| && n <= |b| && a[0] == b[0]
    requires forall i :: 0 <= i < |a| - 1 ==> a[i + 1] == PlusMinutes(a[i], minuteInterval)
    requires forall i :: 0 <= i < |b| - 1 ==> b[i + 1] == PlusMinutes(b[i], minuteInterval)
    ensures forall i :: 0 <= i < n ==> a[i] == b[i]
    decreases n
  {
    if n > 1 {
      SamePrefix(minuteInterval, a, b, n - 1);
      assert a[n - 1] == PlusMinutes(a[n - 2], minuteInterval);
    }
  }

  /** Every step taken after times[m] is one the stop rule lets through: it
      does not stop the list there. */
  lemma ContinuesPastEveryStep(min: Option<LocalTime>, max: Option<LocalTime>, minuteInterval: int, times: seq<LocalTime>, m: nat)
    requires StepsSoFar(min, max, minuteInterval, times) && m + 1 < |times|
    ensures !StopsAfter(max, MaxOrLastInstant(max) < MinOrMidnight(min) && NoDescentBefore(times, m), times[m], times[m + 1])
  {
    var lo, hi := MinOrMidnight(min), MaxOrLastInstant(max);
    if hi >= lo {
      assert times[m] <= times[m + 1];
      assert InRange(times[m + 1], min, max);
    } else {
      assert times[m + 1] < times[m] ==> NoDescentBefore(times, m);
      assert !NoDescentBefore(times, m + 1) ==> times[m + 1] <= hi;
    }
  }

  const NanosecondsPerHour: int := 60 * NanosecondsPerMinute

  /** 22:00 to 02:00 every hour passes midnight once and ends at 02:00. */
  lemma MidnightRangeExample()
    ensures StepsOf(Some(22 * NanosecondsPerHour), Some(2 * NanosecondsPerHour), 60,
                    [22 * NanosecondsPerHour, 23 * NanosecondsPerHour, 0, NanosecondsPerHour, 2 * NanosecondsPerHour])
  {
    var h := NanosecondsPerHour;
    var times: seq<LocalTime> := [22 * h, 23 * h, 0, h, 2 * h];
    HourlySteps();
    assert times[2] < times[1];
    assert !NoDescentBefore(times, 3) && !NoDescentBefore(times, 4);
  }

  lemma HourlySteps()
    ensures PlusMinutes(22 * NanosecondsPerHour, 60) == 23 * NanosecondsPerHour
    ensures PlusMinutes(23 * NanosecondsPerHour, 60) == 0
    ensures PlusMinutes(0, 60) == NanosecondsPerHour
    ensures PlusMinutes(NanosecondsPerHour, 60) == 2 * NanosecondsPerHour
    ensures PlusMinutes(2 * NanosecondsPerHour, 60) == 3 * NanosecondsPerHour
  {
  }

  /** Stopping at 23:00 would leave the pending wrap untaken. */
  lemma MidnightRangeDoesNotStopEarly()
    ensures !StepsOf(Some(22 * NanosecondsPerHour), Some(2 * NanosecondsPerHour), 60,
                     [22 * NanosecondsPerHour, 23 * NanosecondsPerHour])
  {
    var h := NanosecondsPerHour;
    assert PlusMinutes(22 * h, 60) == 23 * h;
    assert PlusMinutes(23 * h, 60) == 0;
  }

  /** With no bounds, every 16 hours stops before going back past midnight. */
  lemma WholeDayExample()
    ensures StepsOf(None, None, 960, [0, 16 * NanosecondsPerHour])
  {
    var h := NanosecondsPerHour;
    assert PlusMinutes(0, 960) == 16 * h;
    assert PlusMinutes(16 * h, 960) == 8 * h;
  }
}

=== FILE: object_tools.dfy ===
/** ObjectTools.ObjectToString. An object is a value of T and its ToString
    override is a function that may return null. */
module ObjectTools {
  import opened Wrappers

  function ObjectToString<T>(o: Option<T>, nullToEmptyString: bool, toString: T -> Option<string>): (r: Option<string>)
    ensures o.Some? ==> r == toString(o.value)
    ensures o.None? && nullToEmptyString ==> r == Some("")
    ensures o.None? && !nullToEmptyString ==> r.None?
  {
    if o.Some? then toString(o.value)
    else if nullToEmptyString then Some("")
    else None
  }

  /** With nullToEmptyString set, the result is never null as long as
      ToString never returns null. */
  lemma NeverNullWhenAsked<T>(o: Option<T>, toString: T -> Option<string>)
    requires forall x :: toString(x).Some?
    ensures ObjectToString(o, true, toString).Some?
  {
  }
}

=== FILE: oracle_tools.dfy ===
/** OracleTools: the same boolean/decimal pair as BoolTools and
    DecimalTools, which this module reuses; the lemmas state the round trips
    in both directions. */
module OracleTools {
  import opened Wrappers
  import opened DecimalTools
  import opened BoolTools

  /** A boolean stored as a decimal reads back as the same boolean. */
  lemma BooleanRoundTrip(b: bool)
    ensures DecimalToBoolean(BooleanToDecimal(b)) == Ok(b)
  {
  }

  /** A decimal that converts to a boolean is, as a value, the decimal that
      boolean is stored as; every other decimal throws. */
  lemma DecimalRoundTrip(d: Decimal)
    ensures DecimalToBoolean(d).Ok? <==> SameValue(d, One) || SameValue(d, Zero)
    ensures DecimalToBoolean(d).Ok? ==> SameValue(BooleanToDecimal(DecimalToBoolean(d).value), d)
  {
    if DecimalToBoolean(d) == Ok(true) {
      assert Signed(d) == Pow10(d.scale);
    }
  }
}

=== FILE: phone_number.dfy ===
/** PhoneNumber: a local number as area code, number and extension, or an
    international number, which makes the parts irrelevant. */
module PhoneNumber {
  import opened Wrappers
  import opened Text

  /** The part properties start as "" and InternationalNumber as null. */
  datatype PhoneNumber = PhoneNumber(areaCode: string, number: string, extension: string, internationalNumber: Option<string>)

  predicate IsInternational(p: PhoneNumber) {
    p.internationalNumber.Some?
  }

  /** Empty: the international number, or for a local number the number
      part, has length 0. */
  predicate Empty(p: PhoneNumber) {
    (IsInternational(p) && |p.internationalNumber.value| == 0) || (!IsInternational(p) && |p.number| == 0)
  }

  /** CreateFromParts: each part trimmed, in case it came from a char column. */
  function CreateFromParts(areaCode: string, number: string, extension: string): (p: PhoneNumber)
    ensures p.areaCode == Trim(areaCode) && p.number == Trim(number) && p.extension == Trim(extension)
    ensures IsTrimmed(p.areaCode) && IsTrimmed(p.number) && IsTrimmed(p.extension)
    ensures !IsInternational(p)
    ensures Empty(p) <==> IsBlank(number)
  {
    TrimEmptyIffBlank(number);
    PhoneNumber(Trim(areaCode), Trim(number), Trim(extension), None)
  }

  /** CreateInternational: the trimmed international number; the parts keep
      their empty defaults. */
  function CreateInternational(internationalNumber: string): (p: PhoneNumber)
    ensures IsInternational(p) && p.internationalNumber == Some(Trim(internationalNumber))
    ensures p.areaCode == "" && p.number == "" && p.extension == ""
    ensures Empty(p) <==> IsBlank(internationalNumber)
  {
    TrimEmptyIffBlank(internationalNumber);
    PhoneNumber("", "", "", Some(Trim(internationalNumber)))
  }

  /** Building from parts and building an international number give
      different kinds of number, whatever the inputs. */
  lemma PartsAndInternationalDiffer(areaCode: string, number: string, extension: string, internationalNumber: string)
    ensures CreateFromParts(areaCode, number, extension) != CreateInternational(internationalNumber)
  {
  }
}

=== FILE: run_program_exception.dfy ===
/** RunProgramException.getMessage: the message, then an error-code line, an
    output line and an error-output line for whichever of them is present,
    each ended by a line break. */
module RunProgramException {
  import opened Wrappers
  import opened Text

  /** StringBuilder.AppendLine: the text (nothing for null) and a line break. */
  function Line(s: Option<string>): string {
    s.GetOr("") + NewLine
  }

  /** A labelled line when the value is present, nothing otherwise. */
  function OptionalLine(prefix: string, value: Option<string>): (r: string)
    ensures value.None? ==> r == ""
    ensures value.Some? ==> r == prefix + value.value + NewLine
  {
    if value.Some? then Line(Some(prefix + value.value)) else ""
  }

  /** The lines after the message: code, output and error output, each only
      when present. */
  function Details(errorCode: Option<int>, processOutput: Option<string>, processError: Option<string>): string {
    OptionalLine("Error code: ", CodeText(errorCode))
      + (OptionalLine("Process Output: ", processOutput) + OptionalLine("Process Error Output: ", processError))
  }

  /** Text that is empty or ends with a line break. */
  predicate EmptyOrEndsWithBreak(s: string) {
    |s| == 0 || (|s| >= 2 && s[|s| - 2..] == NewLine)
  }

  function GetMessage(errorCode: Option<int>, message: Option<string>, processOutput: Option<string>, processError: Option<string>): (r: string)
    ensures |r| >= |message.GetOr("")| + 2 && r[|r| - 2..] == NewLine
    ensures r[..|message.GetOr("")| + 2] == message.GetOr("") + NewLine
  {
    var head := Line(message);
    var tail := Details(errorCode, processOutput, processError);
    DetailsEndWithBreak(errorCode, processOutput, processError);
    AppendKeepsBreak(head, tail);
    assert (head + tail)[..|head|] == head;
    head + tail
  }

  lemma DetailsEndWithBreak(errorCode: Option<int>, processOutput: Option<string>, processError: Option<string>)
    ensures EmptyOrEndsWithBreak(Details(errorCode, processOutput, processError))
  {
    var l1 := OptionalLine("Error code: ", CodeText(errorCode));
    var l2 := OptionalLine("Process Output: ", processOutput);
    var l3 := OptionalLine("Process Error Output: ", processError);
    OptionalLineEndsWithBreak("Error code: ", CodeText(errorCode));
    OptionalLineEndsWithBreak("Process Output: ", processOutput);
    OptionalLineEndsWithBreak("Process Error Output: ", processError);
    AppendKeepsBreak(l2, l3);
    AppendKeepsBreak(l1, l2 + l3);
  }

  lemma OptionalLineEndsWithBreak(prefix: string, value: Option<string>)
    ensures EmptyOrEndsWithBreak(OptionalLine(prefix, value))
  {
    if value.Some? {
      var t := prefix + value.value;
      assert (t + NewLine)[|t|..] == NewLine;
    }
  }

  lemma AppendKeepsBreak(a: string, b: string)
    requires EmptyOrEndsWithBreak(a) && EmptyOrEndsWithBreak(b)
    ensures EmptyOrEndsWithBreak(a + b)
  {
    if |b| == 0 {
      assert a + b == a;
    } else {
      assert (a + b)[|a + b| - 2..] == b[|b| - 2..];
    }
  }

  // ----- reading the message back as lines -----

  predicate NoLineBreak(s: string) {
    '\r' !in s
  }

  /** The position of the first "\r\n" in s, or -1. */
  function FirstBreak(s: string): (k: int)
    ensures k == -1 || 0 <= k <= |s| - 2
    ensures k >= 0 ==> s[k..k + 2] == NewLine
    decreases |s|
  {
    if |s| < 2 then -1
    else if s[..2] == NewLine then 0
    else
      var k := FirstBreak(s[1..]);
      if k == -1 then -1
      else
        assert s[1..][k..k + 2] == s[k + 1..k + 3];
        k + 1
  }

  /** The lines of a text whose every line is ended by a line break. */
  function Lines(s: string): (r: seq<string>)
    decreases |s|
  {
    var k := FirstBreak(s);
    if k == -1 then (if |s| == 0 then [] else [s]) else [s[..k]] + Lines(s[k + 2..])
  }

  lemma {:induction false} FirstBreakAfterPlainText(x: string, rest: string)
    requires NoLineBreak(x)
    ensures FirstBreak(x + NewLine + rest) == |x|
    decreases |x|
  {
    var s := x + NewLine + rest;
    if |x| == 0 {
      assert s[..2] == NewLine;
    } else {
      assert s[0] == x[0] && x[0] != '\r';
      assert s[..2] != NewLine by {
        assert s[..2][0] == s[0];
      }
      assert NoLineBreak(x[1..]) by {
        assert forall c :: c in x[1..] ==> c in x;
      }
      FirstBreakAfterPlainText(x[1..], rest);
      assert s[1..] == x[1..] + NewLine + rest;
    }
  }

  /** A line without a line break, then the break, reads back as that line
      followed by the lines of the rest. */
  lemma LinesCons(x: string, rest: string)
    requires NoLineBreak(x)
    ensures Lines(x + NewLine + rest) == [x] + Lines(rest)
  {
    var s := x + NewLine + rest;
    FirstBreakAfterPlainText(x, rest);
    assert s[..|x|] == x;
    assert s[|x| + 2..] == rest;
  }

  function LineText(prefix: string, value: Option<string>): seq<string> {
    if value.Some? then [prefix + value.value] else []
  }

  lemma DigitsHaveNoBreak(n: int)
    ensures NoLineBreak(IntToString(n))
  {
    var digits := NatToString(if n < 0 then -n else n);
    assert forall i :: 0 <= i < |digits| ==> digits[i] != '\r';
    assert IntToString(n) == if n < 0 then "-" + digits else digits;
  }

  lemma ConcatNoBreak(a: string, b: string)
    requires NoLineBreak(a) && NoLineBreak(b)
    ensures NoLineBreak(a + b)
  {
    assert forall c :: c in a + b ==> c in a || c in b;
  }

  lemma {:induction false} OptionalLineLines(prefix: string, value: Option<string>, rest: string)
    requires NoLineBreak(prefix) && (value.Some? ==> NoLineBreak(value.value))
    ensures Lines(OptionalLine(prefix, value) + rest) == LineText(prefix, value) + Lines(rest)
  {
    if value.Some? {
      ConcatNoBreak(prefix, value.value);
      LinesCons(prefix + value.value, rest);
      assert OptionalLine(prefix, value) + rest == (prefix + value.value) + NewLine + rest;
    } else {
      assert OptionalLine(prefix, value) + rest == rest;
    }
  }

  function CodeText(errorCode: Option<int>): Option<string> {
    if errorCode.Some? then Some(IntToString(errorCode.value)) else None
  }

  lemma DetailsLines(errorCode: Option<int>, processOutput: Option<string>, processError: Option<string>)
    requires processOutput.Some? ==> NoLineBreak(processOutput.value)
    requires processError.Some? ==> NoLineBreak(processError.value)
    ensures Lines(Details(errorCode, processOutput, processError))
      == LineText("Error code: ", CodeText(errorCode))
        + (LineText("Process Output: ", processOutput) + LineText("Process Error Output: ", processError))
  {
    if errorCode.Some? {
      DigitsHaveNoBreak(errorCode.value);
    }
    var l2 := OptionalLine("Process Output: ", processOutput);
    var l3 := OptionalLine("Process Error Output: ", processError);
    ErrorOutputLines(processError);
    OptionalLineLines("Process Output: ", processOutput, l3);
    OptionalLineLines("Error code: ", CodeText(errorCode), l2 + l3);
  }

  lemma ErrorOutputLines(processError: Option<string>)
    requires processError.Some? ==> NoLineBreak(processError.value)
    ensures Lines(OptionalLine("Process Error Output: ", processError)) == LineText("Process Error Output: ", processError)
  {
    var l3 := OptionalLine("Process Error Output: ", processError);
    assert Lines("") == [];
    OptionalLineLines("Process Error Output: ", processError, "");
    assert l3 + "" == l3;
  }

  /** When no part contains a carriage return, the message reads back as the
      message line, then exactly the present lines, in order: code, output,
      error output. */
  lemma MessageLines(errorCode: Option<int>, message: Option<string>, processOutput: Option<string>, processError: Option<string>)
    requires message.Some? ==> NoLineBreak(message.value)
    requires processOutput.Some? ==> NoLineBreak(processOutput.value)
    requires processError.Some? ==> NoLineBreak(processError.value)
    ensures Lines(GetMessage(errorCode, message, processOutput, processError))
      == [message.GetOr("")]
        + LineText("Error code: ", CodeText(errorCode))
        + LineText("Process Output: ", processOutput)
        + LineText("Process Error Output: ", processError)
  {
    var m := message.GetOr("");
    var d := Details(errorCode, processOutput, processError);
    assert GetMessage(errorCode, message, processOutput, processError) == m + NewLine + d;
    DetailsLines(errorCode, processOutput, processError);
    LinesCons(m, d);
    var t1 := LineText("Error code: ", CodeText(errorCode));
    var t2 := LineText("Process Output: ", processOutput);
    var t3 := LineText("Process Error Output: ", processError);
    Regroup([m], t1, t2, t3);
  }

  lemma Regroup<T>(a: seq<T>, b: seq<T>, c: seq<T>, d: seq<T>)
    ensures a + (b + (c + d)) == a + b + c + d
  {
  }
}

=== FILE: string_tools.dfy ===
/** The string helpers of StringTools that the rest of the library builds on.

    A .NET string reference that may be null is an Option<string>; the
    exceptions String.Substring throws are Err results. */
module StringTools {
  import opened Wrappers
  import opened Text

  /** ArgumentOutOfRangeException from String.Substring. */
  datatype StringError = ArgumentOutOfRange

  // ----- ConcatenateWithDelimiter -----

  /** The tokens ConcatenateWithDelimiter keeps: every input trimmed, a null
      read as "", and the empty results dropped. */
  function Tokens(strings: seq<Option<string>>): (tokens: seq<string>)
    ensures |tokens| <= |strings|
    ensures forall i :: 0 <= i < |tokens| ==> |tokens[i]| > 0 && IsTrimmed(tokens[i])
  {
    if |strings| == 0 then []
    else
      var t := Trim(strings[0].GetOr(""));
      (if |t| > 0 then [t] else []) + Tokens(strings[1..])
  }

  /** Every input is null or white space. */
  predicate AllBlank(strings: seq<Option<string>>) {
    forall i :: 0 <= i < |strings| ==> IsBlank(strings[i].GetOr(""))
  }

  lemma AllBlankCons(strings: seq<Option<string>>)
    requires |strings| > 0
    ensures AllBlank(strings) <==> IsBlank(strings[0].GetOr("")) && AllBlank(strings[1..])
  {
    assert forall i :: 0 <= i < |strings| - 1 ==> strings[1..][i] == strings[i + 1];
  }

  /** No token survives exactly when every input is null or white space. */
  lemma {:induction false} TokensEmptyIffAllBlank(strings: seq<Option<string>>)
    ensures Tokens(strings) == [] <==> AllBlank(strings)
    decreases |strings|
  {
    if |strings| > 0 {
      TrimEmptyIffBlank(strings[0].GetOr(""));
      TokensEmptyIffAllBlank(strings[1..]);
      AllBlankCons(strings);
    }
  }

  /** Joining with a delimiter, a first element in front of a non-empty rest. */
  lemma {:induction false} JoinCons(d: string, x: string, xs: seq<string>)
    requires |xs| > 0
    ensures Join(d, [x] + xs) == x + d + Join(d, xs)
    decreases |xs|
  {
    var ys := [x] + xs;
    if |xs| == 1 {
      assert ys[..1] == [x];
    } else {
      JoinCons(d, x, xs[..|xs| - 1]);
      assert ys[..|ys| - 1] == [x] + xs[..|xs| - 1];
    }
  }

  /** Splitting undoes joining when the delimiter is a character no piece holds. */
  lemma {:induction false} SplitJoin(c: char, xs: seq<string>)
    requires |xs| > 0
    requires forall i :: 0 <= i < |xs| ==> c !in xs[i]
    ensures Split(Join([c], xs), c) == xs
    decreases |xs|
  {
    if |xs| == 1 {
      assert IndexOfChar(xs[0], c) == -1;
    } else {
      var rest := Join([c], xs[1..]);
      JoinCons([c], xs[0], xs[1..]);
      assert [xs[0]] + xs[1..] == xs;
      var s := xs[0] + [c] + rest;
      assert s[..|xs[0]|] == xs[0];
      assert s[|xs[0]|] == c;
      assert IndexOfChar(s, c) == |xs[0]|;
      assert s[|xs[0]| + 1..] == rest;
      SplitJoin(c, xs[1..]);
    }
  }

  /** ConcatenateWithDelimiter over strings: the first token, then the
      delimiter and the next token for every further token. */
  method ConcatenateWithDelimiter(delimiter: string, strings: seq<Option<string>>) returns (result: string)
    ensures result == Join(delimiter, Tokens(strings))
    ensures result == "" <==> Tokens(strings) == []
  {
    var tokens := Tokens(strings);
    if |tokens| == 0 {
      return "";
    }
    result := tokens[0];
    var i := 1;
    while i < |tokens|
      invariant 1 <= i <= |tokens|
      invariant result == Join(delimiter, tokens[..i])
      invariant |result| >= |tokens[0]|
    {
      assert tokens[..i + 1][..i] == tokens[..i];
      result := result + delimiter + tokens[i];
      i := i + 1;
    }
    assert tokens[..i] == tokens;
  }

  /** The character overload: every character becomes a one-character string. */
  method ConcatenateCharsWithDelimiter(delimiter: string, chars: seq<char>) returns (result: string)
    ensures result == Join(delimiter, Tokens(seq(|chars|, i requires 0 <= i < |chars| => Some([chars[i]]))))
  {
    var strings := seq(|chars|, i requires 0 <= i < |chars| => Some([chars[i]]));
    result := ConcatenateWithDelimiter(delimiter, strings);
  }

  // ----- DissectByChar -----

  /** The trimmed text on either side of the first occurrence of c; None when
      the line is null or c does not occur. */
  function DissectByChar(line: Option<string>, c: char): (r: Option<(string, string)>)
    ensures r.Some? <==> line.Some? && c in line.value
  {
    if line.None? then None
    else
      var k := IndexOfChar(line.value, c);
      if k == -1 then None else Some((Trim(line.value[..k]), Trim(line.value[k + 1..])))
  }

  /** A line holding c is split at the first occurrence of c, and each half is
      trimmed. */
  lemma DissectAtFirstOccurrence(line: string, c: char, k: int)
    requires 0 <= k < |line| && line[k] == c && c !in line[..k]
    ensures DissectByChar(Some(line), c) == Some((Trim(line[..k]), Trim(line[k + 1..])))
  {
    IndexOfCharIsFirst(line, c, k);
  }

  /** Dissecting undoes putting two trimmed texts around c, when the first does
      not contain c. */
  lemma DissectJoined(a: string, b: string, c: char)
    requires c !in a && IsTrimmed(a) && IsTrimmed(b)
    ensures DissectByChar(Some(a + [c] + b), c) == Some((a, b))
  {
    var s := a + [c] + b;
    PartsOfJoined(a, c, b);
    DissectAtFirstOccurrence(s, c, |a|);
    TrimOfTrimmed(a);
    TrimOfTrimmed(b);
  }

  lemma PartsOfJoined(a: string, c: char, b: string)
    ensures var s := a + [c] + b; s[|a|] == c && s[..|a|] == a && s[|a| + 1..] == b
  {
  }

  // ----- Truncate and TruncateStart -----

  /** Truncate: the prefix of length min(maxLength, |s|); a negative length
      makes Substring throw. */
  function Truncate(s: Option<string>, maxLength: int): (r: Result<Option<string>, StringError>)
    ensures s.None? ==> r == Ok(None)
    ensures s.Some? && maxLength < 0 ==> r == Err(ArgumentOutOfRange)
    ensures s.Some? && maxLength >= 0 ==> (r.Ok? && r.value.Some?
      && r.value.value <= s.value
      && |r.value.value| == if maxLength < |s.value| then maxLength else |s.value|)
  {
    if s.None? then Ok(None)
    else
      var n := if maxLength < |s.value| then maxLength else |s.value|;
      if n < 0 then Err(ArgumentOutOfRange) else Ok(Some(s.value[..n]))
  }

  /** TruncateStart: the suffix of length min(maxLength, |s|); a negative
      length puts the start past the end and Substring throws. */
  function TruncateStart(s: Option<string>, maxLength: int): (r: Result<Option<string>, StringError>)
    ensures s.None? ==> r == Ok(None)
    ensures s.Some? && maxLength < 0 ==> r == Err(ArgumentOutOfRange)
    ensures s.Some? && maxLength >= 0 ==> (r.Ok? && r.value.Some?
      && |r.value.value| == (if maxLength < |s.value| then maxLength else |s.value|)
      && r.value.value == s.value[|s.value| - |r.value.value|..])
  {
    if s.None? then Ok(None)
    else
      var start := if 0 < |s.value| - maxLength then |s.value| - maxLength else 0;
      var n := if maxLength < |s.value| then maxLength else |s.value|;
      if start > |s.value| || n < 0 then Err(ArgumentOutOfRange)
      else Ok(Some(s.value[start..start + n]))
  }

  /** The kept prefix and the kept suffix of complementary lengths make up the
      whole string. */
  lemma TruncateThenTruncateStart(s: string, k: int)
    requires 0 <= k <= |s|
    ensures Truncate(Some(s), k).Ok? && TruncateStart(Some(s), |s| - k).Ok?
    ensures Truncate(Some(s), k).value.value + TruncateStart(Some(s), |s| - k).value.value == s
  {
    assert s[..k] + s[k..] == s;
  }

  // ----- CamelToEnglish -----

  /** The table of CamelToEnglish: a space goes between prev and cur at a
      lower-to-upper, lower-or-upper-to-digit or digit-to-letter change. */
  predicate SpaceBetween(prev: char, cur: char) {
    (IsUpper(cur) && (IsLower(prev) || IsDigit(prev)))
    || (IsDigit(cur) && (IsLower(prev) || IsUpper(prev)))
    || (IsLower(cur) && IsDigit(prev))
  }

  /** The spaced text: every character, with one space in front of each
      character that starts a new word. */
  function Spaced(t: string): (r: string)
    requires |t| > 0
    ensures |r| > 0 && r[0] == t[0] && r[|r| - 1] == t[|t| - 1]
  {
    if |t| == 1 then t
    else Spaced(t[..|t| - 1]) + (if SpaceBetween(t[|t| - 2], t[|t| - 1]) then " " else "") + [t[|t| - 1]]
  }

  /** The number of word starts in t: positions i > 0 that take a space. */
  function Breaks(t: string): nat {
    if |t| <= 1 then 0
    else Breaks(t[..|t| - 1]) + (if SpaceBetween(t[|t| - 2], t[|t| - 1]) then 1 else 0)
  }

  /** CamelToEnglish: null and "" come back unchanged; otherwise the characters
      are copied one by one, a space going in front of each word start. */
  method CamelToEnglish(text: Option<string>) returns (r: Option<string>)
    ensures text.None? ==> r.None?
    ensures text.Some? && |text.value| == 0 ==> r == Some("")
    ensures text.Some? && |text.value| > 0 ==> r == Some(Spaced(text.value))
  {
    if text.None? || |text.value| == 0 {
      return text;
    }
    var t := text.value;
    var newText := "";
    var i := 1;
    while i < |t|
      invariant 1 <= i <= |t|
      invariant newText + [t[i - 1]] == Spaced(t[..i])
    {
      assert t[..i + 1][..i] == t[..i];
      newText := newText + [t[i - 1]];
      if SpaceBetween(t[i - 1], t[i]) {
        newText := newText + " ";
      }
      i := i + 1;
    }
    assert t[..i] == t;
    r := Some(newText + [t[|t| - 1]]);
  }

  /** The spaced text is the input lengthened by one space per word start. */
  lemma {:induction false} SpacedLength(t: string)
    requires |t| > 0
    ensures |Spaced(t)| == |t| + Breaks(t)
    decreases |t|
  {
    if |t| > 1 {
      SpacedLength(t[..|t| - 1]);
    }
  }

  /** One step of the spaced text, with its spaces removed. */
  lemma SpacedStepWithoutSpaces(t: string)
    requires |t| > 1 && t[|t| - 1] != ' '
    ensures RemoveChar(Spaced(t), ' ') == RemoveChar(Spaced(t[..|t| - 1]), ' ') + [t[|t| - 1]]
  {
    var front := Spaced(t[..|t| - 1]);
    var last := [t[|t| - 1]];
    var sp := if SpaceBetween(t[|t| - 2], t[|t| - 1]) then " " else "";
    assert Spaced(t) == (front + sp) + last;
    RemoveCharAppend(front + sp, last, ' ');
    RemoveCharAppend(front, sp, ' ');
    var noSp := RemoveChar(sp, ' ');
    assert noSp == "" by {
      if |sp| > 0 { assert sp[1..] == ""; }
    }
    assert RemoveChar(last, ' ') == last by {
      assert last[1..] == "";
    }
    assert RemoveChar(front + sp, ' ') == RemoveChar(front, ' ') + noSp;
    assert RemoveChar(front, ' ') + noSp == RemoveChar(front, ' ');
  }

  /** Only spaces are inserted: deleting every space from the spaced text gives
      back an input that had none. */
  lemma {:induction false} SpacedOnlyInsertsSpaces(t: string)
    requires |t| > 0 && ' ' !in t
    ensures RemoveChar(Spaced(t), ' ') == t
    decreases |t|
  {
    if |t| == 1 {
      assert t[1..] == "";
    } else {
      var p := t[..|t| - 1];
      assert ' ' !in p by {
        forall i | 0 <= i < |p| ensures p[i] != ' ' { assert p[i] == t[i]; }
      }
      SpacedOnlyInsertsSpaces(p);
      SpacedStepWithoutSpaces(t);
      assert p + [t[|t| - 1]] == t;
    }
  }

  /** Removing a character distributes over concatenation. */
  lemma {:induction false} RemoveCharAppend(a: string, b: string, c: char)
    ensures RemoveChar(a + b, c) == RemoveChar(a, c) + RemoveChar(b, c)
    decreases |a|
  {
    if |a| > 0 {
      RemoveCharAppend(a[1..], b, c);
      assert (a + b)[1..] == a[1..] + b;
    } else {
      assert a + b == b;
    }
  }

  // ----- AppendDelimiter, PrependDelimiter and Surround -----

  function AppendDelimiter(s: string, delimiter: string): (r: string)
    ensures |s| == 0 ==> r == s
    ensures |s| > 0 ==> r == s + delimiter
  {
    if |s| > 0 then s + delimiter else s
  }

  function PrependDelimiter(s: string, delimiter: string): (r: string)
    ensures |s| == 0 ==> r == s
    ensures |s| > 0 ==> r == delimiter + s
  {
    if |s| > 0 then delimiter + s else s
  }

  function Surround(s: string, left: string, right: string): (r: string)
    ensures |s| == 0 ==> r == s
    ensures |s| > 0 ==> r == left + s + right
  {
    if |s| > 0 then left + s + right else s
  }

  /** Surrounding is appending the right text and then prepending the left. */
  lemma SurroundIsAppendThenPrepend(s: string, left: string, right: string)
    ensures Surround(s, left, right) == PrependDelimiter(AppendDelimiter(s, right), left)
  {
  }

  // ----- ReplaceLast -----

  /** ReplaceLast: the last ordinal occurrence of oldValue replaced, the input
      unchanged when oldValue does not occur. */
  function ReplaceLast(s: string, oldValue: string, newValue: string): (r: string)
    ensures !Contains(s, oldValue) ==> r == s
    ensures Contains(s, oldValue) ==> exists p :: (OccursAt(s, oldValue, p)
      && (forall q :: p < q <= |s| ==> !OccursAt(s, oldValue, q))
      && r == s[..p] + newValue + s[p + |oldValue|..])
  {
    var pos := LastIndexOf(s, oldValue);
    if pos < 0 then s else s[..pos] + newValue + s[pos + |oldValue|..]
  }

  /** Replacing the last occurrence of a text with itself changes nothing. */
  lemma ReplaceLastWithItself(s: string, v: string)
    ensures ReplaceLast(s, v, v) == s
  {
    var pos := LastIndexOf(s, v);
    if pos >= 0 {
      assert s[..pos] + s[pos..pos + |v|] + s[pos + |v|..] == s;
    }
  }

  // ----- SoundEx -----

  /** The SoundEx class of an upper-case letter; None for characters the
      switch does not list, which keep the previous class. */
  function SoundExClass(c: char): (r: Option<int>)
    ensures r.Some? ==> 0 <= r.value <= 6
    ensures r.Some? <==> IsUpper(c)
  {
    if c in "AEIOUHWY" then Some(0)
    else if c in "BFPV" then Some(1)
    else if c in "CGJKQSXZ" then Some(2)
    else if c in "DT" then Some(3)
    else if c == 'L' then Some(4)
    else if c in "MN" then Some(5)
    else if c == 'R' then Some(6)
    else None
  }

  /** The digits appended after the first character: a class is written when
      it differs from the previous one and is not 0, and at most budget
      digits are written. */
  function SoundExDigits(cs: string, prev: int, budget: nat): (r: string)
    ensures |r| <= budget
    ensures forall i :: 0 <= i < |r| ==> '1' <= r[i] <= '6'
  {
    if |cs| == 0 || budget == 0 then ""
    else
      var cur := SoundExClass(cs[0]).GetOr(prev);
      if cur != prev && 1 <= cur <= 6 then [DigitChar(cur)] + SoundExDigits(cs[1..], cur, budget - 1)
      else SoundExDigits(cs[1..], cur, budget)
  }

  function Zeros(n: nat): (r: string)
    ensures |r| == n && forall i :: 0 <= i < n ==> r[i] == '0'
  {
    if n == 0 then "" else Zeros(n - 1) + "0"
  }

  /** SoundEx: "" for words shorter than two characters; otherwise the
      upper-cased first character, up to three class digits, and '0' padding to
      four characters. */
  function SoundEx(word: string): (r: string)
    ensures |word| < 2 ==> r == ""
    ensures |word| >= 2 ==> |r| == 4 && r[0] == ToUpperChar(word[0])
    ensures forall i :: 1 <= i < |r| ==> '0' <= r[i] <= '6'
    ensures forall i, j :: 1 <= i < j < |r| && r[i] == '0' ==> r[j] == '0'
  {
    if |word| < 2 then ""
    else
      var u := ToUpper(word);
      var digits := SoundExDigits(u[1..], 0, 3);
      var r := [u[0]] + digits + Zeros(3 - |digits|);
      assert forall i :: 1 <= i < |r| ==> r[i] == (if i <= |digits| then digits[i - 1] else '0');
      r
  }

  /** A character outside the switch writes nothing and keeps the previous
      class, so it neither adds a digit nor breaks a run of one class. */
  lemma SoundExDigitsSkips(c: char, rest: string, prev: int, budget: nat)
    requires !IsUpper(c)
    ensures SoundExDigits([c] + rest, prev, budget) == SoundExDigits(rest, prev, budget)
  {
    assert ([c] + rest)[1..] == rest;
  }

  /** A character outside the switch inserted after the first leaves the
      code unchanged. */
  lemma SoundExIgnoresNonLetters(word: string, c: char)
    requires |word| >= 2 && !IsUpper(ToUpperChar(c))
    ensures SoundEx(word[..1] + [c] + word[1..]) == SoundEx(word)
  {
    var u, v := ToUpper(word[..1] + [c] + word[1..]), ToUpper(word);
    assert u[1..] == [ToUpperChar(c)] + v[1..];
    SoundExDigitsSkips(ToUpperChar(c), v[1..], 0, 3);
  }

  /** SoundEx ignores case. */
  lemma SoundExIgnoresCase(word: string)
    ensures SoundEx(ToLower(word)) == SoundEx(word)
  {
    ToUpperOfToLower(word);
  }

  // ----- RemoveCharacters -----

  /** The characters of s that are not among chars, in order. */
  function KeepAllBut(s: string, chars: seq<char>): (r: string)
    ensures forall x :: x in r <==> x in s && x !in chars
  {
    if |s| == 0 then ""
    else (if s[0] in chars then "" else [s[0]]) + KeepAllBut(s[1..], chars)
  }

  /** replaceCharactersWithString with "": each character removed in turn. */
  function RemoveAll(s: string, chars: seq<char>): string {
    if |chars| == 0 then s else RemoveChar(RemoveAll(s, chars[..|chars| - 1]), chars[|chars| - 1])
  }

  /** RemoveCharacters: null stays null. */
  function RemoveCharacters(text: Option<string>, chars: seq<char>): (r: Option<string>)
    ensures text.None? <==> r.None?
    ensures r.Some? ==> forall i :: 0 <= i < |chars| ==> chars[i] !in r.value
  {
    if text.None? then None
    else
      RemoveAllKeepsTheRest(text.value, chars);
      Some(RemoveAll(text.value, chars))
  }

  lemma {:induction false} RemoveCharOfKeep(s: string, chars: seq<char>, c: char)
    ensures RemoveChar(KeepAllBut(s, chars), c) == KeepAllBut(s, chars + [c])
    decreases |s|
  {
    if |s| > 0 {
      RemoveCharOfKeep(s[1..], chars, c);
      var head := if s[0] in chars then "" else [s[0]];
      RemoveCharAppend(head, KeepAllBut(s[1..], chars), c);
      if |head| > 0 { assert head[1..] == ""; }
    }
  }

  /** Removing the characters one after another keeps exactly the other
      characters, in their order. */
  lemma {:induction false} RemoveAllKeepsTheRest(s: string, chars: seq<char>)
    ensures RemoveAll(s, chars) == KeepAllBut(s, chars)
    decreases |chars|
  {
    if |chars| == 0 {
      KeepNothing(s);
    } else {
      var init := chars[..|chars| - 1];
      RemoveAllKeepsTheRest(s, init);
      RemoveCharOfKeep(s, init, chars[|chars| - 1]);
      assert init + [chars[|chars| - 1]] == chars;
    }
  }

  lemma {:induction false} KeepNothing(s: string)
    ensures KeepAllBut(s, []) == s
    decreases |s|
  {
    if |s| > 0 {
      KeepNothing(s[1..]);
      assert [s[0]] + s[1..] == s;
    }
  }
}

=== FILE: tab_delimited_file_writer.dfy ===
/** TabDelimitedFileWriter: a current-line buffer that values are appended to,
    each followed by a tab, and that is written out, without its trailing
    tabs, one line at a time.

    A value is modelled by the text its ToString returns (None: null); the
    text writer is the sequence of lines written so far. */
module TabDelimitedFileWriter {
  import opened Wrappers
  import opened Text

  const Delimiter: char := '\t'

  datatype Writer = Writer(line: string, file: seq<string>)

  /** The ApplicationException for a value the format cannot hold. */
  datatype WriterError = TabOrNewLineInValue

  /** The writer state after a call, and the exception it threw, if any. */
  datatype Step = Step(writer: Writer, error: Option<WriterError>)

  /** A new writer: an empty line and nothing written. */
  function Create(file: seq<string>): (w: Writer)
    ensures w.line == "" && w.file == file
  {
    Writer("", file)
  }

  /** The text a value puts in its column. */
  function Cell(val: Option<string>): string {
    val.GetOr("")
  }

  /** A value the format can hold: no tab and no newline sequence. */
  predicate Writable(val: Option<string>) {
    Delimiter !in Cell(val) && !Contains(Cell(val), NewLine)
  }

  /** ClearLine: forgets the current line; the file is untouched. */
  function ClearLine(w: Writer): (r: Writer)
    ensures r.line == "" && r.file == w.file
  {
    w.(line := "")
  }

  /** AddValueToLine: a null or empty value adds just a tab; a value with a tab
      or a newline throws before touching the line; any other value adds its
      text and a tab. */
  function AddValueToLine(w: Writer, val: Option<string>): (r: Step)
    ensures r.error.Some? <==> !Writable(val)
    ensures r.error.Some? ==> r.writer == w
    ensures r.error.None? ==> r.writer == w.(line := w.line + Cell(val) + [Delimiter])
    ensures Cell(val) == "" ==> r.writer.line == w.line + "\t"
  {
    if val.None? || val.value == "" then Step(w.(line := w.line + [Delimiter]), None)
    else if Delimiter in val.value || Contains(val.value, NewLine) then Step(w, Some(TabOrNewLineInValue))
    else Step(w.(line := w.line + val.value + [Delimiter]), None)
  }

  /** The buffer text for cells added one after another: each followed by a tab. */
  function TabTerminated(cells: seq<string>): (text: string)
    ensures |cells| > 0 ==> |text| > 0 && text[|text| - 1] == Delimiter
  {
    if |cells| == 0 then "" else TabTerminated(cells[..|cells| - 1]) + cells[|cells| - 1] + [Delimiter]
  }

  function Cells(values: seq<Option<string>>): (cells: seq<string>)
    ensures |cells| == |values|
    ensures forall i :: 0 <= i < |values| ==> cells[i] == Cell(values[i])
  {
    if |values| == 0 then [] else [Cell(values[0])] + Cells(values[1..])
  }

  /** AddValuesToLine: AddValueToLine on each value, left to right, stopping at
      the first one that throws; the values before it stay on the line. */
  function AddValuesToLine(w: Writer, values: seq<Option<string>>): (r: Step)
    ensures r.writer.file == w.file
    ensures r.error.None? <==> forall i :: 0 <= i < |values| ==> Writable(values[i])
    decreases |values|
  {
    if |values| == 0 then Step(w, None)
    else
      var s := AddValueToLine(w, values[0]);
      if s.error.Some? then s
      else
        var r := AddValuesToLine(s.writer, values[1..]);
        assert forall i :: 1 <= i < |values| ==> values[1..][i - 1] == values[i];
        r
  }

  /** WriteCurrentLineToFile: writes the line with every trailing tab removed,
      then starts a new, empty line. */
  function WriteCurrentLineToFile(w: Writer): (r: Writer)
    ensures r.line == ""
    ensures |r.file| == |w.file| + 1 && r.file[..|w.file|] == w.file
    ensures |r.file[|w.file|]| <= |w.line|
    ensures w.line == r.file[|w.file|] + seq(|w.line| - |r.file[|w.file|]|, _ => Delimiter)
    ensures |r.file[|w.file|]| == 0 || r.file[|w.file|][|r.file[|w.file|]| - 1] != Delimiter
  {
    var text := TrimEndChar(w.line, Delimiter);
    assert w.line == text + w.line[|text|..];
    assert w.line[|text|..] == seq(|w.line| - |text|, _ => Delimiter);
    Writer("", w.file + [text])
  }

  /** The cells with every trailing empty one dropped. */
  function DropTrailingEmpty(cells: seq<string>): (r: seq<string>)
    ensures |r| <= |cells| && r == cells[..|r|]
    ensures |r| == 0 || r[|r| - 1] != ""
    ensures forall i :: |r| <= i < |cells| ==> cells[i] == ""
  {
    if |cells| > 0 && cells[|cells| - 1] == "" then DropTrailingEmpty(cells[..|cells| - 1]) else cells
  }

  /** Adding writable values appends their tab-terminated cells to the line. */
  lemma {:induction false} AddValuesAppends(w: Writer, values: seq<Option<string>>)
    requires forall i :: 0 <= i < |values| ==> Writable(values[i])
    ensures AddValuesToLine(w, values).writer.line == w.line + TabTerminated(Cells(values))
    decreases |values|
  {
    if |values| > 0 {
      var c := Cell(values[0]);
      var rest := values[1..];
      assert Writable(values[0]);
      var w1 := AddValueToLine(w, values[0]).writer;
      assert w1.line == w.line + c + [Delimiter];
      assert forall i :: 0 <= i < |rest| ==> Writable(rest[i]) by {
        assert forall i :: 0 <= i < |rest| ==> rest[i] == values[i + 1];
      }
      AddValuesAppends(w1, rest);
      assert AddValuesToLine(w, values).writer == AddValuesToLine(w1, rest).writer;
      assert Cells(values) == [c] + Cells(rest);
      TabTerminatedCons(c, Cells(rest));
      AppendRegroup(w.line, c, TabTerminated(Cells(rest)));
    }
  }

  lemma AppendRegroup(a: string, c: string, t: string)
    ensures a + c + [Delimiter] + t == a + (c + [Delimiter] + t)
  {
  }

  /** The tab-terminated text of a cell followed by more cells. */
  lemma {:induction false} TabTerminatedCons(c: string, cells: seq<string>)
    ensures TabTerminated([c] + cells) == c + [Delimiter] + TabTerminated(cells)
    decreases |cells|
  {
    if |cells| > 0 {
      var init := cells[..|cells| - 1];
      TabTerminatedCons(c, init);
      assert ([c] + cells)[..|cells|] == [c] + init;
    } else {
      assert [c] + cells == [c];
    }
  }

  /** A non-empty tab-terminated text is the joined cells and one more tab. */
  lemma {:induction false} TabTerminatedIsJoin(cells: seq<string>)
    requires |cells| > 0
    ensures TabTerminated(cells) == Join([Delimiter], cells) + [Delimiter]
    decreases |cells|
  {
    if |cells| > 1 {
      TabTerminatedIsJoin(cells[..|cells| - 1]);
    }
  }

  /** Removing trailing tabs ignores one more tab at the end. */
  lemma TrimEndOfExtraTab(s: string)
    ensures TrimEndChar(s + [Delimiter], Delimiter) == TrimEndChar(s, Delimiter)
  {
    assert (s + [Delimiter])[..|s|] == s;
  }

  /** The written text of tab-free cells: the cells joined by tabs, trailing
      empty cells left out. */
  lemma {:induction false} WrittenTextIsJoin(cells: seq<string>)
    requires forall i :: 0 <= i < |cells| ==> Delimiter !in cells[i]
    ensures TrimEndChar(TabTerminated(cells), Delimiter) == Join([Delimiter], DropTrailingEmpty(cells))
    decreases |cells|
  {
    if |cells| > 0 {
      var init := cells[..|cells| - 1];
      if cells[|cells| - 1] == "" {
        WrittenTextIsJoin(init);
        WrittenTextEmptyLast(cells);
      } else {
        WrittenTextNonEmptyLast(cells);
      }
    }
  }

  /** An empty last cell adds only a tab, which the trimming takes off again. */
  lemma WrittenTextEmptyLast(cells: seq<string>)
    requires |cells| > 0 && cells[|cells| - 1] == ""
    requires var init := cells[..|cells| - 1];
      TrimEndChar(TabTerminated(init), Delimiter) == Join([Delimiter], DropTrailingEmpty(init))
    ensures TrimEndChar(TabTerminated(cells), Delimiter) == Join([Delimiter], DropTrailingEmpty(cells))
  {
    var init := cells[..|cells| - 1];
    assert TabTerminated(cells) == TabTerminated(init) + [Delimiter];
    TrimEndOfExtraTab(TabTerminated(init));
  }

  /** A non-empty last cell without a tab stops the trimming at its end. */
  lemma WrittenTextNonEmptyLast(cells: seq<string>)
    requires |cells| > 0 && cells[|cells| - 1] != ""
    requires forall i :: 0 <= i < |cells| ==> Delimiter !in cells[i]
    ensures TrimEndChar(TabTerminated(cells), Delimiter) == Join([Delimiter], DropTrailingEmpty(cells))
  {
    var init, last := cells[..|cells| - 1], cells[|cells| - 1];
    assert TabTerminated(cells) == TabTerminated(init) + last + [Delimiter];
    LastCellNotTab(cells);
    TrimAfterCell(TabTerminated(init), last);
    BodyIsJoin(cells);
  }

  /** A non-empty tab-free cell does not end in a tab. */
  lemma LastCellNotTab(cells: seq<string>)
    requires |cells| > 0 && cells[|cells| - 1] != ""
    requires forall i :: 0 <= i < |cells| ==> Delimiter !in cells[i]
    ensures var last := cells[|cells| - 1]; |last| > 0 && last[|last| - 1] != Delimiter
  {
    var last := cells[|cells| - 1];
    assert last[|last| - 1] in last;
  }

  /** Trimming stops at the end of a cell that does not end in a tab. */
  lemma TrimAfterCell(prefix: string, last: string)
    requires |last| > 0 && last[|last| - 1] != Delimiter
    ensures TrimEndChar(prefix + last + [Delimiter], Delimiter) == prefix + last
  {
    TrimEndOfExtraTab(prefix + last);
    assert (prefix + last)[|prefix + last| - 1] == last[|last| - 1];
  }

  /** The earlier cells, each tab-terminated, then the last cell: the join. */
  lemma BodyIsJoin(cells: seq<string>)
    requires |cells| > 0
    ensures TabTerminated(cells[..|cells| - 1]) + cells[|cells| - 1] == Join([Delimiter], cells)
  {
    if |cells| > 1 {
      TabTerminatedIsJoin(cells[..|cells| - 1]);
    } else {
      assert TabTerminated(cells[..0]) == "";
    }
  }

  /** A line built from a cleared buffer and written out is the values' texts
      joined by tabs, with the trailing empty ones dropped; the file gains
      exactly that line. */
  lemma WrittenLine(w: Writer, values: seq<Option<string>>)
    requires forall i :: 0 <= i < |values| ==> Writable(values[i])
    ensures WriteCurrentLineToFile(AddValuesToLine(ClearLine(w), values).writer).file
         == w.file + [Join("\t", DropTrailingEmpty(Cells(values)))]
  {
    AddValuesAppends(ClearLine(w), values);
    WrittenTextIsJoin(Cells(values));
    assert "" + TabTerminated(Cells(values)) == TabTerminated(Cells(values));
  }

  /** A value that throws leaves the buffer as it was, so the values added
      before it are still written with the line. */
  lemma ThrowKeepsEarlierValues(w: Writer, values: seq<Option<string>>, k: nat)
    requires k < |values| && !Writable(values[k])
    requires forall i :: 0 <= i < k ==> Writable(values[i])
    ensures AddValuesToLine(w, values).error.Some?
    ensures AddValuesToLine(w, values).writer == AddValuesToLine(w, values[..k]).writer
    decreases k
  {
    if k > 0 {
      var w1 := AddValueToLine(w, values[0]).writer;
      ThrowKeepsEarlierValues(w1, values[1..], k - 1);
      assert values[1..][..k - 1] == values[..k][1..];
    }
  }
}

=== FILE: tabular_data_parser.dfy ===
/** TabularDataParser: the settings and row counters every parser shares, the
    quantities derived from them, and the factory methods. */
module TabularDataParser {

  /** Which ParseAndProcessAllLines override the object has: the base class's,
      the text-based (CSV) one, or ExcelParser's. */
  datatype ParserKind = Base | TextBased | Excel

  /** The counters start at zero and are only ever incremented by a run. */
  datatype Parser = Parser(
    kind: ParserKind,
    hasHeaderRow: bool,
    headerRowsToSkip: int,
    nonHeaderRows: nat,
    rowsContainingData: nat,
    rowsWithoutValidationErrors: nat)

  /** HeaderRows: one header row when there is a header row, however many rows
      are to be skipped otherwise. */
  function HeaderRows(p: Parser): int {
    if p.hasHeaderRow then 1 else p.headerRowsToSkip
  }

  function TotalRows(p: Parser): int {
    HeaderRows(p) + p.nonHeaderRows
  }

  function RowsWithValidationErrors(p: Parser): int {
    p.rowsContainingData - p.rowsWithoutValidationErrors
  }

  /** A parser that has not run yet. */
  predicate Fresh(p: Parser) {
    p.nonHeaderRows == 0 && p.rowsContainingData == 0 && p.rowsWithoutValidationErrors == 0
  }

  /** CreateForCsvFile (both the path and the stream overload): a CSV parser
      with the given header setting and nothing to skip. */
  function CreateForCsvFile(hasHeaderRow: bool): (p: Parser)
    ensures p.kind == TextBased && p.hasHeaderRow == hasHeaderRow && p.headerRowsToSkip == 0
    ensures Fresh(p)
    ensures HeaderRows(p) == (if hasHeaderRow then 1 else 0) == TotalRows(p)
    ensures RowsWithValidationErrors(p) == 0
  {
    Parser(TextBased, hasHeaderRow, 0, 0, 0, 0)
  }

  /** CreateForExcelFile (both overloads): an Excel parser that always has a
      header row. */
  function CreateForExcelFile(): (p: Parser)
    ensures p.kind == Excel && p.hasHeaderRow && Fresh(p)
    ensures HeaderRows(p) == 1 == TotalRows(p)
    ensures RowsWithValidationErrors(p) == 0
  {
    Parser(Excel, true, 0, 0, 0, 0)
  }
}

=== FILE: text.dfy ===
/** Character classes and string primitives shared by the model.

    .NET's culture-aware letter tests and case mappings are modelled with
    their ASCII behaviour. White space is char.IsWhiteSpace, the Unicode
    White_Space characters that String.Trim() and String.IsNullOrWhiteSpace
    recognise. */
module Text {

  /** Environment.NewLine on Windows, the platform the library targets. */
  const NewLine: string := "\r\n"

  predicate IsWhiteSpace(c: char) {
    c == ' ' || c == '\t' || c == '\n' || c == '\U{000B}' || c == '\U{000C}' || c == '\r'
    || c == '\U{0085}' || c == '\U{00A0}' || c == '\U{1680}' || '\U{2000}' <= c <= '\U{200A}'
    || c == '\U{2028}' || c == '\U{2029}' || c == '\U{202F}' || c == '\U{205F}' || c == '\U{3000}'
  }

  predicate IsUpper(c: char) { 'A' <= c <= 'Z' }

  predicate IsLower(c: char) { 'a' <= c <= 'z' }

  predicate IsDigit(c: char) { '0' <= c <= '9' }

  predicate IsLetterOrDigit(c: char) { IsUpper(c) || IsLower(c) || IsDigit(c) }

  function ToLowerChar(c: char): char {
    if IsUpper(c) then (c as int + 32) as char else c
  }

  function ToUpperChar(c: char): char {
    if IsLower(c) then (c as int - 32) as char else c
  }

  function ToLower(s: string): (r: string)
    ensures |r| == |s|
    ensures forall i :: 0 <= i < |s| ==> r[i] == ToLowerChar(s[i])
  {
    seq(|s|, i requires 0 <= i < |s| => ToLowerChar(s[i]))
  }

  function ToUpper(s: string): (r: string)
    ensures |r| == |s|
    ensures forall i :: 0 <= i < |s| ==> r[i] == ToUpperChar(s[i])
  {
    seq(|s|, i requires 0 <= i < |s| => ToUpperChar(s[i]))
  }

  /** Lower-casing forgets the original case entirely. */
  lemma ToLowerOfToUpper(s: string)
    ensures ToLower(ToUpper(s)) == ToLower(s)
  {
  }

  lemma ToUpperOfToLower(s: string)
    ensures ToUpper(ToLower(s)) == ToUpper(s)
  {
  }

  /** String.IsNullOrWhiteSpace on a non-null string. */
  predicate IsBlank(s: string) {
    forall i :: 0 <= i < |s| ==> IsWhiteSpace(s[i])
  }

  predicate IsTrimmed(s: string) {
    |s| == 0 || (!IsWhiteSpace(s[0]) && !IsWhiteSpace(s[|s| - 1]))
  }

  function TrimStart(s: string): (r: string)
    ensures |r| <= |s| && r == s[|s| - |r|..]
    ensures |r| == 0 || !IsWhiteSpace(r[0])
    ensures forall i :: 0 <= i < |s| - |r| ==> IsWhiteSpace(s[i])
  {
    if |s| > 0 && IsWhiteSpace(s[0]) then TrimStart(s[1..]) else s
  }

  function TrimEnd(s: string): (r: string)
    ensures |r| <= |s| && r == s[..|r|]
    ensures |r| == 0 || !IsWhiteSpace(r[|r| - 1])
    ensures forall i :: |r| <= i < |s| ==> IsWhiteSpace(s[i])
  {
    if |s| > 0 && IsWhiteSpace(s[|s| - 1]) then TrimEnd(s[..|s| - 1]) else s
  }

  /** String.Trim(): removes leading and trailing white space. */
  function Trim(s: string): (r: string)
    ensures IsTrimmed(r)
    ensures |r| <= |s|
  {
    TrimEnd(TrimStart(s))
  }

  /** The trimmed text is the slice s[a..b] of the input, with only white
      space before a and after b. */
  lemma TrimIsSlice(s: string) returns (a: int, b: int)
    ensures 0 <= a <= b <= |s| && Trim(s) == s[a..b]
    ensures IsBlank(s[..a]) && IsBlank(s[b..])
  {
    var t := TrimStart(s);
    var e := TrimEnd(t);
    a := |s| - |t|;
    b := a + |e|;
    TrimStartDropsBlankPrefix(s);
    TrimEndDropsBlankSuffix(t);
    assert t == s[a..];
    assert s[b..] == t[|e|..];
    assert e == t[..|e|];
    assert e == s[a..b];
  }

  lemma TrimStartDropsBlankPrefix(s: string)
    ensures IsBlank(s[..|s| - |TrimStart(s)|])
  {
    var n := |s| - |TrimStart(s)|;
    assert forall i :: 0 <= i < n ==> s[..n][i] == s[i];
  }

  lemma TrimEndDropsBlankSuffix(s: string)
    ensures IsBlank(s[|TrimEnd(s)|..])
  {
    var n := |TrimEnd(s)|;
    assert forall i :: 0 <= i < |s| - n ==> s[n..][i] == s[n + i];
  }

  lemma TrimOfTrimmed(s: string)
    requires IsTrimmed(s)
    ensures Trim(s) == s
  {
  }

  lemma TrimEmptyIffBlank(s: string)
    ensures Trim(s) == "" <==> IsBlank(s)
  {
    var t := TrimStart(s);
    if !IsBlank(s) {
      var i :| 0 <= i < |s| && !IsWhiteSpace(s[i]);
      assert i >= |s| - |t|;
      assert t[i - (|s| - |t|)] == s[i];
      assert |t| > 0 && !IsWhiteSpace(t[0]);
      assert |TrimEnd(t)| > 0;
    }
  }

  /** String.TrimEnd(c): removes every trailing occurrence of c. */
  function TrimEndChar(s: string, c: char): (r: string)
    ensures |r| <= |s| && r == s[..|r|]
    ensures |r| == 0 || r[|r| - 1] != c
    ensures forall i :: |r| <= i < |s| ==> s[i] == c
  {
    if |s| > 0 && s[|s| - 1] == c then TrimEndChar(s[..|s| - 1], c) else s
  }

  function TrimStartChar(s: string, c: char): (r: string)
    ensures |r| <= |s| && r == s[|s| - |r|..]
    ensures |r| == 0 || r[0] != c
    ensures forall i :: 0 <= i < |s| - |r| ==> s[i] == c
  {
    if |s| > 0 && s[0] == c then TrimStartChar(s[1..], c) else s
  }

  /** String.Trim(c): removes every leading and trailing occurrence of c. */
  function TrimChar(s: string, c: char): string {
    TrimEndChar(TrimStartChar(s, c), c)
  }

  /** Strings joined with a delimiter between neighbours (String.Join). */
  function Join(delimiter: string, xs: seq<string>): string {
    if |xs| == 0 then ""
    else if |xs| == 1 then xs[0]
    else Join(delimiter, xs[..|xs| - 1]) + delimiter + xs[|xs| - 1]
  }

  function Concat(xs: seq<string>): string {
    if |xs| == 0 then "" else Concat(xs[..|xs| - 1]) + xs[|xs| - 1]
  }

  /** sub occurs in s at position p (ordinal comparison). */
  predicate OccursAt(s: string, sub: string, p: int) {
    0 <= p && p + |sub| <= |s| && s[p..p + |sub|] == sub
  }

  predicate Contains(s: string, sub: string) {
    exists p | 0 <= p <= |s| :: OccursAt(s, sub, p)
  }

  /** String.IndexOf(char): the first position of c, or -1. */
  function IndexOfChar(s: string, c: char): (r: int)
    ensures -1 <= r < |s|
    ensures r == -1 <==> c !in s
    ensures r >= 0 ==> s[r] == c && c !in s[..r]
  {
    if |s| == 0 then -1
    else if s[0] == c then 0
    else
      var k := IndexOfChar(s[1..], c);
      assert s == [s[0]] + s[1..];
      if k == -1 then -1 else k + 1
  }

  /** The first position holding c is what IndexOf returns. */
  lemma IndexOfCharIsFirst(s: string, c: char, k: int)
    requires 0 <= k < |s| && s[k] == c && c !in s[..k]
    ensures IndexOfChar(s, c) == k
  {
    var first := IndexOfChar(s, c);
    assert s[k] in s;
    assert forall j :: 0 <= j < k ==> s[..k][j] == s[j];
    assert forall j :: 0 <= j < first ==> s[..first][j] == s[j];
  }

  /** String.LastIndexOf(char): the last position of c, or -1. */
  function LastIndexOfChar(s: string, c: char): (r: int)
    ensures -1 <= r < |s|
    ensures r == -1 <==> c !in s
    ensures r >= 0 ==> s[r] == c && c !in s[r + 1..]
  {
    if |s| == 0 then -1
    else if s[|s| - 1] == c then |s| - 1
    else
      assert s == s[..|s| - 1] + [s[|s| - 1]];
      LastIndexOfChar(s[..|s| - 1], c)
  }

  /** The last position at or below p where sub occurs, or -1. */
  function LastOccurrenceUpTo(s: string, sub: string, p: int): (r: int)
    requires -1 <= p <= |s|
    ensures -1 <= r <= p
    ensures r >= 0 ==> OccursAt(s, sub, r)
    ensures forall q :: r < q <= p ==> !OccursAt(s, sub, q)
    decreases p + 1
  {
    if p < 0 then -1
    else if OccursAt(s, sub, p) then p
    else LastOccurrenceUpTo(s, sub, p - 1)
  }

  /** String.LastIndexOf(string), compared ordinally: the last position where
      sub occurs, or -1; an empty sub is found at the very end, as in .NET 5. */
  function LastIndexOf(s: string, sub: string): (r: int)
    ensures -1 <= r <= |s|
    ensures r == -1 <==> !Contains(s, sub)
    ensures r >= 0 ==> OccursAt(s, sub, r)
    ensures forall q :: r < q <= |s| ==> !OccursAt(s, sub, q)
  {
    LastOccurrenceUpTo(s, sub, |s|)
  }

  /** String.Replace(c.ToString(), ""): every occurrence of c removed. */
  function RemoveChar(s: string, c: char): (r: string)
    ensures c !in r
    ensures forall x :: x != c ==> (x in r <==> x in s)
  {
    if |s| == 0 then ""
    else (if s[0] == c then "" else [s[0]]) + RemoveChar(s[1..], c)
  }

  /** String.Split(d): the pieces between occurrences of d, always at least one. */
  function Split(s: string, d: char): (r: seq<string>)
    ensures |r| > 0
  {
    var k := IndexOfChar(s, d);
    if k == -1 then [s] else [s[..k]] + Split(s[k + 1..], d)
  }

  function DigitChar(d: int): char
    requires 0 <= d <= 9
  {
    ('0' as int + d) as char
  }

  function NatToString(n: nat): (r: string)
    ensures |r| > 0
    ensures forall i :: 0 <= i < |r| ==> IsDigit(r[i])
  {
    if n < 10 then [DigitChar(n)] else NatToString(n / 10) + [DigitChar(n % 10)]
  }

  /** Int32.ToString() in the invariant culture. */
  function IntToString(n: int): string {
    if n < 0 then "-" + NatToString(-n) else NatToString(n)
  }
}

=== FILE: text_based_parser.dfy ===
/** The driver of TextBasedTabularDataParser: reads a header row and skipped
    rows, then decodes every further line, hands each line that contains data
    to the caller's handler with a fresh validator, and counts and records
    what happened.

    The file is the sequence of its lines; reading past the end yields null.
    The handler is a function from the line it is given to the errors its
    validator recorded. Parse, which every text-based parser overrides, is a
    parameter too; CsvDecoder is the one of the CSV parser CreateForCsvFile
    builds. */
module TextBasedTabularDataParser {
  import opened Wrappers
  import opened Text
  import CsvParsedLine
  import CsvLineParser
  import opened TabularDataParser

  /** An error a validator recorded. */
  datatype Error = Error(message: string, unusableValueReturned: bool)

  /** The record added to the caller's collection for each such error. */
  datatype ValidationError = ValidationError(errorSource: string, isFatal: bool, errorMessage: string)

  type Row = CsvParsedLine.ParsedLine

  /** What the handler does with a line: the errors its validator ends with. */
  type LineHandler = Row -> seq<Error>

  /** NotImplementedException from the base class's ParseAndProcessAllLines. */
  datatype ParserError = NotImplemented

  /** The parser after a run, the caller's error collection (None: null), and
      the lines handed to the handler, in call order. */
  datatype Run = Run(parser: Parser, validationErrors: Option<seq<ValidationError>>, handled: seq<Row>)

  /** A parser's Parse: a line, possibly null, decoded into a fresh row. */
  type LineDecoder = Option<string> -> Row

  /** The CSV parser's Parse: a CsvLineParser made without a header line. */
  function CsvDecoder(): (decode: LineDecoder)
    ensures forall line :: decode(line).fields == CsvLineParser.Parse(line)
  {
    line => CsvLineParser.ParseLine(CsvLineParser.LineParser(map[]), line)
  }

  /** ReadLine: the next line, or null once the file is exhausted. */
  function ReadLine(lines: seq<string>, i: nat): Option<string> {
    if i < |lines| then Some(lines[i]) else None
  }

  /** buildColumnHeadersToIndexesDictionary applied to the first line; null
      when the file has no header row. */
  function HeaderMapOf(p: Parser, decode: LineDecoder, lines: seq<string>): (headers: Option<map<string, int>>)
    ensures headers.Some? <==> p.hasHeaderRow
  {
    if p.hasHeaderRow then Some(CsvLineParser.HeaderMap(decode(ReadLine(lines, 0)).fields)) else None
  }

  /** The lines read before the first data line: the header row, if any, then
      headerRowsToSkip more (none when it is negative), at most the whole file. */
  function LinesBeforeData(p: Parser, lines: seq<string>): (n: nat)
    ensures n <= |lines|
  {
    var wanted := (if p.hasHeaderRow then 1 else 0) + (if p.headerRowsToSkip > 0 then p.headerRowsToSkip else 0);
    if wanted < |lines| then wanted else |lines|
  }

  /** One record per error, in order, naming the line. */
  function Records(lineNumber: int, errors: seq<Error>): (r: seq<ValidationError>)
    ensures |r| == |errors|
    ensures forall i :: 0 <= i < |errors| ==> r[i] == ValidationError("Line " + IntToString(lineNumber),
      errors[i].unusableValueReturned, errors[i].message)
  {
    seq(|errors|, i requires 0 <= i < |errors| =>
      ValidationError("Line " + IntToString(lineNumber), errors[i].unusableValueReturned, errors[i].message))
  }

  /** The line as the handler sees it: numbered and given the header map. */
  function Prepared(decoded: Row, lineNumber: int, headers: Option<map<string, int>>): Row {
    CsvParsedLine.SetColumnHeaders(CsvParsedLine.SetLineNumber(decoded, lineNumber), headers)
  }

  /** The body of the loop, for one decoded line. */
  function ProcessLine(run: Run, headers: Option<map<string, int>>, handler: LineHandler, decoded: Row, lineNumber: int): Run {
    var p := run.parser.(nonHeaderRows := run.parser.nonHeaderRows + 1);
    if !decoded.containsData then run.(parser := p)
    else
      var p := p.(rowsContainingData := p.rowsContainingData + 1);
      var row := Prepared(decoded, lineNumber, headers);
      var errors := handler(row);
      var handled := run.handled + [row];
      if |errors| > 0 then
        Run(p, if run.validationErrors.None? then None else Some(run.validationErrors.value + Records(lineNumber, errors)), handled)
      else
        Run(p.(rowsWithoutValidationErrors := p.rowsWithoutValidationErrors + 1), run.validationErrors, handled)
  }

  /** The loop over the data lines, the first of which has number first. */
  function ProcessLines(run: Run, decode: LineDecoder, headers: Option<map<string, int>>, handler: LineHandler,
                        lines: seq<string>, first: int): Run
    decreases |lines|
  {
    if |lines| == 0 then run
    else ProcessLine(ProcessLines(run, decode, headers, handler, lines[..|lines| - 1], first), headers, handler,
                     decode(Some(lines[|lines| - 1])), first + |lines| - 1)
  }

  /** The loop after k + 1 lines is one more step after k lines. */
  lemma ProcessLinesStep(run: Run, decode: LineDecoder, headers: Option<map<string, int>>, handler: LineHandler,
                         lines: seq<string>, first: int, k: nat)
    requires k < |lines|
    ensures ProcessLines(run, decode, headers, handler, lines[..k + 1], first)
         == ProcessLine(ProcessLines(run, decode, headers, handler, lines[..k], first), headers, handler,
                        decode(Some(lines[k])), first + k)
  {
    assert lines[..k + 1][..k] == lines[..k];
  }

  /** The data lines of the file: everything after the header and skipped rows. */
  function DataLines(p: Parser, lines: seq<string>): seq<string> {
    lines[LinesBeforeData(p, lines)..]
  }

  /** The whole run of the text-based override of ParseAndProcessAllLines. */
  function RunAll(p: Parser, decode: LineDecoder, handler: LineHandler, lines: seq<string>,
                  validationErrors: Option<seq<ValidationError>>): Run {
    ProcessLines(Run(p, validationErrors, []), decode, HeaderMapOf(p, decode, lines), handler, DataLines(p, lines), HeaderRows(p) + 1)
  }

  /** The text-based ParseAndProcessAllLines, statement by statement: read the
      header row, skip rows, then process lines until ReadLine yields null. */
  method ParseAndProcessAllLines(p: Parser, decode: LineDecoder, handler: LineHandler, lines: seq<string>,
                                 validationErrors: Option<seq<ValidationError>>) returns (r: Run)
    ensures r == RunAll(p, decode, handler, lines, validationErrors)
  {
    var next, columnHeadersToIndexes := ReadHeaderAndSkip(p, decode, lines);
    r := ProcessRemainingLines(p, decode, handler, lines, validationErrors, columnHeadersToIndexes, next);
  }

  /** The header row, read when there is one, and the rows skipped after it:
      the result is the index of the next line ReadLine returns. */
  method ReadHeaderAndSkip(p: Parser, decode: LineDecoder, lines: seq<string>)
    returns (next: nat, columnHeadersToIndexes: Option<map<string, int>>)
    ensures next == (if p.hasHeaderRow then 1 else 0) + (if p.headerRowsToSkip > 0 then p.headerRowsToSkip else 0)
    ensures columnHeadersToIndexes == HeaderMapOf(p, decode, lines)
  {
    next := 0;
    columnHeadersToIndexes := None;
    if p.hasHeaderRow {
      columnHeadersToIndexes := Some(CsvLineParser.HeaderMap(decode(ReadLine(lines, next)).fields));
      next := next + 1;
    }
    var i := 0;
    while i < p.headerRowsToSkip
      invariant 0 <= i && (i <= p.headerRowsToSkip || i == 0)
      invariant next == (if p.hasHeaderRow then 1 else 0) + i
    {
      next := next + 1;
      i := i + 1;
    }
  }

  /** The processing loop, from line next until ReadLine yields null. */
  method ProcessRemainingLines(p: Parser, decode: LineDecoder, handler: LineHandler, lines: seq<string>,
                               validationErrors: Option<seq<ValidationError>>,
                               columnHeadersToIndexes: Option<map<string, int>>, next0: nat) returns (r: Run)
    requires next0 == (if p.hasHeaderRow then 1 else 0) + (if p.headerRowsToSkip > 0 then p.headerRowsToSkip else 0)
    ensures r == ProcessLines(Run(p, validationErrors, []), decode, columnHeadersToIndexes, handler, DataLines(p, lines), HeaderRows(p) + 1)
  {
    var next := next0;
    var body := DataLines(p, lines);
    var run := Run(p, validationErrors, []);
    ghost var run0, first := run, HeaderRows(p) + 1;
    var lineNumber := HeaderRows(p) + 1;
    var line := ReadLine(lines, next);
    ghost var k := 0;
    ReadLineOfData(p, lines, next0, k);
    while line.Some?
      invariant 0 <= k <= |body| && next == next0 + k
      invariant line == (if k < |body| then Some(body[k]) else None)
      invariant lineNumber == first + k
      invariant run == ProcessLines(run0, decode, columnHeadersToIndexes, handler, body[..k], first)
      decreases |body| - k
    {
      ProcessLinesStep(run0, decode, columnHeadersToIndexes, handler, body, first, k);
      run := ProcessLine(run, columnHeadersToIndexes, handler, decode(line), lineNumber);
      next := next + 1;
      k := k + 1;
      lineNumber := lineNumber + 1;
      line := ReadLine(lines, next);
      ReadLineOfData(p, lines, next0, k);
    }
    assert body[..k] == body;
    r := run;
  }

  /** Reading on from the first data line reads the data lines in order, then
      the end of the file. */
  lemma ReadLineOfData(p: Parser, lines: seq<string>, next0: nat, k: nat)
    requires next0 == (if p.hasHeaderRow then 1 else 0) + (if p.headerRowsToSkip > 0 then p.headerRowsToSkip else 0)
    ensures var body := DataLines(p, lines);
      ReadLine(lines, next0 + k) == (if k < |body| then Some(body[k]) else None)
  {
  }

  // ----- What a run does, stated without the loop -----

  /** The rows handed to the handler: every decoded line that contains data,
      numbered by its position and given the header map, in file order. */
  function DataRows(decode: LineDecoder, headers: Option<map<string, int>>, lines: seq<string>, first: int): (rows: seq<Row>)
    ensures |rows| <= |lines|
    decreases |lines|
  {
    if |lines| == 0 then []
    else
      var d := decode(Some(lines[|lines| - 1]));
      DataRows(decode, headers, lines[..|lines| - 1], first)
        + (if d.containsData then [Prepared(d, first + |lines| - 1, headers)] else [])
  }

  /** How many rows the handler found no error in. */
  function CleanCount(handler: LineHandler, rows: seq<Row>): (n: nat)
    ensures n <= |rows|
  {
    if |rows| == 0 then 0
    else CleanCount(handler, rows[..|rows| - 1]) + (if |handler(rows[|rows| - 1])| == 0 then 1 else 0)
  }

  /** The records of every error of every row, row by row. */
  function ErrorRecords(handler: LineHandler, rows: seq<Row>): seq<ValidationError> {
    if |rows| == 0 then []
    else
      var row := rows[|rows| - 1];
      ErrorRecords(handler, rows[..|rows| - 1]) + Records(row.lineNumber.GetOr(0), handler(row))
  }

  /** The loop adds one to NonHeaderRows per line and counts the data rows
      and the error-free ones among them. */
  lemma {:induction false} ProcessLinesCounters(run: Run, decode: LineDecoder, headers: Option<map<string, int>>,
                                                handler: LineHandler, lines: seq<string>, first: int)
    ensures ProcessLines(run, decode, headers, handler, lines, first).parser
         == run.parser.(nonHeaderRows := run.parser.nonHeaderRows + |lines|,
                        rowsContainingData := run.parser.rowsContainingData + |DataRows(decode, headers, lines, first)|,
                        rowsWithoutValidationErrors := run.parser.rowsWithoutValidationErrors
                          + CleanCount(handler, DataRows(decode, headers, lines, first)))
    decreases |lines|
  {
    if |lines| > 0 {
      var init := lines[..|lines| - 1];
      ProcessLinesCounters(run, decode, headers, handler, init, first);
      var before := DataRows(decode, headers, init, first);
      var rows := DataRows(decode, headers, lines, first);
      var d := decode(Some(lines[|lines| - 1]));
      if d.containsData {
        assert rows[..|rows| - 1] == before;
        assert rows[|rows| - 1] == Prepared(d, first + |lines| - 1, headers);
      } else {
        assert rows == before;
      }
    }
  }

  /** The loop hands exactly the data rows to the handler, in file order. */
  lemma {:induction false} ProcessLinesHanded(run: Run, decode: LineDecoder, headers: Option<map<string, int>>,
                                              handler: LineHandler, lines: seq<string>, first: int)
    ensures ProcessLines(run, decode, headers, handler, lines, first).handled
         == run.handled + DataRows(decode, headers, lines, first)
    decreases |lines|
  {
    if |lines| > 0 {
      var init := lines[..|lines| - 1];
      ProcessLinesHanded(run, decode, headers, handler, init, first);
      var before := DataRows(decode, headers, init, first);
      var rows := DataRows(decode, headers, lines, first);
      var d := decode(Some(lines[|lines| - 1]));
      if d.containsData {
        var row := Prepared(d, first + |lines| - 1, headers);
        assert rows == before + [row];
        assert run.handled + before + [row] == run.handled + rows;
      } else {
        assert rows == before;
      }
    } else {
      assert run.handled + [] == run.handled;
    }
  }

  /** A null collection stays null; a non-null one receives the records of
      every error of every data row, in order. */
  lemma {:induction false} ProcessLinesRecords(run: Run, decode: LineDecoder, headers: Option<map<string, int>>,
                                               handler: LineHandler, lines: seq<string>, first: int)
    ensures run.validationErrors.None? ==> ProcessLines(run, decode, headers, handler, lines, first).validationErrors.None?
    ensures run.validationErrors.Some? ==>
      (ProcessLines(run, decode, headers, handler, lines, first).validationErrors
         == Some(run.validationErrors.value + ErrorRecords(handler, DataRows(decode, headers, lines, first))))
    decreases |lines|
  {
    if |lines| > 0 {
      var init := lines[..|lines| - 1];
      ProcessLinesRecords(run, decode, headers, handler, init, first);
      var prev := ProcessLines(run, decode, headers, handler, init, first);
      var d := decode(Some(lines[|lines| - 1]));
      var n := first + |lines| - 1;
      if run.validationErrors.Some? {
        RecordsStep(prev, headers, handler, d, n, run.validationErrors.value, DataRows(decode, headers, init, first));
      } else {
        ProcessLineErrors(prev, headers, handler, d, n);
      }
    } else if run.validationErrors.Some? {
      assert run.validationErrors.value + [] == run.validationErrors.value;
    }
  }

  /** One line adds the records of a data row's errors to a collection that
      already holds the records of the rows before it. */
  lemma RecordsStep(prev: Run, headers: Option<map<string, int>>, handler: LineHandler, d: Row, n: int,
                    v: seq<ValidationError>, before: seq<Row>)
    requires prev.validationErrors == Some(v + ErrorRecords(handler, before))
    ensures ProcessLine(prev, headers, handler, d, n).validationErrors
         == Some(v + ErrorRecords(handler, before + (if d.containsData then [Prepared(d, n, headers)] else [])))
  {
    ProcessLineErrors(prev, headers, handler, d, n);
    if d.containsData {
      var row := Prepared(d, n, headers);
      ErrorRecordsSnoc(handler, before, row);
      assert v + (ErrorRecords(handler, before) + Records(n, handler(row)))
          == v + ErrorRecords(handler, before) + Records(n, handler(row));
    } else {
      assert before + [] == before;
    }
  }

  /** One line keeps a null collection null and adds the records of a data
      row's errors to a non-null one. */
  lemma ProcessLineErrors(run: Run, headers: Option<map<string, int>>, handler: LineHandler, decoded: Row, lineNumber: int)
    ensures run.validationErrors.None? ==> ProcessLine(run, headers, handler, decoded, lineNumber).validationErrors.None?
    ensures run.validationErrors.Some? ==>
      ProcessLine(run, headers, handler, decoded, lineNumber).validationErrors
        == Some(run.validationErrors.value
                + (if decoded.containsData then Records(lineNumber, handler(Prepared(decoded, lineNumber, headers))) else []))
  {
    if run.validationErrors.Some? {
      assert run.validationErrors.value + [] == run.validationErrors.value;
    }
  }

  /** One more row adds that row's error records at the end. */
  lemma ErrorRecordsSnoc(handler: LineHandler, rows: seq<Row>, row: Row)
    ensures ErrorRecords(handler, rows + [row]) == ErrorRecords(handler, rows) + Records(row.lineNumber.GetOr(0), handler(row))
  {
    assert (rows + [row])[..|rows|] == rows;
  }

  /** Every handed-out row contains data, carries the header map, and has a
      line number in [first, first + |lines|); the numbers strictly increase. */
  lemma {:induction false} DataRowsNumbered(decode: LineDecoder, headers: Option<map<string, int>>, lines: seq<string>, first: int)
    ensures forall i :: 0 <= i < |DataRows(decode, headers, lines, first)| ==>
      var row := DataRows(decode, headers, lines, first)[i];
      row.containsData && row.lineNumber.Some? && first <= row.lineNumber.value < first + |lines|
      && row.columnHeadersToIndexes == headers.GetOr(map[])
    ensures forall i, j :: 0 <= i < j < |DataRows(decode, headers, lines, first)| ==>
      DataRows(decode, headers, lines, first)[i].lineNumber.GetOr(0) < DataRows(decode, headers, lines, first)[j].lineNumber.GetOr(0)
    ensures RowNumbers(DataRows(decode, headers, lines, first)) == ShiftedBy(DataLineIndexes(decode, lines), first)
    decreases |lines|
  {
    DataRowsNumbers(decode, headers, lines, first);
    if |lines| > 0 {
      var init := lines[..|lines| - 1];
      DataRowsNumbered(decode, headers, init, first);
      var before := DataRows(decode, headers, init, first);
      var rows := DataRows(decode, headers, lines, first);
      var d := decode(Some(lines[|lines| - 1]));
      if d.containsData {
        var row := Prepared(d, first + |lines| - 1, headers);
        assert rows == before + [row];
        assert forall i :: 0 <= i < |before| ==> rows[i] == before[i];
        assert rows[|before|] == row;
        assert row.lineNumber == Some(first + |lines| - 1);
      } else {
        assert rows == before;
      }
    }
  }

  /** The positions of the lines that contain data. */
  function DataLineIndexes(decode: LineDecoder, lines: seq<string>): set<int> {
    set i | 0 <= i < |lines| && decode(Some(lines[i])).containsData
  }

  lemma DataLineIndexesSnoc(decode: LineDecoder, lines: seq<string>)
    requires |lines| > 0
    ensures |DataLineIndexes(decode, lines)|
         == |DataLineIndexes(decode, lines[..|lines| - 1])| + (if decode(Some(lines[|lines| - 1])).containsData then 1 else 0)
  {
    var n := |lines| - 1;
    var now := DataLineIndexes(decode, lines);
    DataLineIndexesInit(decode, lines);
    if decode(Some(lines[n])).containsData {
      assert now == (now - {n}) + {n};
    } else {
      assert now - {n} == now;
    }
  }

  /** Dropping the last line drops only its position. */
  lemma DataLineIndexesInit(decode: LineDecoder, lines: seq<string>)
    requires |lines| > 0
    ensures DataLineIndexes(decode, lines[..|lines| - 1]) == DataLineIndexes(decode, lines) - {|lines| - 1}
  {
    var n := |lines| - 1;
    assert forall i :: 0 <= i < n ==> lines[..n][i] == lines[i];
  }

  /** The line numbers the rows carry. */
  function RowNumbers(rows: seq<Row>): set<int> {
    set i | 0 <= i < |rows| :: rows[i].lineNumber.GetOr(0)
  }

  /** Every position moved up by first. */
  function ShiftedBy(positions: set<int>, first: int): set<int> {
    set k | k in positions :: first + k
  }

  /** The handed rows carry exactly the numbers first + k of the data lines k. */
  lemma {:induction false} DataRowsNumbers(decode: LineDecoder, headers: Option<map<string, int>>, lines: seq<string>, first: int)
    ensures RowNumbers(DataRows(decode, headers, lines, first)) == ShiftedBy(DataLineIndexes(decode, lines), first)
    decreases |lines|
  {
    if |lines| > 0 {
      var n := |lines| - 1;
      var init := lines[..n];
      DataRowsNumbers(decode, headers, init, first);
      DataLineIndexesInit(decode, lines);
      var before := DataRows(decode, headers, init, first);
      var d := decode(Some(lines[n]));
      if d.containsData {
        var row := Prepared(d, first + n, headers);
        RowNumbersSnoc(before, row);
        var now := DataLineIndexes(decode, lines);
        assert now == (now - {n}) + {n};
        ShiftedByAdd(now - {n}, n, first);
      } else {
        assert DataRows(decode, headers, lines, first) == before;
        assert DataLineIndexes(decode, lines) - {n} == DataLineIndexes(decode, lines);
      }
    }
  }

  lemma RowNumbersSnoc(rows: seq<Row>, row: Row)
    ensures RowNumbers(rows + [row]) == RowNumbers(rows) + {row.lineNumber.GetOr(0)}
  {
    var all := rows + [row];
    assert forall i :: 0 <= i < |rows| ==> all[i] == rows[i];
    assert all[|rows|] == row;
  }

  lemma ShiftedByAdd(positions: set<int>, n: int, first: int)
    ensures ShiftedBy(positions + {n}, first) == ShiftedBy(positions, first) + {first + n}
  {
  }

  /** A line is handed out exactly when it contains data: the handler sees as
      many rows as there are data-containing lines. */
  lemma {:induction false} DataRowsCount(decode: LineDecoder, headers: Option<map<string, int>>, lines: seq<string>, first: int)
    ensures |DataRows(decode, headers, lines, first)| == |DataLineIndexes(decode, lines)|
    decreases |lines|
  {
    if |lines| > 0 {
      DataRowsCount(decode, headers, lines[..|lines| - 1], first);
      DataLineIndexesSnoc(decode, lines);
    }
  }

  /** The counters after a run from a fresh parser: every data line counted,
      and rowsWithoutValidationErrors <= rowsContainingData <= nonHeaderRows. */
  lemma RunCounters(p: Parser, decode: LineDecoder, handler: LineHandler, lines: seq<string>,
                    validationErrors: Option<seq<ValidationError>>)
    requires Fresh(p)
    ensures var q := RunAll(p, decode, handler, lines, validationErrors).parser;
      && q.nonHeaderRows == |DataLines(p, lines)|
      && q.rowsWithoutValidationErrors <= q.rowsContainingData <= q.nonHeaderRows
      && q.kind == p.kind && q.hasHeaderRow == p.hasHeaderRow && q.headerRowsToSkip == p.headerRowsToSkip
      && RowsWithValidationErrors(q) == |DataRows(decode, HeaderMapOf(p, decode, lines), DataLines(p, lines), HeaderRows(p) + 1)|
                                        - CleanCount(handler, DataRows(decode, HeaderMapOf(p, decode, lines), DataLines(p, lines), HeaderRows(p) + 1))
  {
    ProcessLinesCounters(Run(p, validationErrors, []), decode, HeaderMapOf(p, decode, lines), handler, DataLines(p, lines), HeaderRows(p) + 1);
  }

  /** Running over more lines never lowers a counter. */
  lemma {:induction false} CountersOnlyIncrease(run: Run, decode: LineDecoder, headers: Option<map<string, int>>,
                                                handler: LineHandler, lines: seq<string>, first: int, k: nat)
    requires k <= |lines|
    ensures var a := ProcessLines(run, decode, headers, handler, lines[..k], first).parser;
      var b := ProcessLines(run, decode, headers, handler, lines, first).parser;
      && a.nonHeaderRows <= b.nonHeaderRows
      && a.rowsContainingData <= b.rowsContainingData
      && a.rowsWithoutValidationErrors <= b.rowsWithoutValidationErrors
    decreases |lines| - k
  {
    if k < |lines| {
      CountersOnlyIncrease(run, decode, headers, handler, lines, first, k + 1);
      ProcessLinesStep(run, decode, headers, handler, lines, first, k);
    } else {
      assert lines[..k] == lines;
    }
  }

  /** TotalRows counts every line of the file once the header row, if any,
      and the rows to skip were all present. */
  lemma TotalRowsCountsTheFile(p: Parser, decode: LineDecoder, handler: LineHandler, lines: seq<string>,
                               validationErrors: Option<seq<ValidationError>>)
    requires Fresh(p) && p.headerRowsToSkip >= 0
    requires (if p.hasHeaderRow then 1 + p.headerRowsToSkip else p.headerRowsToSkip) <= |lines|
    requires p.hasHeaderRow ==> p.headerRowsToSkip == 0
    ensures TotalRows(RunAll(p, decode, handler, lines, validationErrors).parser) == |lines|
  {
    RunCounters(p, decode, handler, lines, validationErrors);
  }

  /** The collection passed in changes neither the counters nor the rows the
      handler sees. */
  lemma SinkDoesNotChangeCounting(p: Parser, decode: LineDecoder, handler: LineHandler, lines: seq<string>,
                                  a: Option<seq<ValidationError>>, b: Option<seq<ValidationError>>)
    ensures RunAll(p, decode, handler, lines, a).parser == RunAll(p, decode, handler, lines, b).parser
    ensures RunAll(p, decode, handler, lines, a).handled == RunAll(p, decode, handler, lines, b).handled
  {
    var headers := HeaderMapOf(p, decode, lines);
    ProcessLinesCounters(Run(p, a, []), decode, headers, handler, DataLines(p, lines), HeaderRows(p) + 1);
    ProcessLinesCounters(Run(p, b, []), decode, headers, handler, DataLines(p, lines), HeaderRows(p) + 1);
    ProcessLinesHanded(Run(p, a, []), decode, headers, handler, DataLines(p, lines), HeaderRows(p) + 1);
    ProcessLinesHanded(Run(p, b, []), decode, headers, handler, DataLines(p, lines), HeaderRows(p) + 1);
  }

  /** A null collection receives nothing; a non-null one gets one record per
      error of every handed-out row. */
  lemma ValidationErrorsCollected(p: Parser, decode: LineDecoder, handler: LineHandler, lines: seq<string>,
                                  validationErrors: Option<seq<ValidationError>>)
    ensures var r := RunAll(p, decode, handler, lines, validationErrors);
      var rows := DataRows(decode, HeaderMapOf(p, decode, lines), DataLines(p, lines), HeaderRows(p) + 1);
      && (validationErrors.None? ==> r.validationErrors.None?)
      && (validationErrors.Some? ==> r.validationErrors == Some(validationErrors.value + ErrorRecords(handler, rows)))
      && r.handled == rows
  {
    ProcessLinesRecords(Run(p, validationErrors, []), decode, HeaderMapOf(p, decode, lines), handler, DataLines(p, lines), HeaderRows(p) + 1);
    ProcessLinesHanded(Run(p, validationErrors, []), decode, HeaderMapOf(p, decode, lines), handler, DataLines(p, lines), HeaderRows(p) + 1);
  }

  // ----- The ParseAndProcessAllLines overloads of TabularDataParser -----

  /** The two-argument overload: the base class throws, the text-based
      parser runs the loop. ExcelParser's override is not part of this model. */
  function ParseAndProcessAllLinesInto(p: Parser, decode: LineDecoder, handler: LineHandler, lines: seq<string>,
                                       validationErrors: Option<seq<ValidationError>>): (r: Result<Run, ParserError>)
    requires p.kind != Excel
    ensures p.kind == Base <==> r == Err(NotImplemented)
    ensures p.kind == TextBased ==> r.Ok? && r.value.handled == DataRows(decode, HeaderMapOf(p, decode, lines), DataLines(p, lines), HeaderRows(p) + 1)
  {
    if p.kind == Base then Err(NotImplemented)
    else
      ValidationErrorsCollected(p, decode, handler, lines, validationErrors);
      Ok(RunAll(p, decode, handler, lines, validationErrors))
  }

  /** The one-argument overload passes a null collection. */
  function ParseAndProcessAllLinesWithoutErrors(p: Parser, decode: LineDecoder, handler: LineHandler, lines: seq<string>): (r: Result<Run, ParserError>)
    requires p.kind != Excel
    ensures r.Ok? ==> r.value.validationErrors.None?
    ensures r.Ok? <==> p.kind == TextBased
  {
    ValidationErrorsCollected(p, decode, handler, lines, None);
    ParseAndProcessAllLinesInto(p, decode, handler, lines, None)
  }

  /** Leaving out the collection counts exactly as passing one. */
  lemma OverloadsCountAlike(p: Parser, decode: LineDecoder, handler: LineHandler, lines: seq<string>, sink: seq<ValidationError>)
    requires p.kind == TextBased
    ensures ParseAndProcessAllLinesWithoutErrors(p, decode, handler, lines).value.parser
         == ParseAndProcessAllLinesInto(p, decode, handler, lines, Some(sink)).value.parser
  {
    SinkDoesNotChangeCounting(p, decode, handler, lines, None, Some(sink));
  }
}

=== FILE: validation_result.dfy ===
/** ValidationResult: an error condition with a message template whose {0}
    is replaced by the subject of the validation. */
module ValidationResult {
  import opened Wrappers

  /** The ErrorCondition values the factories use. */
  datatype ErrorCondition = NoError | Invalid | Empty | TooLong | TooLarge

  datatype ValidationResult = ValidationResult(errorCondition: ErrorCondition, errorMessage: string)

  datatype FormatError = FormatException

  /** The format item for the subject. */
  const Placeholder: string := "{0}"

  predicate NoBraces(s: string) {
    '{' !in s && '}' !in s
  }

  function Prepend(prefix: string, r: Result<string, FormatError>): (q: Result<string, FormatError>)
    ensures q.Ok? <==> r.Ok?
    ensures q.Ok? ==> q.value == prefix + r.value
  {
    if r.Ok? then Ok(prefix + r.value) else r
  }

  /** string.Format with one argument: {0} stands for the argument, {{ and }}
      for single braces, and any other brace is a format error. */
  function Format(template: string, arg: string): (r: Result<string, FormatError>)
    decreases |template|
  {
    if |template| == 0 then Ok("")
    else if template[0] == '{' then
      if |template| >= 2 && template[1] == '{' then Prepend("{", Format(template[2..], arg))
      else if |template| >= 3 && template[..3] == "{0}" then Prepend(arg, Format(template[3..], arg))
      else Err(FormatException)
    else if template[0] == '}' then
      if |template| >= 2 && template[1] == '}' then Prepend("}", Format(template[2..], arg))
      else Err(FormatException)
    else Prepend([template[0]], Format(template[1..], arg))
  }

  /** Text without braces formats to itself. */
  lemma {:induction false} FormatPlain(s: string, arg: string)
    requires NoBraces(s)
    ensures Format(s, arg) == Ok(s)
    decreases |s|
  {
    if |s| > 0 {
      assert NoBraces(s[1..]) by {
        assert forall c :: c in s[1..] ==> c in s;
      }
      FormatPlain(s[1..], arg);
      assert [s[0]] + s[1..] == s;
    }
  }

  /** Text around braces has no braces. */
  lemma NoBracesAppend(a: string, b: string)
    requires NoBraces(a) && NoBraces(b)
    ensures NoBraces(a + b)
  {
    assert forall c :: c in a + b ==> c in a || c in b;
  }

  lemma NoBracesTail(s: string)
    requires |s| > 0 && NoBraces(s)
    ensures NoBraces(s[1..])
  {
    assert forall c :: c in s[1..] ==> c in s;
  }

  /** A character other than a brace is copied. */
  lemma FormatCopies(s: string, arg: string)
    requires |s| > 0 && s[0] != '{' && s[0] != '}'
    ensures Format(s, arg) == Prepend([s[0]], Format(s[1..], arg))
  {
  }

  /** Prefixing twice is prefixing once with both texts. */
  lemma PrependTwice(a: string, b: string, r: Result<string, FormatError>)
    ensures Prepend(a, Prepend(b, r)) == Prepend(a + b, r)
  {
    if r.Ok? {
      assert a + (b + r.value) == (a + b) + r.value;
    }
  }

  /** Brace-free text in front of a template is copied to the front of the
      formatted result, and a format error stays an error. */
  lemma {:induction false} FormatPrefix(prefix: string, template: string, arg: string)
    requires NoBraces(prefix)
    ensures Format(prefix + template, arg) == Prepend(prefix, Format(template, arg))
    decreases |prefix|
  {
    if |prefix| == 0 {
      assert prefix + template == template;
      var r := Format(template, arg);
      assert r.Ok? ==> prefix + r.value == r.value;
    } else {
      var s, rest := prefix + template, prefix[1..];
      NoBracesTail(prefix);
      assert s[0] == prefix[0] && s[1..] == rest + template;
      FormatCopies(s, arg);
      FormatPrefix(rest, template, arg);
      PrependTwice([prefix[0]], rest, Format(template, arg));
      assert [prefix[0]] + rest == prefix;
    }
  }

  /** The placeholder is replaced by the argument. */
  lemma FormatReplacesPlaceholder(after: string, arg: string)
    ensures Format(Placeholder + after, arg) == Prepend(arg, Format(after, arg))
  {
    var t := Placeholder + after;
    assert t[0] == '{' && t[1] == '0';
    assert t[..3] == Placeholder && t[3..] == after;
  }

  /** A template with one {0} and no other brace formats to the text with the
      argument in the placeholder's place. */
  lemma {:induction false} FormatSubstitutes(before: string, after: string, arg: string)
    requires NoBraces(before) && NoBraces(after)
    ensures Format(before + Placeholder + after, arg) == Ok(before + arg + after)
    decreases |before|
  {
    if |before| == 0 {
      assert before + Placeholder + after == Placeholder + after;
      assert before + arg + after == arg + after;
      FormatPlaceholderFirst(after, arg);
    } else {
      NoBracesTail(before);
      FormatSubstitutes(before[1..], after, arg);
      FormatSubstitutesStep(before, after, arg);
    }
  }

  lemma FormatPlaceholderFirst(after: string, arg: string)
    requires NoBraces(after)
    ensures Format(Placeholder + after, arg) == Ok(arg + after)
  {
    FormatReplacesPlaceholder(after, arg);
    FormatPlain(after, arg);
  }

  lemma FormatSubstitutesStep(before: string, after: string, arg: string)
    requires |before| > 0 && NoBraces(before)
    requires Format(before[1..] + Placeholder + after, arg) == Ok(before[1..] + arg + after)
    ensures Format(before + Placeholder + after, arg) == Ok(before + arg + after)
  {
    var t := before + Placeholder + after;
    assert t[0] == before[0];
    assert t[1..] == before[1..] + Placeholder + after;
    FormatCopies(t, arg);
    assert [before[0]] + (before[1..] + arg + after) == before + arg + after;
  }

  /** GetErrorMessage: the template formatted with the subject. */
  function GetErrorMessage(v: ValidationResult, subject: string): (r: Result<string, FormatError>)
    ensures NoBraces(v.errorMessage) ==> r == Ok(v.errorMessage)
  {
    if NoBraces(v.errorMessage) then FormatPlain(v.errorMessage, subject); Format(v.errorMessage, subject)
    else Format(v.errorMessage, subject)
  }

  function Custom(errorCondition: ErrorCondition, errorMessage: string): (v: ValidationResult)
    ensures v.errorCondition == errorCondition && v.errorMessage == errorMessage
  {
    ValidationResult(errorCondition, errorMessage)
  }

  function NoErrorResult(): ValidationResult {
    ValidationResult(NoError, "")
  }

  function InvalidResult(): ValidationResult {
    ValidationResult(Invalid, "Please enter a valid " + Placeholder + ".")
  }

  function EmptyResult(): ValidationResult {
    ValidationResult(Empty, "Please enter the " + Placeholder + ".")
  }

  /** The min and max are their ToString() texts. */
  function RangeTemplate(min: string, max: string): string {
    "The " + Placeholder + " must be between " + min + " and " + max + " (inclusive)."
  }

  /** TooSmall carries TooLong, as written. */
  function TooSmallResult(min: string, max: string): ValidationResult {
    ValidationResult(TooLong, RangeTemplate(min, max))
  }

  function TooLargeResult(min: string, max: string): ValidationResult {
    ValidationResult(TooLarge, RangeTemplate(min, max))
  }

  /** The messages the factories produce for a subject. */
  lemma FactoryMessages(subject: string)
    ensures NoErrorResult().errorCondition == NoError && GetErrorMessage(NoErrorResult(), subject) == Ok("")
    ensures InvalidResult().errorCondition == Invalid
      && GetErrorMessage(InvalidResult(), subject) == Ok("Please enter a valid " + subject + ".")
    ensures EmptyResult().errorCondition == Empty
      && GetErrorMessage(EmptyResult(), subject) == Ok("Please enter the " + subject + ".")
  {
    FormatSubstitutes("Please enter a valid ", ".", subject);
    FormatSubstitutes("Please enter the ", ".", subject);
  }

  /** TooSmall and TooLarge describe the same range, with conditions TooLong
      and TooLarge; bounds whose text has no braces appear verbatim. */
  lemma RangeMessages(min: string, max: string, subject: string)
    requires NoBraces(min) && NoBraces(max)
    ensures TooSmallResult(min, max).errorCondition == TooLong
    ensures TooLargeResult(min, max).errorCondition == TooLarge
    ensures GetErrorMessage(TooSmallResult(min, max), subject) == GetErrorMessage(TooLargeResult(min, max), subject)
    ensures GetErrorMessage(TooLargeResult(min, max), subject)
      == Ok("The " + subject + " must be between " + min + " and " + max + " (inclusive).")
  {
    var after := " must be between " + min + " and " + max + " (inclusive).";
    assert RangeTemplate(min, max) == "The " + Placeholder + after;
    RangeTailNoBraces(min, max);
    FormatSubstitutes("The ", after, subject);
    assert "The " + subject + after == "The " + subject + " must be between " + min + " and " + max + " (inclusive).";
  }

  /** The text after the placeholder in the range template has no braces. */
  lemma RangeTailNoBraces(min: string, max: string)
    requires NoBraces(min) && NoBraces(max)
    ensures NoBraces(" must be between " + min + " and " + max + " (inclusive).")
  {
    NoBracesAppend(" must be between ", min);
    NoBracesAppend(" must be between " + min, " and ");
    NoBracesAppend(" must be between " + min + " and ", max);
    NoBracesAppend(" must be between " + min + " and " + max, " (inclusive).");
  }
}

=== FILE: wrappers.dfy ===
/** Option and Result datatypes: the model's stand-ins for .NET's null and for
    thrown exceptions. */
module Wrappers {

  /** A nullable value: None plays the part of null. */
  datatype Option<+T> = None | Some(value: T) {
    function GetOr(default: T): T {
      match this
      case Some(v) => v
      case None => default
    }
  }

  /** The outcome of an operation that may throw: Err carries the exception. */
  datatype Result<+T, +E> = Ok(value: T) | Err(error: E) {
    predicate IsFailure() {
      Err?
    }

    function PropagateFailure<U>(): Result<U, E>
      requires Err?
    {
      Err(error)
    }

    function Extract(): T
      requires Ok?
    {
      value
    }
  }
}
